=== FILE: README.md ===
# Planar Langford pairings: a Dafny model of `planar_mt.cpp`

`planar_mt.cpp` counts the planar Langford pairings of order `n`. In such a
pairing each value `1..n` appears twice, the two copies of `v` having exactly
`v` other entries between them. The pairs can be drawn as arcs above or below
the line without crossing. The program runs a depth-first search, `dfs<n>`,
over positions `0..2n-1`. At each position it either opens an arc
(orientation 0 or 1) or closes the latest still-open arc of one orientation.
The length of that arc fixes its value. The search keeps, per depth:

- an availability word, the values not yet closed;
- two open words, one per orientation; an opening at position `p` is bit
  `2n-1-p`, so the least one-bit is the latest opening;
- the closing position `pos[m]` of every closed value `m+1`.

`kMaxThreads` (511) threads each run the whole search. At the depth
`k_limit` a thread continues only from the nodes whose hash, reduced modulo
511, is its own number. `solve<n>` returns 0 at once for the orders that
have no pairing. Otherwise it starts the threads, which append their
recorded `pos` vectors to one vector, and `unique_count` sorts that vector
and counts its distinct entries. `print` rebuilds the sequence from a `pos`
vector.

The model, module by module:

- `Words` holds the machine words as sets of one-bit indices, with
  `__builtin_ffsll`, `x & (x-1)`, `x ^ (1 << m)` and the initial mask.
- `Bits` holds the words as non-negative numbers. It defines `&`, `|`, `^`,
  `>>`, `x - 1` and `__builtin_ffsll` digit by digit, and proves that each
  expression of the search computes the set operation of `Words`.
- `WordStep` runs the loop body of `dfs` on those numbers, with the source's
  expressions. It proves that, read as sets, the words take the same steps
  and push the same children, so the search on words records exactly what
  the search on sets records.
- `Langford` holds Langford sequences, closing positions and the
  reconstruction of `print`. It proves the round trip between them, the
  mod-4 condition on `n` and the reversal symmetry.
- `SearchState` holds one search node, the step of the loop body, the
  children pushed and the invariant every reached node satisfies.
- `Partition` holds the division depth and the owner of a node.
- `Search` holds the search as a recursive function. Children are explored
  in the order the stack pops them.
- `Soundness` proves that every recorded vector is a Langford pairing. It
  also proves that no recorded pairing is the reversal of another, and that
  the early return of `solve` loses nothing.
- `WorkSplit` proves that the threads' records, pooled, are those of the
  undivided search.
- `DecisionStack` runs `dfs` as written. It has one loop over an explicit
  stack of `int8_t` decisions and the per-depth arrays `availability` and
  `open`. `pos` is written when a value closes and never restored. It proves
  that the loop records exactly what the recursive search records, in the
  same order. The reason is that the search below a node reads `pos` only at
  values that node has already closed.
- `Planarity` proves that the search records exactly the planar pairings
  asked for. Every recorded vector can be drawn without crossings, with
  each arc on the side of the orientation it was closed in. Conversely,
  every planar Langford pairing whose ones close by position `n` is
  recorded. The search can replay any crossing-free drawing of it position
  by position, and each replayed step is a child the search pushes. A
  drawing whose arc at position 0 is above the line is first turned over;
  this is how forcing that arc below the line (line 189) loses no pairing.
- `Counting` models `unique_count`.
- `Solver` models `solve`. Each thread runs `DecisionStack.DfsLoop`.

## Model

| member | source | states |
|---|---|---|
| Words.Ffs | planar_mt.cpp:237-239 | `__builtin_ffsll` of a word is 0 exactly for the empty word, else one plus its least one-bit |
| Words.ClearLowest | planar_mt.cpp:204 | `x & (x - 1)` removes exactly the least one-bit and nothing else; the zero word stays zero |
| Words.Toggle | planar_mt.cpp:203 | `avail ^= 1 << m` flips bit `m` and keeps every other bit |
| Words.LowBits | planar_mt.cpp:157-162 | the initial availability mask, `msb` or'ed with `msb - 1`, has exactly the bits `0..n-1` |
| Words.LowBitsCard | planar_mt.cpp:159-162 | the initial availability word holds `n` values |
| Langford.Reconstruct | planar_mt.cpp:346-367 | the rebuild of `print` succeeds (its asserts hold) exactly when every pair fits in `0..2n-1` and no two pairs share a slot; the sequence it yields is a Langford pairing with value `m+1` at `pos[m]` and `pos[m]-m-2` |
| Langford.FillHolds | planar_mt.cpp:352-359 | after the first `j` values are written, the rebuild has not failed exactly when their slots are in range and pairwise apart, and each slot holds the value that owns it |
| Langford.Covered | planar_mt.cpp:361-365 | once all `n` values are written no entry is left at -1, so the final asserts `0 <= s[i] <= n` hold |
| Langford.RoundTrip | planar_mt.cpp:346-367 | every Langford pairing is rebuilt from its closing positions |
| Langford.PositionsDetermined | planar_mt.cpp:346-367 | the closing positions read back from a rebuilt pairing are the `pos` it was rebuilt from |
| Langford.LangfordOrders | planar_mt.cpp:280-282 | a Langford pairing of order `n` exists only when `n % 4` is 0 or 3 |
| Langford.ReverseLangford | planar_mt.cpp:243 | the reversal of a Langford pairing is one |
| Langford.TwinsSplit | planar_mt.cpp:243 | of a pairing and its reversal exactly one closes its pair of ones at a position `<= n` |
| SearchState.ChildrenAreLegal | planar_mt.cpp:235-252 | a decision is pushed for a node exactly when it opens while fewer than `n` pairs are open, or closes the latest opening of one orientation as the available value its distance gives, the value 1 only up to position `n` |
| SearchState.FfsFindsLatest | planar_mt.cpp:235-240 | `k - 2n - 2 + ffs(open[d])` is the distance to the latest opening of orientation `d`, less 2 |
| SearchState.PlaceClose | planar_mt.cpp:200-215 | a close sets `pos[m]` to `k`, removes `m` from the availability word and the latest opening from its open word, and changes nothing else |
| SearchState.PlaceOpen | planar_mt.cpp:205-215 | an open sets bit `2n-1-k`, which was clear in both open words, and counts one more open pair; nothing else changes |
| SearchState.PlaceKeepsShape | planar_mt.cpp:191-216 | a pushed decision leads to a node of the same shape one position further |
| SearchState.PlaceKeepsInv | planar_mt.cpp:191-216 | a pushed decision leads to a node where closed pairs are in range and apart, open positions are free, and the counts of open and closed pairs add up to `k` |
| SearchState.DepthCounts | planar_mt.cpp:205-252 | at every node `k` is the number of opens plus the number of closes, and at most `n` pairs have been opened |
| SearchState.LeafComplete | planar_mt.cpp:217-220 | at `k == 2n` every value is closed, both open words are zero, and `pos` is a valid Langford layout with the ones closing by position `n` |
| SearchState.LeafIsLangford | planar_mt.cpp:217-220 | a recorded `pos` passes `print`'s asserts and is read back from the pairing it stands for |
| SearchState.RootFacts | planar_mt.cpp:161-190 | the start node satisfies the invariant, its children are the two opens at position 0, and the root decision is one of them |
| SearchState.FitsMachineWords | planar_mt.cpp:154-172 | at every node the availability word fits 31 bits, the open words 62 bits, `k`, `num_open` and `offset` fit `int8_t`, the close value `m = offset + ffs(openings[d])` of line 239 fits `int8_t` for both words, and every recorded position fits `int8_t` |
| Bits.AndBits | planar_mt.cpp:204 | bit `i` of `x & y` is set exactly when it is set in both `x` and `y` |
| Bits.OrBits | planar_mt.cpp:206 | bit `i` of `x or y` is set exactly when it is set in `x` or in `y` |
| Bits.XorBits | planar_mt.cpp:203 | bit `i` of `x ^ y` is set exactly when it is set in one of `x`, `y` but not both |
| Bits.ShrBits | planar_mt.cpp:206 | bit `i` of `x >> b` is bit `i + b` of `x` |
| Bits.FfsBits | planar_mt.cpp:239 | `__builtin_ffsll(x)` is 0 exactly for `x == 0`, and otherwise one plus the index of a one-bit with no one-bit below it |
| Bits.PredecessorBits | planar_mt.cpp:204 | `x - 1` for `x > 0` sets every bit below the least one-bit, clears that bit and keeps the bits above it |
| Bits.Mask | planar_mt.cpp:162 | `msb - 1` with `msb = 1 << j` has exactly the bits `0..j-1` |
| Bits.ClearLowestBits | planar_mt.cpp:204 | `x & (x - 1)` keeps every one-bit of `x` except the least one |
| Bits.FfsOfWord | planar_mt.cpp:239 | on a 64-bit word `__builtin_ffsll` is `Words.Ffs` of the word's set of one-bits |
| Bits.ClearLowestOfWord | planar_mt.cpp:204 | `openings[d] &= openings[d] - 1` stays below the word's bound and is `Words.ClearLowest` of its set |
| Bits.ToggleOfWord | planar_mt.cpp:203 | `avail ^= 1 << m` stays below the word's bound and is `Words.Toggle` of its set |
| Bits.SetOfWord | planar_mt.cpp:206 | the or-assignment of `nn1 >> k` to `openings[d]` stays below the word's bound and adds exactly index `2n-1-k` to its set |
| Bits.TestOfWord | planar_mt.cpp:242 | `(avail >> m) & 1` is 1 exactly when `m` is in the set of `avail` |
| Bits.LowBitsOfWord | planar_mt.cpp:157-162 | `availability[0]`, `msb` or'ed with `msb - 1`, is below `2^31` and its set is the values `0..n-1` |
| WordStep.AsUnsigned | planar_mt.cpp:242 | `(unsigned)m` is `m` for `m >= 0` and above every order for a negative `m` |
| WordStep.CloseTestSets | planar_mt.cpp:242-243 | the test `(unsigned)m < n && ((avail >> m) & 1)`, then the test that `m` is nonzero or `k <= n`, holds exactly when `m` is a value in `0..n-1` in the set of `avail`, the value 1 only up to position `n` |
| WordStep.StartRefines | planar_mt.cpp:157-169 | the words before the loop fit their bounds and, read as sets, are the start node of the search |
| WordStep.PlaceCloseView | planar_mt.cpp:200-204 | a close on the words, read as sets, is the close on sets |
| WordStep.PlaceCloseFits | planar_mt.cpp:200-204 | a close keeps every word below its sign bit |
| WordStep.PlaceOpenView | planar_mt.cpp:205-207 | an open on the words keeps them below their sign bits and, read as sets, is the open on sets |
| WordStep.PlaceRefines | planar_mt.cpp:200-216 | `place_macro` and `++k` on the words keep them below their sign bits and, read as sets, compute the step on sets |
| WordStep.CloseChildRefines | planar_mt.cpp:235-248 | the close test on the words pushes exactly the close child the sets give |
| WordStep.ChildrenRefine | planar_mt.cpp:235-252 | the words push exactly the children the sets give, in the same order |
| WordStep.ExploreRefines | planar_mt.cpp:191-254 | below every node the search on words records the same vectors, in the same order, as the search on sets |
| WordStep.DfsRefines | planar_mt.cpp:154-255 | `dfs` run on the words records exactly what the search on sets records |
| Partition.Owner | planar_mt.cpp:227-230 | the thread owning a node is one of `0..kMaxThreads-1` |
| Partition.ExactlyOneOwner | planar_mt.cpp:226-233 | at depth `k_limit` exactly one thread, the owner, continues from a node and every other thread abandons it; at every other depth, and in the undivided search, every thread continues |
| Partition.KLimitBelowLeaves | planar_mt.cpp:226 | for every order searched, `k_limit` lies below the leaf depth `2n`, and it is at least 1 exactly when `n >= 6` |
| Search.DfsFromRoot | planar_mt.cpp:190-192 | the run starting from the one pushed root decision is the search below the node that decision produces |
| Soundness.ExploreSound | planar_mt.cpp:191-254 | every vector recorded below a reached node is a valid Langford layout with the ones closing by position `n` |
| Soundness.DfsSound | planar_mt.cpp:154-255 | every vector `dfs` records, for any thread, is the closing-position vector of a Langford pairing that `print` rebuilds |
| Soundness.NoReversalTwins | planar_mt.cpp:243 | no recorded pairing is the reversal of a recorded pairing |
| Soundness.RecordedOrders | planar_mt.cpp:280-282 | the search records something only for orders with `n % 4` equal to 0 or 3 |
| Soundness.GuardLosesNothing | planar_mt.cpp:280-282 | for `n % 4` equal to 1 or 2 the search records nothing, so the early return changes no count |
| WorkSplit.BeyondLimit | planar_mt.cpp:226-233 | below the division depth a thread explores the whole subtree |
| WorkSplit.AtLimit | planar_mt.cpp:226-233 | at the division depth a thread explores a node's subtree exactly when it owns the node |
| WorkSplit.MergeZip | planar_mt.cpp:217-220 | pooling the threads' records commutes with concatenating them child by child |
| WorkSplit.SplitExact | planar_mt.cpp:222-233 | from any node above the division depth the threads' records, pooled, are the undivided search's records, each as often |
| WorkSplit.ThreadsDivide | planar_mt.cpp:283-301 | for `n >= 6` all threads together record exactly what the undivided search records, with the same multiplicities |
| WorkSplit.ThreadsRepeat | planar_mt.cpp:283-301 | for `n < 6` the division depth is never reached and every thread records what the undivided search does |
| WorkSplit.ThreadsCover | planar_mt.cpp:283-301 | the `results` vector holds exactly the vectors the undivided search records |
| DecisionStack.DfsLoop | planar_mt.cpp:154-255 | `dfs` as written terminates and records exactly the vectors the recursive search records, in the same order. It uses the explicit byte stack, the per-depth arrays and a `pos` that is never restored. The arrays start with arbitrary non-negative contents apart from the entries set before the loop, and every push stays inside the `24n` bytes allocated |
| DecisionStack.Push | planar_mt.cpp:177-182 | `push` stores the four fields of a decision above the bytes in use, keeps those bytes, and raises `top` by four |
| DecisionStack.PopPush | planar_mt.cpp:177-188 | a stack holding the frames `fs` holds `fs` and the new frame after a `push`, and `pop` then returns the pushed decision |
| DecisionStack.HoldsPop | planar_mt.cpp:183-188 | `pop` on a stack holding the frames `fs` returns the top frame's decision and leaves a stack holding the frames below it |
| DecisionStack.HoldsPushAll | planar_mt.cpp:236-252 | pushing the children in order leaves the stack holding the old frames followed by one frame per child |
| DecisionStack.PushFits | planar_mt.cpp:171-172 | when the children are pushed, the stack stays within `24n - 8` of its `24n` bytes, and each field of each child fits an `int8_t` |
| DecisionStack.Step | planar_mt.cpp:191-252 | one iteration saves the child's words at its depth, leaves `pos` as the child's, keeps the array sizes, and only appends to `results` |
| DecisionStack.InitKept | planar_mt.cpp:161-190 | after the set-up before the loop, the loop invariant holds with the root decision as the only frame: the frames it owes are the whole search |
| DecisionStack.StepKept | planar_mt.cpp:191-252 | from any state satisfying the loop invariant, the popped decision is one `place_macro` accepts and the pushes fit. The iteration restores the invariant, so the recorded vectors followed by those still owed are the whole search, and it lowers the weight of the frames |
| DecisionStack.PlaceStep | planar_mt.cpp:192-216 | the popped decision is resumed from the words saved at its depth, and `place_macro` and `++k` are applied. The result is a node with the search invariant, whose search is exactly the popped decision's share of the recursive search, whose words are saved at depth `k+1`, and which leaves every pending frame intact |
| DecisionStack.WritesKept | planar_mt.cpp:202-216 | writing `pos[m]`, `availability[k+1]`, `open[2k+2]` and `open[2k+3]` overwrites no pending frame's saved words and no position its node has closed |
| DecisionStack.ExploreIgnoresOpenValues | planar_mt.cpp:201-202 | what the search records below a node does not depend on the `pos` entries of values that node has not closed, so `pos` need not be restored |
| DecisionStack.LeafKept | planar_mt.cpp:217-220 | at `k == 2n`, appending `pos` keeps the loop invariant |
| DecisionStack.SkipKept | planar_mt.cpp:226-233 | abandoning a node owned by another thread keeps the loop invariant |
| DecisionStack.ChildrenKept | planar_mt.cpp:234-252 | pushing the children keeps the loop invariant |
| DecisionStack.PushOwes | planar_mt.cpp:236-252 | the frames pushed for a node, popped in order, owe exactly the vectors the search below the node records |
| DecisionStack.WeightStep | planar_mt.cpp:236-252 | replacing the popped frame by the at most four frames pushed one depth further lowers the weight, so the loop terminates |
| DecisionStack.EmptyStack | planar_mt.cpp:191 | once `top` is 0, nothing is owed and `results` is what the recursive search records |
| Counting.LexTotal | planar_mt.cpp:263 | the array order used by `sort` is total |
| Counting.LexAntisymmetric | planar_mt.cpp:263-268 | two arrays each at most the other are equal |
| Counting.LexTransitive | planar_mt.cpp:263 | the array order is transitive |
| Counting.SortLexSorted | planar_mt.cpp:263 | `sort` leaves the results in order |
| Counting.CountStep | planar_mt.cpp:267-273 | in sorted results an entry differing from its predecessor is new, and one equal to it is not |
| Counting.UniqueCount | planar_mt.cpp:260-275 | the results are left a sorted permutation of themselves and the count is the number of distinct results: at most their number, 0 exactly for none |
| Planarity.DrawnClose | planar_mt.cpp:200-204 | closing the latest opening of orientation `d` draws the new arc on side `d` without crossing a closed arc of that side, and no open arc of a side starts inside a closed arc of the same side |
| Planarity.DrawnOpen | planar_mt.cpp:205-207 | opening a pair at `k` keeps the drawing so far free of crossings, since every closed arc ends before `k` |
| Planarity.DrawnLeaf | planar_mt.cpp:217-220 | at `k == 2n` the drawing so far covers every arc, so the recorded `pos` is planar |
| Planarity.ExploreDrawn | planar_mt.cpp:191-254 | every vector recorded below a reached node with a crossing-free drawing so far belongs to a planar pairing |
| Planarity.DfsDrawn | planar_mt.cpp:6-8 | every vector `dfs` records, for any thread, is the closing positions of a pairing whose arcs can be drawn without crossings |
| Planarity.ReplayShape | planar_mt.cpp:191-216 | replaying a drawn Langford pairing up to any position `k` gives a node of the search's shape: at most `n` pairs opened, open words holding only openings before `k`, and no opening in both words |
| Planarity.ReplayCloseLegal | planar_mt.cpp:237-245 | at the closing position of a value, closing it on its side is a decision the search pushes: its opening is the latest open one of that side, it is not yet closed, and the ones close by position `n` |
| Planarity.ReplayOpenLegal | planar_mt.cpp:249-252 | at the opening position of a value fewer than `n` pairs are open, so opening it on its side is a decision the search pushes |
| Planarity.ReplayStep | planar_mt.cpp:191-252 | at every position the pairing's decision is legal at the replayed node, and `place_macro` with `++k` leads to the replayed node one position further |
| Planarity.ReplayRoot | planar_mt.cpp:161-189 | before any position the replayed node is the start node, and the first decision is the root decision `push(0, -1, 0, 0)` when the arc at position 0 is below the line |
| Planarity.Reached | planar_mt.cpp:234-252 | a vector recorded below a pushed child is recorded below its parent |
| Planarity.PathReaches | planar_mt.cpp:191-254 | along a path of pushed decisions from a node to a leaf, the undivided search records the leaf's `pos` below that node |
| Planarity.ReplayFromRoot | planar_mt.cpp:154-255 | a pairing drawn with its arc at position 0 below the line and its ones closing by position `n` is recorded by the undivided search |
| Planarity.FlipDrawing | planar_mt.cpp:42-43 | turning a crossing-free drawing upside down keeps it free of crossings, so top and bottom twins are planar together |
| Planarity.FirstOnZero | planar_mt.cpp:42-43 | every planar pairing has a crossing-free drawing whose arc at position 0 is below the line |
| Planarity.DfsComplete | planar_mt.cpp:40-47 | every planar Langford pairing whose ones close at position `n` or before is recorded by the undivided search |
| Solver.FoundPairingsExact | planar_mt.cpp:6-8 | the pairings the search finds are exactly the planar Langford pairings of order `n` whose ones close at position `n` or before |
| Solver.FoundPairingsCount | planar_mt.cpp:302 | the number of distinct recorded vectors is the number of distinct Langford pairings they stand for |
| Solver.Solve | planar_mt.cpp:279-303 | `solve` returns 0 for the excluded orders and otherwise the number of distinct pairings the threads' `dfs` runs find; those are exactly the planar Langford pairings whose ones close at position `n` or before |

## Left out

- Threads, the mutex and the polling loop of `solve` (lines 283-301) are not modelled. The threads run one after another, appending in thread order. Only the number of distinct vectors is returned, so the interleaving does not matter.
- The concrete hash `uint64_t(131071 * (openings[1] - openings[0]) + avail)` (line 230) is a parameter: any function of the three words. The work split holds for every hash. The source's signed 64-bit product can overflow, which is undefined behaviour in C++; leaving the hash abstract avoids depending on it.
- `Search` states the search as a recursion in the order the stack pops, with each node's words as values. `DecisionStack` models the loop as written and proves it records the same.
- The mutex around `results.push_back` (lines 218-220) is not modelled; `DfsLoop` appends to its own sequence.
- The opening words are copied to `open[2k+2]` and `open[2k+3]` (lines 193-195) and then updated in place. `DfsLoop` writes their final values there in one step. No read falls between the copy and the update.
- The search is stated on words as sets of one-bit indices. `FitsMachineWords` shows every index stays inside the word, so no operation of the search step, apart from the hash of line 230 (left abstract, see above), overflows or shifts by 64 or more. `WordStep` runs the same step on the words as numbers and proves it agrees. Those numbers are non-negative and below the sign bit, so signed wrap-around is not modelled. The one exception is `x - 1` of the zero word, which wraps to all ones.
- `int8_t` wrap-around of `k`, `m` and `offset` is not modelled; `FitsMachineWords` shows every value stays within `int8_t`.
- In the recursive search `pos` starts with -1 in every entry. In the source its initial contents are indeterminate. Every entry is written before a vector is recorded (`LeafComplete`), so the start value does not matter. `DecisionStack.DfsLoop` takes arbitrary initial contents for `pos` and the stack bytes, and arbitrary non-negative contents for `availability` and `open`; no entry is read before it is written.
- `solve` returns `int` while `unique_count` returns `int64_t`, so line 302 narrows the count. `Solver.Solve` returns an unbounded `int` and does not model that narrowing. The published counts for the orders searched (lines 329-342) are far below 2^31.
- `n` is a run-time parameter here, not a template argument; `ValidOrder` limits it to `1..31` as `kMaxN` does.
- `solve` returns 0 for `n > 31` even though pairings exist for larger orders; this is the source's own limit, modelled as written.
- Printing, timing, argument parsing, `main` and the table of known results (lines 305-407) are not modelled. `kPrint` is false, so `unique_count` prints nothing.

=== FILE: bits.dfy ===
/** The bit operations of the search on non-negative machine words.

    Every word the search keeps is non-negative and below its sign bit (see
    `SearchState.FitsMachineWords`), so an `int32_t` or `int64_t` word is a
    natural number here and its bit `i` is the `i`-th binary digit.  The
    operators `&`, `|`, `^`, `>>` and `__builtin_ffsll` are defined digit by
    digit; `x - 1` of the zero word wraps to the all-ones 64-bit word.  The
    lemmas at the end show that each operation the search applies computes
    the set operation of the module `Words` on the word's one-bits. */
module Bits {
  import Words

  /** `2^i`: the word `1 << i`. */
  function Pow2(i: nat): (r: nat)
    ensures r >= 1
  {
    if i == 0 then 1 else 2 * Pow2(i - 1)
  }

  /** Bit `i` of `x`. */
  predicate Bit(x: nat, i: nat)
  {
    if i == 0 then x % 2 == 1 else Bit(x / 2, i - 1)
  }

  /** The zero word has no one-bit. */
  lemma {:induction false} ZeroBit(i: nat)
    ensures !Bit(0, i)
  {
    if i > 0 {
      ZeroBit(i - 1);
    }
  }

  lemma NoBitsInZero()
    ensures forall i: nat :: !Bit(0, i)
  {
    forall i: nat
      ensures !Bit(0, i)
    {
      ZeroBit(i);
    }
  }

  /** The one-bits of `x` among bits `0..w-1`: the word as a set. */
  function Word(x: nat, w: nat): set<int>
  {
    set i: int | 0 <= i < w && Bit(x, i)
  }

  /** `x & y` */
  function And(x: nat, y: nat): nat
    decreases x
  {
    if x == 0 then 0
    else 2 * And(x / 2, y / 2) + (if x % 2 == 1 && y % 2 == 1 then 1 else 0)
  }

  /** `x | y` */
  function Or(x: nat, y: nat): nat
    decreases x + y
  {
    if x == 0 && y == 0 then 0
    else 2 * Or(x / 2, y / 2) + (if x % 2 == 1 || y % 2 == 1 then 1 else 0)
  }

  /** `x ^ y` */
  function Xor(x: nat, y: nat): nat
    decreases x + y
  {
    if x == 0 && y == 0 then 0
    else 2 * Xor(x / 2, y / 2) + (if x % 2 != y % 2 then 1 else 0)
  }

  /** `x >> b` */
  function Shr(x: nat, b: nat): nat
    decreases b
  {
    if b == 0 then x else Shr(x / 2, b - 1)
  }

  /** Bit `i` of `x` is the lowest bit of `x` shifted right by `i`. */
  lemma {:induction false} BitStep(x: nat, i: nat)
    requires i > 0
    ensures Bit(x, i) <==> Bit(x / 2, i - 1)
  {}

  lemma {:induction false} AndBits(x: nat, y: nat)
    ensures forall i: nat :: Bit(And(x, y), i) <==> Bit(x, i) && Bit(y, i)
    decreases x
  {
    NoBitsInZero();
    if x != 0 {
      AndBits(x / 2, y / 2);
      var r := And(x, y);
      assert r / 2 == And(x / 2, y / 2);
      forall i: nat | i > 0
        ensures Bit(r, i) <==> Bit(x, i) && Bit(y, i)
      {
        BitStep(r, i);
        BitStep(x, i);
        BitStep(y, i);
      }
    }
  }

  lemma {:induction false} OrBits(x: nat, y: nat)
    ensures forall i: nat :: Bit(Or(x, y), i) <==> Bit(x, i) || Bit(y, i)
    decreases x + y
  {
    NoBitsInZero();
    if x != 0 || y != 0 {
      OrBits(x / 2, y / 2);
      var r := Or(x, y);
      assert r / 2 == Or(x / 2, y / 2);
      forall i: nat | i > 0
        ensures Bit(r, i) <==> Bit(x, i) || Bit(y, i)
      {
        BitStep(r, i);
        BitStep(x, i);
        BitStep(y, i);
      }
    }
  }

  lemma {:induction false} XorBits(x: nat, y: nat)
    ensures forall i: nat :: Bit(Xor(x, y), i) <==> Bit(x, i) != Bit(y, i)
    decreases x + y
  {
    NoBitsInZero();
    if x != 0 || y != 0 {
      XorBits(x / 2, y / 2);
      var r := Xor(x, y);
      assert r / 2 == Xor(x / 2, y / 2);
      forall i: nat | i > 0
        ensures Bit(r, i) <==> Bit(x, i) != Bit(y, i)
      {
        BitStep(r, i);
        BitStep(x, i);
        BitStep(y, i);
      }
    }
  }

  lemma {:induction false} ShrBits(x: nat, b: nat)
    ensures forall i: nat :: Bit(Shr(x, b), i) <==> Bit(x, i + b)
    decreases b
  {
    if b > 0 {
      ShrBits(x / 2, b - 1);
      forall i: nat
        ensures Bit(Shr(x, b), i) <==> Bit(x, i + b)
      {
        BitStep(x, i + b);
      }
    }
  }

  /** The 64-bit word with every bit set. */
  const AllOnes: nat := 0xFFFF_FFFF_FFFF_FFFF

  /** `x - 1` in a 64-bit word: the zero word wraps to all ones. */
  function Minus1(x: nat): nat
  {
    if x == 0 then AllOnes else x - 1
  }

  /** `__builtin_ffsll(x)`: one plus the index of the least one-bit, or 0
      for the zero word. */
  function Ffs(x: nat): nat
    decreases x
  {
    if x == 0 then 0
    else if x % 2 == 1 then 1
    else Ffs(x / 2) + 1
  }

  /** `Ffs(x)` is 0 exactly for the zero word, and otherwise one plus the
      index of a one-bit with no one-bit below it. */
  lemma {:induction false} FfsBits(x: nat)
    ensures Ffs(x) == 0 <==> x == 0
    ensures Ffs(x) > 0 ==> Bit(x, Ffs(x) - 1)
    ensures forall i: nat :: i + 1 < Ffs(x) ==> !Bit(x, i)
    decreases x
  {
    if x != 0 && x % 2 == 0 {
      FfsBits(x / 2);
      forall i: nat | i + 1 < Ffs(x)
        ensures !Bit(x, i)
      {
        if i > 0 {
          BitStep(x, i);
        }
      }
      BitStep(x, Ffs(x) - 1);
    }
  }

  // ---------------------------------------------------------------------
  // Bits of particular words

  /** `1 << j` has bit `j` alone. */
  lemma {:induction false} PowBits(j: nat)
    ensures forall i: nat :: Bit(Pow2(j), i) <==> i == j
    decreases j
  {
    if j == 0 {
      NoBitsInZero();
      assert forall i: nat :: i > 0 ==> (Bit(1, i) <==> Bit(0, i - 1));
    } else {
      PowBits(j - 1);
      assert forall i: nat :: i > 0 ==> (Bit(Pow2(j), i) <==> Bit(Pow2(j - 1), i - 1));
    }
  }

  /** A word below `2^w` has no one-bit at index `w` or above. */
  lemma {:induction false} HighBitsClear(x: nat, w: nat)
    requires x < Pow2(w)
    ensures forall i: nat :: i >= w ==> !Bit(x, i)
    decreases w
  {
    if w == 0 {
      assert x == 0;
      NoBitsInZero();
    } else {
      HighBitsClear(x / 2, w - 1);
      assert forall i: nat :: i >= w ==> (Bit(x, i) <==> Bit(x / 2, i - 1));
    }
  }

  /** The least one-bit of a word below `2^w` lies below `w`. */
  lemma {:induction false} FfsBelow(x: nat, w: nat)
    requires x < Pow2(w)
    ensures Ffs(x) <= w
  {
    HighBitsClear(x, w);
    FfsBits(x);
    assert x == 0 || Bit(x, Ffs(x) - 1);
  }

  /** `2^a <= 2^b` for `a <= b`. */
  lemma {:induction false} PowMonotone(a: nat, b: nat)
    requires a <= b
    ensures Pow2(a) <= Pow2(b)
    decreases b
  {
    if a < b {
      PowMonotone(a, b - 1);
    }
  }

  /** A word below `2^w` has the same set in every wider word. */
  lemma {:induction false} WordWiden(x: nat, w: nat, v: nat)
    requires x < Pow2(w) && w <= v
    ensures x < Pow2(v)
    ensures Word(x, v) == Word(x, w)
  {
    PowMonotone(w, v);
    HighBitsClear(x, w);
  }

  /** A word with no one-bit at index `w` or above is below `2^w`. */
  lemma {:induction false} BelowPow(x: nat, w: nat)
    requires forall i: nat :: i >= w ==> !Bit(x, i)
    ensures x < Pow2(w)
    decreases w
  {
    if w == 0 && x != 0 {
      FfsBits(x);
      assert false;
    } else if w > 0 {
      assert forall i: nat :: i >= w - 1 ==> (Bit(x / 2, i) <==> Bit(x, i + 1));
      BelowPow(x / 2, w - 1);
    }
  }

  /** `x - 1` for `x > 0`: the bits below the least one-bit of `x` become
      one, that bit becomes zero, and the bits above it are kept. */
  lemma {:induction false} PredecessorBits(x: nat)
    requires x > 0
    ensures forall i: nat :: Bit(Minus1(x), i) <==>
              if i + 1 < Ffs(x) then true else if i + 1 == Ffs(x) then false else Bit(x, i)
    decreases x
  {
    var y := Minus1(x);
    if x % 2 == 1 {
      assert Ffs(x) == 1 && y % 2 == 0 && y / 2 == x / 2;
      assert forall i: nat :: i > 0 ==> (Bit(y, i) <==> Bit(x / 2, i - 1));
      assert forall i: nat :: i > 0 ==> (Bit(x, i) <==> Bit(x / 2, i - 1));
    } else {
      PredecessorBits(x / 2);
      assert y % 2 == 1 && y / 2 == Minus1(x / 2);
      assert forall i: nat :: i > 0 ==> (Bit(y, i) <==> Bit(Minus1(x / 2), i - 1));
      assert forall i: nat :: i > 0 ==> (Bit(x, i) <==> Bit(x / 2, i - 1));
    }
  }

  /** `(1 << j) - 1`: the mask `msb - 1` below `msb = 1 << j`. */
  function Mask(j: nat): (r: nat)
    ensures forall i: nat :: Bit(r, i) <==> i < j
  {
    PowBits(j);
    FfsBits(Pow2(j));
    assert Bit(Pow2(j), Ffs(Pow2(j)) - 1);
    PredecessorBits(Pow2(j));
    Pow2(j) - 1
  }

  // ---------------------------------------------------------------------
  // The words as sets

  /** `x & (x - 1)` removes exactly the least one-bit of `x`. */
  lemma {:induction false} ClearLowestBits(x: nat)
    ensures forall i: nat :: Bit(And(x, Minus1(x)), i) <==> Bit(x, i) && i + 1 != Ffs(x)
  {
    AndBits(x, Minus1(x));
    if x > 0 {
      PredecessorBits(x);
    } else {
      NoBitsInZero();
    }
  }

  /** The one-bits of a `w`-bit reading lie below `w`. */
  lemma WordInWord(x: nat, w: nat)
    ensures Words.InWord(Word(x, w), w)
  {
  }

  /** `__builtin_ffsll` of a 64-bit word is `Words.Ffs` of its set of
      one-bits. */
  lemma {:induction false} FfsOfWord(x: nat)
    requires x < Pow2(64)
    ensures Words.InWord(Word(x, 64), 64)
    ensures Ffs(x) == Words.Ffs(Word(x, 64))
  {
    var w := Word(x, 64);
    var f := Words.Ffs(w);
    HighBitsClear(x, 64);
    FfsBits(x);
    if x == 0 {
      NoBitsInZero();
      assert w == {};
    } else {
      assert Ffs(x) - 1 in w;
      assert Words.IsLeast(w, Ffs(x) - 1);
      assert Words.IsLeast(w, f - 1);
    }
  }

  /** `x &= (x - 1)` on a 64-bit word is `Words.ClearLowest` of its set. */
  lemma {:induction false} ClearLowestOfWord(x: nat, w: nat)
    requires x < Pow2(w) && w <= 64
    ensures And(x, Minus1(x)) < Pow2(w)
    ensures Words.InWord(Word(x, 64), 64)
    ensures Word(And(x, Minus1(x)), 64) == Words.ClearLowest(Word(x, 64))
  {
    ClearLowestBits(x);
    HighBitsClear(x, w);
    BelowPow(And(x, Minus1(x)), w);
    assert x < Pow2(64) by {
      HighBitsClear(x, w);
      BelowPow(x, 64);
    }
    FfsOfWord(x);
  }

  /** `x ^ (1 << b)` flips bit `b` of the set and keeps the others. */
  lemma {:induction false} ToggleOfWord(x: nat, b: nat, w: nat)
    requires x < Pow2(w) && b < w
    ensures Xor(x, Pow2(b)) < Pow2(w)
    ensures Word(Xor(x, Pow2(b)), w) == Words.Toggle(Word(x, w), b)
  {
    PowBits(b);
    XorBits(x, Pow2(b));
    HighBitsClear(x, w);
    BelowPow(Xor(x, Pow2(b)), w);
  }

  /** `x | ((1 << a) >> k)` adds bit `a - k` to the set. */
  lemma {:induction false} SetOfWord(x: nat, a: nat, k: nat, w: nat)
    requires x < Pow2(w) && k <= a < w
    ensures Or(x, Shr(Pow2(a), k)) < Pow2(w)
    ensures Word(Or(x, Shr(Pow2(a), k)), w) == Word(x, w) + {a - k}
  {
    PowBits(a);
    ShrBits(Pow2(a), k);
    OrBits(x, Shr(Pow2(a), k));
    HighBitsClear(x, w);
    BelowPow(Or(x, Shr(Pow2(a), k)), w);
  }

  /** `(avail >> m) & 1` tests whether `m` is in the set. */
  lemma {:induction false} TestOfWord(x: nat, m: nat, w: nat)
    requires m < w
    ensures (And(Shr(x, m), 1) == 1) <==> m in Word(x, w)
  {
    var t := And(Shr(x, m), 1);
    ShrBits(x, m);
    AndBits(Shr(x, m), 1);
    PowBits(0);
    assert Pow2(0) == 1;
    assert forall i: nat :: i > 0 ==> !Bit(t, i);
    BelowPow(t, 1);
    assert Bit(t, 0) <==> Bit(x, m);
  }

  /** The initial availability word `msb | (msb - 1)` with
      `msb = 1 << (n - 1)` is the word of the values `0..n-1`, and it fits
      below the sign bit of an `int32_t` for `n <= 31`. */
  lemma {:induction false} LowBitsOfWord(n: nat)
    requires 1 <= n <= 31
    ensures Or(Pow2(n - 1), Mask(n - 1)) < Pow2(31)
    ensures Word(Or(Pow2(n - 1), Mask(n - 1)), 32) == Words.LowBits(n)
  {
    var x := Or(Pow2(n - 1), Mask(n - 1));
    OrBits(Pow2(n - 1), Mask(n - 1));
    PowBits(n - 1);
    assert forall i: nat :: Bit(x, i) <==> i < n;
    BelowPow(x, 31);
  }
}

=== FILE: counting.dfy ===
/** `unique_count`: sort the recorded vectors and count the distinct ones.

    The vectors are `std::array`s, which `std::sort` orders by their
    lexicographic `<`.  Sorting is modelled as an insertion sort, a function
    whose result is a sorted permutation of its input, which is all the
    counting loop relies on. */
module Counting {

  /** The lexicographic order of `std::array`: `a` is at most `b`. */
  predicate LexLe(a: seq<int>, b: seq<int>)
    decreases |a|
  {
    a == [] || (b != [] && (a[0] < b[0] || (a[0] == b[0] && LexLe(a[1..], b[1..]))))
  }

  lemma {:induction false} LexTotal(a: seq<int>, b: seq<int>)
    ensures LexLe(a, b) || LexLe(b, a)
    decreases |a|
  {
    if a != [] && b != [] && a[0] == b[0] {
      LexTotal(a[1..], b[1..]);
    }
  }

  lemma {:induction false} LexAntisymmetric(a: seq<int>, b: seq<int>)
    ensures LexLe(a, b) && LexLe(b, a) ==> a == b
    decreases |a|
  {
    if a != [] && LexLe(a, b) && LexLe(b, a) {
      LexAntisymmetric(a[1..], b[1..]);
      assert a == [a[0]] + a[1..] && b == [b[0]] + b[1..];
    }
  }

  lemma {:induction false} LexTransitive(a: seq<int>, b: seq<int>, c: seq<int>)
    requires LexLe(a, b) && LexLe(b, c)
    ensures LexLe(a, c)
    decreases |a|
  {
    if a != [] && a[0] == b[0] && b[0] == c[0] {
      LexTransitive(a[1..], b[1..], c[1..]);
    }
  }

  /** Every vector is at most every later one. */
  predicate Sorted(s: seq<seq<int>>)
  {
    forall j, k :: 0 <= j < k < |s| ==> LexLe(s[j], s[k])
  }

  /** The distinct vectors of `s`. */
  function Distinct(s: seq<seq<int>>): set<seq<int>>
  {
    set x | x in s
  }

  /** `x` inserted into the sorted `s` before the first vector above it. */
  function Insert(x: seq<int>, s: seq<seq<int>>): (r: seq<seq<int>>)
    ensures multiset(r) == multiset(s) + multiset{x}
    decreases |s|
  {
    if s == [] then [x]
    else if LexLe(x, s[0]) then [x] + s
    else
      assert s == [s[0]] + s[1..];
      [s[0]] + Insert(x, s[1..])
  }

  lemma {:induction false} InsertSorted(x: seq<int>, s: seq<seq<int>>)
    requires Sorted(s)
    ensures Sorted(Insert(x, s))
    decreases |s|
  {
    var r := Insert(x, s);
    if s == [] {
    } else if LexLe(x, s[0]) {
      forall j, k | 0 <= j < k < |r|
        ensures LexLe(r[j], r[k])
      {
        if j == 0 {
          if k > 1 {
            LexTransitive(x, s[0], s[k - 1]);
          }
        } else {
          assert r[j] == s[j - 1] && r[k] == s[k - 1];
        }
      }
    } else {
      LexTotal(x, s[0]);
      SortedTail(s);
      InsertSorted(x, s[1..]);
      ConsSorted(s, x, Insert(x, s[1..]));
    }
  }

  lemma {:induction false} SortedTail(s: seq<seq<int>>)
    requires Sorted(s) && s != []
    ensures Sorted(s[1..])
  {
    var t := s[1..];
    forall j, k | 0 <= j < k < |t|
      ensures LexLe(t[j], t[k])
    {
      assert t[j] == s[j + 1] && t[k] == s[k + 1];
    }
  }

  /** The head of a sorted sequence, put before a sorted rearrangement of
      its tail and one vector above the head, gives a sorted sequence. */
  lemma {:induction false} ConsSorted(s: seq<seq<int>>, x: seq<int>, u: seq<seq<int>>)
    requires Sorted(s) && s != [] && LexLe(s[0], x)
    requires Sorted(u) && multiset(u) == multiset(s[1..]) + multiset{x}
    ensures Sorted([s[0]] + u)
  {
    var t := s[1..];
    var r := [s[0]] + u;
    forall j, k | 0 <= j < k < |r|
      ensures LexLe(r[j], r[k])
    {
      if j == 0 {
        assert r[k] == u[k - 1];
        assert r[k] in multiset(u);
        if r[k] != x {
          assert r[k] in multiset(t);
          var i :| 0 <= i < |t| && t[i] == r[k];
          assert s[i + 1] == r[k];
        }
      } else {
        assert r[j] == u[j - 1] && r[k] == u[k - 1];
      }
    }
  }

  /** `std::sort` on the results: a sorted permutation. */
  function SortLex(s: seq<seq<int>>): (r: seq<seq<int>>)
    ensures multiset(r) == multiset(s)
    decreases |s|
  {
    if s == [] then []
    else
      assert s == s[..|s| - 1] + [s[|s| - 1]];
      Insert(s[|s| - 1], SortLex(s[..|s| - 1]))
  }

  lemma {:induction false} SortLexSorted(s: seq<seq<int>>)
    ensures Sorted(SortLex(s))
    decreases |s|
  {
    if s != [] {
      SortLexSorted(s[..|s| - 1]);
      InsertSorted(s[|s| - 1], SortLex(s[..|s| - 1]));
    }
  }

  /** Two sequences with the same elements counted with multiplicity have
      the same distinct elements. */
  lemma SameDistinct(a: seq<seq<int>>, b: seq<seq<int>>)
    requires multiset(a) == multiset(b)
    ensures Distinct(a) == Distinct(b)
  {
    assert forall x :: x in a <==> x in multiset(a);
    assert forall x :: x in b <==> x in multiset(b);
  }

  lemma SameMembersDistinct(a: seq<seq<int>>, b: seq<seq<int>>)
    requires forall x :: x in a <==> x in b
    ensures Distinct(a) == Distinct(b)
  {
  }

  /** In a sorted sequence a vector different from its predecessor occurs
      nowhere before it. */
  lemma {:induction false} NewInSorted(s: seq<seq<int>>, i: int)
    requires Sorted(s) && 0 < i < |s| && s[i] != s[i - 1]
    ensures s[i] !in s[..i]
  {
    LexAntisymmetric(s[i - 1], s[i]);
    forall j | 0 <= j < i - 1
      ensures s[j] != s[i]
    {
      assert LexLe(s[j], s[i - 1]);
    }
  }

  lemma {:induction false} DistinctStep(s: seq<seq<int>>, i: int)
    requires 0 <= i < |s|
    ensures Distinct(s[..i + 1]) == Distinct(s[..i]) + {s[i]}
  {
    assert s[..i + 1] == s[..i] + [s[i]];
  }

  /** One step of the counting loop: the distinct count grows exactly when
      a vector differs from its predecessor. */
  lemma {:induction false} CountStep(s: seq<seq<int>>, i: int)
    requires Sorted(s) && 0 < i < |s|
    ensures |Distinct(s[..i + 1])| == |Distinct(s[..i])| + if s[i] == s[i - 1] then 0 else 1
  {
    DistinctStep(s, i);
    if s[i] == s[i - 1] {
      assert s[..i][i - 1] == s[i];
      assert s[i] in Distinct(s[..i]);
      assert Distinct(s[..i + 1]) == Distinct(s[..i]);
    } else {
      NewInSorted(s, i);
      assert s[i] !in Distinct(s[..i]);
    }
  }

  lemma {:induction false} DistinctAtMost(s: seq<seq<int>>)
    ensures |Distinct(s)| <= |s|
    decreases |s|
  {
    if s != [] {
      var k := |s| - 1;
      DistinctAtMost(s[..k]);
      DistinctStep(s, k);
      assert s[..k + 1] == s;
    }
  }

  /** The count of `unique_count`: the number of distinct vectors among the
      results, which are left sorted. */
  method UniqueCount(results: seq<seq<int>>) returns (sorted: seq<seq<int>>, unique: int)
    ensures Sorted(sorted) && multiset(sorted) == multiset(results)
    ensures unique == |Distinct(results)|
    ensures 0 <= unique <= |results|
    ensures unique == 0 <==> results == []
  {
    sorted := SortLex(results);
    SortLexSorted(results);
    SameDistinct(sorted, results);
    var total := |sorted|;
    unique := total;
    if total > 0 {
      assert Distinct(sorted[..1]) == {sorted[0]};
    }
    var i := 1;
    while i < total
      invariant total > 0 ==> 1 <= i <= total
      invariant total > 0 ==> unique == total - i + |Distinct(sorted[..i])|
      invariant total == 0 ==> unique == 0
    {
      CountStep(sorted, i);
      if sorted[i] == sorted[i - 1] {
        unique := unique - 1;
      }
      i := i + 1;
    }
    if total > 0 {
      assert sorted[..i] == sorted;
      assert sorted[0] in Distinct(sorted);
    } else {
      assert Distinct(sorted) == {};
    }
    DistinctAtMost(results);
  }
}

=== FILE: decision_stack.dfy ===
/** `dfs<n>` as the source writes it: one loop over an explicit stack of
    `int8_t` decisions, with the availability word and the two open words
    kept per depth in the arrays `availability` and `open`, and one `pos`
    array that is written when a value closes and never restored.

    The recursion of `Search` undoes `pos` on the way back; the loop does
    not.  It does not need to: what the search below a node records depends
    on `pos` only at the values that node has already closed, and those
    entries are never written again while a decision pushed at that node is
    still on the stack. */
module DecisionStack {
  import opened Words
  import opened Bits
  import opened Langford
  import opened SearchState
  import opened Partition
  import opened Search
  import opened WordStep

  /** `p` and `q` are closing-position vectors that agree on the values
      `c`. */
  predicate Agree(n: int, p: seq<int>, q: seq<int>, c: set<int>)
  {
    |p| == n && |q| == n && forall m :: 0 <= m < n && m in c ==> p[m] == q[m]
  }

  // ---------------------------------------------------------------------
  // Only the closed values' positions matter

  /** What the search records below a node does not depend on the closing
      positions of the values it has not yet closed. */
  lemma {:induction false} ExploreIgnoresOpenValues(n: int, share: Share, s: State, q: seq<int>)
    requires Inv(n, s) && Agree(n, s.pos, q, Closed(n, s))
    ensures Shape(n, s.(pos := q))
    ensures Explore(n, share, s.(pos := q)) == Explore(n, share, s)
    decreases 2 * n - s.k, 1, 0
  {
    var t := s.(pos := q);
    if s.k == 2 * n {
      LeafComplete(n, s);
      assert q == s.pos;
    } else if !Skip(n, share, s) {
      OpenWords(n, s);
      ChildrenAllLegal(n, s);
      SameChildren(n, s, t);
      ExploreAllIgnoresOpenValues(n, share, s, q, Children(n, s));
    }
  }

  lemma {:induction false} ExploreAllIgnoresOpenValues(n: int, share: Share, s: State, q: seq<int>, ds: seq<Decision>)
    requires Inv(n, s) && s.k < 2 * n && Agree(n, s.pos, q, Closed(n, s))
    requires AllLegal(n, s, ds)
    ensures Shape(n, s.(pos := q)) && AllLegal(n, s.(pos := q), ds)
    ensures ExploreAll(n, share, s.(pos := q), ds) == ExploreAll(n, share, s, ds)
    decreases 2 * n - s.k, 0, |ds|
  {
    if ds != [] {
      ExploreChildIgnoresOpenValues(n, share, s, q, ds[|ds| - 1]);
      ExploreAllIgnoresOpenValues(n, share, s, q, ds[..|ds| - 1]);
    }
  }

  lemma {:induction false} ExploreChildIgnoresOpenValues(n: int, share: Share, s: State, q: seq<int>, dec: Decision)
    requires Inv(n, s) && s.k < 2 * n && Agree(n, s.pos, q, Closed(n, s))
    requires Legal(n, s, dec)
    ensures Shape(n, s.(pos := q)) && Legal(n, s.(pos := q), dec)
    ensures ExploreChild(n, share, s.(pos := q), dec) == ExploreChild(n, share, s, dec)
    decreases 2 * n - s.k, 0, 0
  {
    PlaceKeepsInv(n, s, dec);
    PlaceWithPos(n, s, q, dec);
    ChildAgrees(n, s, q, dec);
    var c := Place(n, s, dec);
    var qc := PlacedPos(s, q, dec);
    ExploreIgnoresOpenValues(n, share, c, qc);
  }

  /** The decisions pushed at a node depend on its words, not on `pos`. */
  lemma {:induction false} SameChildren(n: int, s: State, t: State)
    requires ValidOrder(n) && InWord(s.open0, 64) && InWord(s.open1, 64)
    requires t == s.(pos := t.pos)
    ensures InWord(t.open0, 64) && InWord(t.open1, 64)
    ensures Children(n, t) == Children(n, s)
  {
    assert CloseChild(n, t, 0) == CloseChild(n, s, 0);
    assert CloseChild(n, t, 1) == CloseChild(n, s, 1);
  }

  /** Applying a decision to the node with another `pos` applies it to
      that `pos`. */
  lemma {:induction false} PlaceWithPos(n: int, s: State, q: seq<int>, dec: Decision)
    requires Shape(n, s) && s.k < 2 * n && Legal(n, s, dec) && |q| == n
    ensures Shape(n, s.(pos := q)) && Legal(n, s.(pos := q), dec)
    ensures Place(n, s.(pos := q), dec) ==
            Place(n, s, dec).(pos := PlacedPos(s, q, dec))
  {
    OpenWords(n, s);
  }

  /** `pos` after `place_macro`: written at the closed value only. */
  function PlacedPos(s: State, q: seq<int>, dec: Decision): seq<int>
    requires dec.m < |q|
  {
    if dec.m >= 0 then q[dec.m := s.k] else q
  }

  /** The two vectors still agree on the values closed after the
      decision. */
  lemma {:induction false} ChildAgrees(n: int, s: State, q: seq<int>, dec: Decision)
    requires Shape(n, s) && s.k < 2 * n && Legal(n, s, dec) && Agree(n, s.pos, q, Closed(n, s))
    ensures Shape(n, Place(n, s, dec))
    ensures Agree(n, Place(n, s, dec).pos, PlacedPos(s, q, dec), Closed(n, Place(n, s, dec)))
  {
    PlaceKeepsShape(n, s, dec);
    if dec.m >= 0 {
      PlaceClose(n, s, dec);
      assert Closed(n, Place(n, s, dec)) == Closed(n, s) + {dec.m};
    } else {
      PlaceOpen(n, s, dec);
    }
  }

  /** The invariant of a node reads `pos` only at the values it has
      closed. */
  lemma {:induction false} InvIgnoresOpenValues(n: int, s: State, q: seq<int>)
    requires Inv(n, s) && Agree(n, s.pos, q, Closed(n, s))
    ensures Inv(n, s.(pos := q))
  {
    var t := s.(pos := q);
    assert forall m :: 0 <= m < n && m !in s.avail ==> q[m] == s.pos[m] by {
      forall m | 0 <= m < n && m !in s.avail
        ensures q[m] == s.pos[m]
      {
        assert m in Closed(n, s);
      }
    }
    assert Closed(n, t) == Closed(n, s);
    assert Shape(n, t) && Counts(n, t);
    assert ClosedBefore(n, t);
    assert ClosedApart(n, t) by {
      forall a, b | 0 <= a < n && 0 <= b < n && a != b && a !in t.avail && b !in t.avail
        ensures SlotsApart(t.pos, a, b)
      {
        assert SlotsApart(s.pos, a, b);
      }
    }
    assert OpensFree(n, t);
    assert Layout(n, t);
  }

  // ---------------------------------------------------------------------
  // The decisions on the stack

  /** A decision on the stack, with the node it was pushed at.  The node is
      bookkeeping for the proof; the loop keeps only its words, at the
      node's depth in `availability` and `open`. */
  datatype Frame = Frame(parent: Node, dec: Decision)

  /** The node has the shape of an inner node, and the decision is legal
      there. */
  predicate Live(n: int, f: Frame)
  {
    NodeShape(n, f.parent) && f.parent.k < 2 * n && Legal(n, View(f.parent), f.dec)
  }

  /** Every frame of `fs` is live. */
  predicate AllLive(n: int, fs: seq<Frame>)
    decreases |fs|
  {
    fs == [] || (AllLive(n, fs[..|fs| - 1]) && Live(n, fs[|fs| - 1]))
  }

  /** The vectors the search records from the decisions on the stack,
      popped from the top. */
  ghost function Pending(n: int, share: Share, fs: seq<Frame>): seq<seq<int>>
    requires AllLive(n, fs)
    decreases |fs|
  {
    if fs == [] then
      []
    else
      var f := fs[|fs| - 1];
      ExploreChild(n, share, View(f.parent), f.dec) + Pending(n, share, fs[..|fs| - 1])
  }

  /** The frames of the decisions `ds` pushed at node `y`. */
  function Pushed(y: Node, ds: seq<Decision>): (fs: seq<Frame>)
    ensures |fs| == |ds|
    ensures forall i :: 0 <= i < |ds| ==> fs[i] == Frame(y, ds[i])
  {
    seq(|ds|, i requires 0 <= i < |ds| => Frame(y, ds[i]))
  }

  /** Pushing the children of a node in order puts on the stack exactly
      what the recursion explores from that node, popped last first. */
  lemma {:induction false} PendingPush(n: int, share: Share, fs: seq<Frame>, y: Node, ds: seq<Decision>)
    requires AllLive(n, fs)
    requires NodeShape(n, y) && y.k < 2 * n && AllLegal(n, View(y), ds)
    ensures AllLive(n, fs + Pushed(y, ds))
    ensures Pending(n, share, fs + Pushed(y, ds)) == ExploreAll(n, share, View(y), ds) + Pending(n, share, fs)
    decreases |ds|
  {
    AllLivePush(n, fs, y, ds);
    var gs := fs + Pushed(y, ds);
    if ds == [] {
      assert gs == fs;
    } else {
      var pre := ds[..|ds| - 1];
      PendingPush(n, share, fs, y, pre);
      var hs := fs + Pushed(y, pre);
      var f := Frame(y, ds[|ds| - 1]);
      PushedLast(y, ds);
      AppendAssoc(fs, Pushed(y, pre), [f]);
      PendingPop(n, share, hs, f);
      var e := ExploreChild(n, share, View(y), ds[|ds| - 1]);
      assert ExploreAll(n, share, View(y), ds) == e + ExploreAll(n, share, View(y), pre);
      AppendAssoc(e, ExploreAll(n, share, View(y), pre), Pending(n, share, fs));
    }
  }

  /** Popping the top frame. */
  lemma {:induction false} PendingPop(n: int, share: Share, fs: seq<Frame>, f: Frame)
    requires AllLive(n, fs + [f])
    ensures AllLive(n, fs) && Live(n, f)
    ensures Pending(n, share, fs + [f]) ==
            ExploreChild(n, share, View(f.parent), f.dec) + Pending(n, share, fs)
  {
    var gs := fs + [f];
    assert gs[..|gs| - 1] == fs && gs[|gs| - 1] == f;
  }

  lemma {:induction false} AllLivePush(n: int, fs: seq<Frame>, y: Node, ds: seq<Decision>)
    requires AllLive(n, fs)
    requires NodeShape(n, y) && y.k < 2 * n && AllLegal(n, View(y), ds)
    ensures AllLive(n, fs + Pushed(y, ds))
    decreases |ds|
  {
    var gs := fs + Pushed(y, ds);
    if ds == [] {
      assert gs == fs;
    } else {
      var pre := ds[..|ds| - 1];
      AllLivePush(n, fs, y, pre);
      PushedLast(y, ds);
      AppendAssoc(fs, Pushed(y, pre), [Frame(y, ds[|ds| - 1])]);
      assert gs[..|gs| - 1] == fs + Pushed(y, pre);
    }
  }

  /** Each decision of a legal sequence is legal. */
  lemma {:induction false} AllLegalAt(n: int, s: State, ds: seq<Decision>)
    requires AllLegal(n, s, ds)
    ensures forall i :: 0 <= i < |ds| ==> Legal(n, s, ds[i])
    decreases |ds|
  {
    if ds != [] {
      var pre := ds[..|ds| - 1];
      AllLegalAt(n, s, pre);
      assert forall i :: 0 <= i < |pre| ==> pre[i] == ds[i];
    }
  }

  lemma {:induction false} PushedLast(y: Node, ds: seq<Decision>)
    requires ds != []
    ensures Pushed(y, ds) == Pushed(y, ds[..|ds| - 1]) + [Frame(y, ds[|ds| - 1])]
  {
  }

  lemma AppendAssoc<T>(a: seq<T>, b: seq<T>, c: seq<T>)
    ensures a + (b + c) == (a + b) + c
  {
  }

  // ---------------------------------------------------------------------
  // The stack of bytes

  /** An `int8_t`. */
  newtype Int8 = x: int | -128 <= x < 128

  /** `stack` and `top`: the decisions are stored four bytes each, as `k`,
      `m`, `d`, `num_open`, and `top` counts the bytes in use. */
  datatype Stack = Stack(bytes: seq<Int8>, top: int)

  /** The four fields of a decision fit `int8_t`s. */
  predicate Storable(dec: Decision)
  {
    -128 <= dec.k < 128 && -128 <= dec.m < 128 && -128 <= dec.d < 128 && -128 <= dec.numOpen < 128
  }

  /** The decision held by the `i`th group of four bytes. */
  function StoredAt(bytes: seq<Int8>, i: int): Decision
    requires 0 <= i && 4 * i + 4 <= |bytes|
  {
    Decision(bytes[4 * i] as int, bytes[4 * i + 1] as int, bytes[4 * i + 2] as int, bytes[4 * i + 3] as int)
  }

  /** `push(k, m, d, num_open)`: the decision is stored above the bytes in
      use, which are kept. */
  function Push(st: Stack, dec: Decision): (r: Stack)
    requires 0 <= st.top && st.top % 4 == 0 && st.top + 4 <= |st.bytes| && Storable(dec)
    ensures |r.bytes| == |st.bytes| && r.top == st.top + 4
    ensures r.bytes[..st.top] == st.bytes[..st.top]
    ensures StoredAt(r.bytes, st.top / 4) == dec
  {
    var t := st.top;
    Stack(st.bytes[t := dec.k as Int8][t + 1 := dec.m as Int8][t + 2 := dec.d as Int8][t + 3 := dec.numOpen as Int8], t + 4)
  }

  /** `pop(k, m, d, num_open)`: the decision stored last. */
  function Top(st: Stack): Decision
    requires 4 <= st.top <= |st.bytes| && st.top % 4 == 0
  {
    StoredAt(st.bytes, st.top / 4 - 1)
  }

  /** The stack after `pop`: the bytes stay, the top drops by four. */
  function Pop(st: Stack): (r: Stack)
    requires 4 <= st.top && st.top % 4 == 0
    ensures r.bytes == st.bytes && r.top == st.top - 4 && r.top % 4 == 0
  {
    Stack(st.bytes, st.top - 4)
  }

  /** The pushes of the `for (d ...)` loop and of the two opens, in
      order. */
  function PushAll(st: Stack, ds: seq<Decision>): (r: Stack)
    requires 0 <= st.top && st.top % 4 == 0 && st.top + 4 * |ds| <= |st.bytes|
    requires forall i :: 0 <= i < |ds| ==> Storable(ds[i])
    ensures |r.bytes| == |st.bytes| && r.top == st.top + 4 * |ds|
    decreases |ds|
  {
    if ds == [] then st else PushAll(Push(st, ds[0]), ds[1..])
  }

  /** The stack holds the decisions of the frames `fs`, bottom first. */
  ghost predicate Holds(st: Stack, fs: seq<Frame>)
  {
    st.top == 4 * |fs| && st.top % 4 == 0 && st.top <= |st.bytes| &&
    forall i :: 0 <= i < |fs| ==> StoredAt(st.bytes, i) == fs[i].dec
  }

  /** Pop returns what push stored, and leaves the stack as it was before
      the push. */
  lemma {:induction false} PopPush(st: Stack, fs: seq<Frame>, f: Frame)
    requires Holds(st, fs) && st.top + 4 <= |st.bytes| && Storable(f.dec)
    ensures Holds(Push(st, f.dec), fs + [f])
    ensures Top(Push(st, f.dec)) == f.dec
  {
    var r := Push(st, f.dec);
    forall i | 0 <= i < |fs|
      ensures StoredAt(r.bytes, i) == fs[i].dec
    {
      assert r.bytes[4 * i] == r.bytes[..st.top][4 * i];
      assert r.bytes[4 * i + 1] == r.bytes[..st.top][4 * i + 1];
      assert r.bytes[4 * i + 2] == r.bytes[..st.top][4 * i + 2];
      assert r.bytes[4 * i + 3] == r.bytes[..st.top][4 * i + 3];
    }
  }

  /** Popping the frame on top. */
  lemma {:induction false} HoldsPop(st: Stack, fs: seq<Frame>)
    requires Holds(st, fs) && fs != []
    ensures Top(st) == fs[|fs| - 1].dec
    ensures Holds(Pop(st), fs[..|fs| - 1])
  {
  }

  /** Pushing the decisions `ds` of node `y`. */
  lemma {:induction false} HoldsPushAll(st: Stack, fs: seq<Frame>, y: Node, ds: seq<Decision>)
    requires Holds(st, fs) && st.top + 4 * |ds| <= |st.bytes|
    requires forall i :: 0 <= i < |ds| ==> Storable(ds[i])
    ensures Holds(PushAll(st, ds), fs + Pushed(y, ds))
    decreases |ds|
  {
    if ds == [] {
      assert fs + Pushed(y, ds) == fs;
    } else {
      var f := Frame(y, ds[0]);
      PopPush(st, fs, f);
      HoldsPushAll(Push(st, ds[0]), fs + [f], y, ds[1..]);
      assert (fs + [f]) + Pushed(y, ds[1..]) == fs + Pushed(y, ds);
    }
  }

  // ---------------------------------------------------------------------
  // The loop

  /** `availability[k] = avail` after `++k`: the availability word of the
      child `y` saved at its depth. */
  function SaveAvail(availability: seq<nat>, y: Node): (r: seq<nat>)
    requires 0 <= y.k < |availability|
    ensures |r| == |availability| && r[y.k] == y.avail
  {
    availability[y.k := y.avail]
  }

  /** The openings of the child `y`, which the source copies to
      `open[2k + 2]` and `open[2k + 3]` before updating them in place, as
      they stand after `++k`. */
  function SaveOpen(open: seq<nat>, y: Node): (r: seq<nat>)
    requires 0 <= 2 * y.k + 1 < |open|
    ensures |r| == |open| && r[2 * y.k] == y.open0 && r[2 * y.k + 1] == y.open1
  {
    open[2 * y.k := y.open0][2 * y.k + 1 := y.open1]
  }

  /** The words of node `p` are saved at its depth: `availability[k]`,
      `open[2k]` and `open[2k + 1]`. */
  predicate Saved(availability: seq<nat>, open: seq<nat>, p: Node)
  {
    0 <= p.k < |availability| && 2 * p.k + 1 < |open| &&
    availability[p.k] == p.avail && open[2 * p.k] == p.open0 && open[2 * p.k + 1] == p.open1
  }

  /** Frame `f`, at height `i` of the stack, as the loop keeps it: its node
      satisfies the invariant of the search, its words are saved, `pos`
      agrees with its node on the values that node has closed, and at most
      three frames lie below it per depth above the root. */
  ghost predicate FrameKept(n: int, availability: seq<nat>, open: seq<nat>, pos: seq<int>, f: Frame, i: int)
  {
    NodeKept(n, availability, open, pos, f.parent) && i <= 3 * f.dec.k
  }

  /** Node `p` satisfies the invariant of the search, its words are saved,
      and `pos` agrees with it on the values it has closed. */
  ghost predicate NodeKept(n: int, availability: seq<nat>, open: seq<nat>, pos: seq<int>, p: Node)
  {
    Inv(n, View(p)) && Saved(availability, open, p) && Agree(n, p.pos, pos, Closed(n, View(p)))
  }

  /** Node `q` is no shallower than node `p`, and has closed every value
      `p` has closed. */
  predicate Beneath(p: Node, q: Node)
  {
    p.k <= q.k && Word(q.avail, 32) <= Word(p.avail, 32)
  }

  /** Every frame is kept, and each frame's node lies beneath the node of
      the frame under it. */
  ghost predicate StackKept(n: int, availability: seq<nat>, open: seq<nat>, pos: seq<int>, fs: seq<Frame>)
    decreases |fs|
  {
    fs == [] ||
    var t := |fs| - 1;
    StackKept(n, availability, open, pos, fs[..t]) && FrameKept(n, availability, open, pos, fs[t], t) &&
    (t > 0 ==> Beneath(fs[t - 1].parent, fs[t].parent))
  }

  /** `5^e` */
  function Pow5(e: nat): (r: nat)
    ensures r >= 1
  {
    if e == 0 then 1 else 5 * Pow5(e - 1)
  }

  /** A bound on the loop iterations left: a decision at depth `k` weighs
      `5^(2n - k)`, more than the four decisions a node pushes at depth
      `k + 1` together. */
  ghost function Weight(n: int, fs: seq<Frame>): nat
    decreases |fs|
  {
    if fs == [] then
      0
    else
      var k := fs[|fs| - 1].dec.k;
      Weight(n, fs[..|fs| - 1]) + (if 0 <= k <= 2 * n then Pow5(2 * n - k) else 0)
  }

  /** The variables of the loop: the words saved per depth, `pos`, the
      stack, and the vectors recorded so far. */
  datatype Machine = Machine(availability: seq<nat>, open: seq<nat>, pos: seq<int>, stack: Stack,
                             results: seq<seq<int>>)

  /** The arrays have the sizes the source allocates, and the decision on
      top of the stack is one `place_macro` accepts. */
  predicate CanPop(n: int, m: Machine)
  {
    ValidOrder(n) && |m.availability| == 2 * n + 1 && |m.open| == 4 * n + 2 && |m.pos| == n &&
    4 <= m.stack.top <= |m.stack.bytes| && m.stack.top % 4 == 0 &&
    var dec := Top(m.stack);
    0 <= dec.k < 2 * n && -1 <= dec.m < n && (dec.d == 0 || dec.d == 1)
  }

  /** The node a popped decision applies to: `k` and `num_open` come from
      the decision, the words from those saved at depth `k`, and `pos` as
      the loop left it. */
  function Resumed(m: Machine, dec: Decision): Node
    requires 0 <= dec.k < |m.availability| && 2 * dec.k + 1 < |m.open|
  {
    Node(dec.k, dec.numOpen, m.availability[dec.k], m.open[2 * dec.k], m.open[2 * dec.k + 1], m.pos)
  }

  /** The node after applying the decision on top of the stack. */
  function Placed(n: int, m: Machine): Node
    requires CanPop(n, m)
  {
    var dec := Top(m.stack);
    PlaceNode(n, Resumed(m, dec), dec)
  }

  /** Besides `CanPop`, the children of the placed node fit on the stack
      when they are pushed. */
  predicate CanStep(n: int, share: Share, m: Machine)
  {
    CanPop(n, m) &&
    var y := Placed(n, m);
    Sized(n, y) &&
    (y.k < 2 * n && !Skip(n, share, View(y)) ==>
       var cs := ChildrenNode(n, y);
       m.stack.top - 4 + 4 * |cs| <= |m.stack.bytes| && forall i :: 0 <= i < |cs| ==> Storable(cs[i]))
  }

  /** One iteration of the `while` loop: pop a decision, apply it, save the
      child's words one depth further, then record the child at a leaf,
      abandon it when another thread owns it, or push its children. */
  function Step(n: int, share: Share, m: Machine): (r: Machine)
    requires CanStep(n, share, m)
    ensures Saved(r.availability, r.open, Placed(n, m)) && r.pos == Placed(n, m).pos
    ensures |r.availability| == |m.availability| && |r.open| == |m.open| && |r.stack.bytes| == |m.stack.bytes|
    ensures m.results <= r.results
  {
    var dec := Top(m.stack);
    var st := Pop(m.stack);
    var y := PlaceNode(n, Resumed(m, dec), dec);
    var availability := SaveAvail(m.availability, y);
    var open := SaveOpen(m.open, y);
    if y.k == 2 * n then
      Machine(availability, open, y.pos, st, m.results + [y.pos])
    else if Skip(n, share, View(y)) then
      Machine(availability, open, y.pos, st, m.results)
    else
      Machine(availability, open, y.pos, PushAll(st, ChildrenNode(n, y)), m.results)
  }

  /** The frames after a step: the popped one is gone, and the pushed ones
      follow. */
  ghost function StepFrames(n: int, share: Share, m: Machine, fs: seq<Frame>): seq<Frame>
    requires CanStep(n, share, m) && fs != []
  {
    var y := Placed(n, m);
    var rest := fs[..|fs| - 1];
    if y.k < 2 * n && !Skip(n, share, View(y)) then rest + Pushed(y, ChildrenNode(n, y)) else rest
  }

  /** What holds at the head of the loop: the stack holds the live frames
      `fs`, each kept, and the vectors recorded so far followed by those
      the frames still owe are what the recursive search records. */
  ghost predicate LoopInv(n: int, share: Share, m: Machine, fs: seq<Frame>)
  {
    ValidOrder(n) && |m.availability| == 2 * n + 1 && |m.open| == 4 * n + 2 && |m.pos| == n &&
    |m.stack.bytes| == 24 * n && 0 <= m.stack.top <= 24 * n - 8 &&
    Holds(m.stack, fs) && AllLive(n, fs) && StackKept(n, m.availability, m.open, m.pos, fs) &&
    m.results + Pending(n, share, fs) == Dfs(n, share)
  }

  /** `dfs<n>` run with an explicit stack records exactly what the
      recursive search records, in the same order.  The arrays and `pos`
      start with arbitrary contents, as the source leaves them
      uninitialised, apart from the entries it sets before the loop.  The
      stack never holds more than `24 * n - 8` bytes, within the `24 * n`
      the source allocates. */
  method DfsLoop(n: int, share: Share, pos0: seq<int>, availability0: seq<nat>, open0: seq<nat>, bytes0: seq<Int8>)
      returns (results: seq<seq<int>>)
    requires ValidOrder(n)
    requires |pos0| == n && |availability0| == 2 * n + 1 && |open0| == 4 * n + 2 && |bytes0| == 24 * n
    ensures results == Dfs(n, share)
  {
    var availability := availability0[0 := StartNode(n).avail];
    var open := open0[0 := 0][1 := 0];
    var stack := Push(Stack(bytes0, 0), RootDecision);
    var m := Machine(availability, open, pos0, stack, []);
    ghost var fs := [Frame(StartNode(n), RootDecision)];
    InitKept(n, share, m, fs);
    while m.stack.top != 0
      invariant LoopInv(n, share, m, fs)
      decreases Weight(n, fs)
    {
      StepKept(n, share, m, fs);
      fs := StepFrames(n, share, m, fs);
      m := Step(n, share, m);
    }
    EmptyStack(n, share, m, fs);
    results := m.results;
  }

  /** With the stack empty, nothing is owed. */
  lemma {:induction false} EmptyStack(n: int, share: Share, m: Machine, fs: seq<Frame>)
    requires LoopInv(n, share, m, fs) && m.stack.top == 0
    ensures m.results == Dfs(n, share)
  {
    assert fs == [];
    assert m.results + [] == m.results;
  }

  /** One step keeps the invariant and lowers the weight of the frames. */
  lemma {:induction false} StepKept(n: int, share: Share, m: Machine, fs: seq<Frame>)
    requires LoopInv(n, share, m, fs) && m.stack.top != 0
    ensures CanStep(n, share, m)
    ensures LoopInv(n, share, Step(n, share, m), StepFrames(n, share, m, fs))
    ensures Weight(n, StepFrames(n, share, m, fs)) < Weight(n, fs)
  {
    var rest := PopStep(n, share, m, fs);
    PoppedStep(n, share, m, fs, rest);
  }

  /** The rest of the step, once the top frame is popped. */
  lemma {:induction false} PoppedStep(n: int, share: Share, m: Machine, fs: seq<Frame>, rest: seq<Frame>)
    requires AfterPop(n, share, m, fs, rest)
    ensures CanStep(n, share, m)
    ensures LoopInv(n, share, Step(n, share, m), StepFrames(n, share, m, fs))
    ensures Weight(n, StepFrames(n, share, m, fs)) < Weight(n, fs)
  {
    var y := Placed(n, m);
    if y.k == 2 * n {
      LeafStep(n, share, m, fs, rest);
    } else if Skip(n, share, View(y)) {
      SkipStep(n, share, m, fs, rest);
    } else {
      ChildrenStep(n, share, m, fs, rest);
    }
  }

  /** The child is a leaf: its vector is recorded. */
  lemma {:induction false} LeafStep(n: int, share: Share, m: Machine, fs: seq<Frame>, rest: seq<Frame>)
    requires AfterPop(n, share, m, fs, rest) && Placed(n, m).k == 2 * n
    ensures CanStep(n, share, m)
    ensures LoopInv(n, share, Step(n, share, m), StepFrames(n, share, m, fs))
    ensures Weight(n, StepFrames(n, share, m, fs)) < Weight(n, fs)
  {
    var dec := Top(m.stack);
    var x := Resumed(m, dec);
    var y := PlaceNode(n, x, dec);
    var a := SaveAvail(m.availability, y);
    var o := SaveOpen(m.open, y);
    var st := Pop(m.stack);
    PlaceStep(n, share, m.availability, m.open, rest, x, dec);
    StepCases(n, share, m, fs, rest);
    LeafKept(n, share, a, o, st, rest, y, m.results);
    Transfer(n, share, Machine(a, o, y.pos, st, m.results + [y.pos]), rest, Step(n, share, m), StepFrames(n, share, m, fs));
  }

  /** The child belongs to another thread: it is abandoned. */
  lemma {:induction false} SkipStep(n: int, share: Share, m: Machine, fs: seq<Frame>, rest: seq<Frame>)
    requires AfterPop(n, share, m, fs, rest) && Placed(n, m).k != 2 * n && Skip(n, share, View(Placed(n, m)))
    ensures CanStep(n, share, m)
    ensures LoopInv(n, share, Step(n, share, m), StepFrames(n, share, m, fs))
    ensures Weight(n, StepFrames(n, share, m, fs)) < Weight(n, fs)
  {
    var dec := Top(m.stack);
    var x := Resumed(m, dec);
    var y := PlaceNode(n, x, dec);
    var a := SaveAvail(m.availability, y);
    var o := SaveOpen(m.open, y);
    var st := Pop(m.stack);
    PlaceStep(n, share, m.availability, m.open, rest, x, dec);
    StepCases(n, share, m, fs, rest);
    SkipKept(n, share, a, o, st, rest, y, m.results);
    Transfer(n, share, Machine(a, o, y.pos, st, m.results), rest, Step(n, share, m), StepFrames(n, share, m, fs));
  }

  /** The child's children are pushed. */
  lemma {:induction false} ChildrenStep(n: int, share: Share, m: Machine, fs: seq<Frame>, rest: seq<Frame>)
    requires AfterPop(n, share, m, fs, rest) && Placed(n, m).k != 2 * n && !Skip(n, share, View(Placed(n, m)))
    ensures CanStep(n, share, m)
    ensures LoopInv(n, share, Step(n, share, m), StepFrames(n, share, m, fs))
    ensures Weight(n, StepFrames(n, share, m, fs)) < Weight(n, fs)
  {
    var dec := Top(m.stack);
    var x := Resumed(m, dec);
    var y := PlaceNode(n, x, dec);
    var a := SaveAvail(m.availability, y);
    var o := SaveOpen(m.open, y);
    var st := Pop(m.stack);
    PlaceStep(n, share, m.availability, m.open, rest, x, dec);
    var cs := ChildrenNode(n, y);
    ChildrenKept(n, share, a, o, st, rest, y, m.results);
    ChildrenCase(n, share, m, fs, rest);
    Transfer(n, share, Machine(a, o, y.pos, PushAll(st, cs), m.results), rest + Pushed(y, cs),
             Step(n, share, m), StepFrames(n, share, m, fs));
    WeightStep(n, fs, y);
  }

  lemma {:induction false} Transfer(n: int, share: Share, m: Machine, fs: seq<Frame>, m': Machine, fs': seq<Frame>)
    requires LoopInv(n, share, m, fs) && m == m' && fs == fs'
    ensures LoopInv(n, share, m', fs')
  {
  }

  /** The step at a leaf or at a node another thread owns. */
  lemma {:induction false} StepCases(n: int, share: Share, m: Machine, fs: seq<Frame>, rest: seq<Frame>)
    requires CanPop(n, m) && Sized(n, Placed(n, m)) && fs != [] && rest == fs[..|fs| - 1]
    ensures var y := Placed(n, m);
            var a := SaveAvail(m.availability, y);
            var o := SaveOpen(m.open, y);
            (y.k == 2 * n ==>
               CanStep(n, share, m) && StepFrames(n, share, m, fs) == rest &&
               Step(n, share, m) == Machine(a, o, y.pos, Pop(m.stack), m.results + [y.pos])) &&
            (y.k < 2 * n && Skip(n, share, View(y)) ==>
               CanStep(n, share, m) && StepFrames(n, share, m, fs) == rest &&
               Step(n, share, m) == Machine(a, o, y.pos, Pop(m.stack), m.results))
  {
  }

  /** The step pushing the children of the node reached. */
  lemma {:induction false} ChildrenCase(n: int, share: Share, m: Machine, fs: seq<Frame>, rest: seq<Frame>)
    requires CanPop(n, m) && Sized(n, Placed(n, m)) && fs != [] && rest == fs[..|fs| - 1]
    requires var y := Placed(n, m);
             y.k < 2 * n && !Skip(n, share, View(y)) &&
             var cs := ChildrenNode(n, y);
             Pop(m.stack).top + 4 * |cs| <= |m.stack.bytes| && forall i :: 0 <= i < |cs| ==> Storable(cs[i])
    ensures var y := Placed(n, m);
            var cs := ChildrenNode(n, y);
            CanStep(n, share, m) && StepFrames(n, share, m, fs) == rest + Pushed(y, cs) &&
            Step(n, share, m) ==
              Machine(SaveAvail(m.availability, y), SaveOpen(m.open, y), y.pos, PushAll(Pop(m.stack), cs), m.results)
  {
  }

  /** What holds once the top frame is popped: the node rebuilt from the
      saved words satisfies the invariant of the search, the frames below
      are kept, and the vectors owed are those below the popped decision
      followed by those the frames below owe. */
  ghost predicate AfterPop(n: int, share: Share, m: Machine, fs: seq<Frame>, rest: seq<Frame>)
  {
    ValidOrder(n) && |m.stack.bytes| == 24 * n && m.stack.top <= 24 * n - 8 && CanPop(n, m) &&
    fs != [] && rest == fs[..|fs| - 1] &&
    var dec := Top(m.stack);
    var x := Resumed(m, dec);
    NodeShape(n, x) && x.k == dec.k < 2 * n && Legal(n, View(x), dec) && Inv(n, View(x)) &&
    Holds(Pop(m.stack), rest) && AllLive(n, rest) && StackKept(n, m.availability, m.open, m.pos, rest) &&
    (rest != [] ==> Beneath(rest[|rest| - 1].parent, x)) &&
    |rest| <= 3 * dec.k &&
    m.results + ExploreChild(n, share, View(x), dec) + Pending(n, share, rest) == Dfs(n, share) &&
    fs[|fs| - 1].dec == dec && Weight(n, rest) < Weight(n, fs)
  }

  /** The child is a leaf: its vector is recorded. */
  lemma {:induction false} LeafKept(n: int, share: Share, a: seq<nat>, o: seq<nat>, st: Stack,
                                    rest: seq<Frame>, y: Node, results: seq<seq<int>>)
    requires ValidOrder(n) && |a| == 2 * n + 1 && |o| == 4 * n + 2 && |y.pos| == n
    requires |st.bytes| == 24 * n && 0 <= st.top <= 24 * n - 8
    requires Holds(st, rest) && AllLive(n, rest) && StackKept(n, a, o, y.pos, rest)
    requires NodeShape(n, y) && y.k == 2 * n
    requires results + Explore(n, share, View(y)) + Pending(n, share, rest) == Dfs(n, share)
    ensures LoopInv(n, share, Machine(a, o, y.pos, st, results + [y.pos]), rest)
  {
    assert Explore(n, share, View(y)) == [y.pos];
  }

  /** The child belongs to another thread: it is abandoned. */
  lemma {:induction false} SkipKept(n: int, share: Share, a: seq<nat>, o: seq<nat>, st: Stack,
                                    rest: seq<Frame>, y: Node, results: seq<seq<int>>)
    requires ValidOrder(n) && |a| == 2 * n + 1 && |o| == 4 * n + 2 && |y.pos| == n
    requires |st.bytes| == 24 * n && 0 <= st.top <= 24 * n - 8
    requires Holds(st, rest) && AllLive(n, rest) && StackKept(n, a, o, y.pos, rest)
    requires NodeShape(n, y) && y.k < 2 * n && Skip(n, share, View(y))
    requires results + Explore(n, share, View(y)) + Pending(n, share, rest) == Dfs(n, share)
    ensures LoopInv(n, share, Machine(a, o, y.pos, st, results), rest)
  {
    assert Explore(n, share, View(y)) == [];
    assert results + [] == results;
  }

  /** The child's children are pushed. */
  lemma {:induction false} ChildrenKept(n: int, share: Share, a: seq<nat>, o: seq<nat>, st: Stack,
                                        rest: seq<Frame>, y: Node, results: seq<seq<int>>)
    requires ValidOrder(n) && |a| == 2 * n + 1 && |o| == 4 * n + 2 && |y.pos| == n && |st.bytes| == 24 * n
    requires NodeShape(n, y) && y.k < 2 * n && Inv(n, View(y)) && !Skip(n, share, View(y)) && Saved(a, o, y)
    requires Holds(st, rest) && AllLive(n, rest) && StackKept(n, a, o, y.pos, rest)
    requires rest != [] ==> Beneath(rest[|rest| - 1].parent, y)
    requires |rest| <= 3 * (y.k - 1)
    requires results + Explore(n, share, View(y)) + Pending(n, share, rest) == Dfs(n, share)
    ensures var cs := ChildrenNode(n, y);
            st.top + 4 * |cs| <= |st.bytes| && (forall i :: 0 <= i < |cs| ==> Storable(cs[i])) &&
            LoopInv(n, share, Machine(a, o, y.pos, PushAll(st, cs), results), rest + Pushed(y, cs))
  {
    PushFits(n, st, rest, y);
    HoldsPushAll(st, rest, y, ChildrenNode(n, y));
    PushKept(n, a, o, rest, y);
    PushOwes(n, share, rest, y);
    AppendAssoc(results, Explore(n, share, View(y)), Pending(n, share, rest));
  }

  /** Popping the top frame, as `PopKept` states it for the machine. */
  lemma {:induction false} PopStep(n: int, share: Share, m: Machine, fs: seq<Frame>) returns (rest: seq<Frame>)
    requires LoopInv(n, share, m, fs) && m.stack.top != 0
    ensures AfterPop(n, share, m, fs, rest)
  {
    rest := fs[..|fs| - 1];
    var f := fs[|fs| - 1];
    SplitLast(fs);
    HoldsPop(m.stack, fs);
    PopKept(n, share, m.availability, m.open, m.pos, rest, f);
    var x := f.parent.(pos := m.pos);
    ResumedFrame(m, f, x);
    var e := ExploreChild(n, share, View(x), f.dec);
    assert Pending(n, share, fs) == e + Pending(n, share, rest);
    ResultsPop(n, share, m.results, e, Pending(n, share, rest));
    WeightPop(n, fs);
  }

  /** Popping lowers the weight. */
  lemma {:induction false} WeightPop(n: int, fs: seq<Frame>)
    requires fs != [] && 0 <= fs[|fs| - 1].dec.k <= 2 * n
    ensures Weight(n, fs[..|fs| - 1]) < Weight(n, fs)
  {
    WeightLast(n, fs, fs[|fs| - 1].dec, 2 * n - fs[|fs| - 1].dec.k);
  }

  /** Replacing the top frame by the frames pushed at the child lowers
      the weight: at most four decisions one depth further. */
  lemma {:induction false} WeightStep(n: int, fs: seq<Frame>, y: Node)
    requires NodeShape(n, y) && 0 < y.k < 2 * n && fs != [] && fs[|fs| - 1].dec.k == y.k - 1
    ensures Weight(n, fs[..|fs| - 1] + Pushed(y, ChildrenNode(n, y))) < Weight(n, fs)
  {
    var cs := ChildrenNode(n, y);
    ChildrenAtDepth(n, y);
    var e := 2 * n - y.k + 1;
    WeightLast(n, fs, fs[|fs| - 1].dec, e);
    WeightPush(n, fs[..|fs| - 1], y, cs, e);
  }

  /** The children of a node are at most four decisions at its depth. */
  lemma {:induction false} ChildrenAtDepth(n: int, y: Node)
    requires NodeShape(n, y) && y.k < 2 * n
    ensures var cs := ChildrenNode(n, y);
            |cs| <= 4 && forall i :: 0 <= i < |cs| ==> cs[i].k == y.k
  {
    var cs := ChildrenNode(n, y);
    ChildrenRefine(n, y);
    ChildrenAllLegal(n, View(y));
    AllLegalAt(n, View(y), cs);
    ChildrenAtMostFour(n, y);
  }

  lemma {:induction false} ResultsPop(n: int, share: Share, results: seq<seq<int>>, e: seq<seq<int>>, p: seq<seq<int>>)
    requires ValidOrder(n) && results + (e + p) == Dfs(n, share)
    ensures results + e + p == Dfs(n, share)
  {
    AppendAssoc(results, e, p);
  }

  lemma {:induction false} SplitLast<T>(s: seq<T>)
    requires s != []
    ensures s == s[..|s| - 1] + [s[|s| - 1]]
  {
  }

  lemma {:induction false} ResumedFrame(m: Machine, f: Frame, x: Node)
    requires 0 <= f.dec.k < |m.availability| && 2 * f.dec.k + 1 < |m.open|
    requires Node(f.dec.k, f.dec.numOpen, m.availability[f.dec.k], m.open[2 * f.dec.k], m.open[2 * f.dec.k + 1], m.pos) == x
    ensures Resumed(m, f.dec) == x
  {
  }

  lemma {:induction false} WeightLast(n: int, fs: seq<Frame>, dec: Decision, e: nat)
    requires fs != [] && fs[|fs| - 1].dec == dec && 0 <= dec.k <= 2 * n && e == 2 * n - dec.k
    ensures Weight(n, fs) == Weight(n, fs[..|fs| - 1]) + Pow5(e)
  {
  }

  /** Applying the popped decision and saving the child's words. */
  lemma {:induction false} PlaceStep(n: int, share: Share, availability: seq<nat>, open: seq<nat>,
                                     rest: seq<Frame>, x: Node, dec: Decision)
    requires ValidOrder(n) && |availability| == 2 * n + 1 && |open| == 4 * n + 2 && |x.pos| == n
    requires NodeShape(n, x) && x.k == dec.k < 2 * n && Legal(n, View(x), dec) && Inv(n, View(x))
    requires StackKept(n, availability, open, x.pos, rest)
    requires rest != [] ==> Beneath(rest[|rest| - 1].parent, x)
    ensures var y := PlaceNode(n, x, dec);
            var a := SaveAvail(availability, y);
            var o := SaveOpen(open, y);
            Sized(n, y) && NodeShape(n, y) && Inv(n, View(y)) && y.k == x.k + 1 && |y.pos| == n &&
            ExploreChild(n, share, View(x), dec) == Explore(n, share, View(y)) &&
            StackKept(n, a, o, y.pos, rest) && Saved(a, o, y) &&
            (rest != [] ==> Beneath(rest[|rest| - 1].parent, y))
  {
    var y := PlaceNode(n, x, dec);
    PlaceRefines(n, x, dec);
    PlaceKeepsInv(n, View(x), dec);
    WritesKept(n, availability, open, rest, x, dec);
    PlaceBeneath(n, x, dec);
    if rest != [] {
      BeneathTransitive(rest[|rest| - 1].parent, x, y);
    }
  }

  /** The child closes at most one more value than its parent. */
  lemma {:induction false} PlaceBeneath(n: int, x: Node, dec: Decision)
    requires NodeShape(n, x) && x.k < 2 * n && Legal(n, View(x), dec)
    ensures Beneath(x, PlaceNode(n, x, dec))
  {
    PlaceRefines(n, x, dec);
  }

  /** Before the loop: the root decision on the stack, pushed at the start
      node, whose words are the ones set at depth 0. */
  lemma {:induction false} InitKept(n: int, share: Share, m: Machine, fs: seq<Frame>)
    requires ValidOrder(n) && |m.availability| == 2 * n + 1 && |m.open| == 4 * n + 2 && |m.pos| == n
    requires m.availability[0] == StartNode(n).avail && m.open[0] == 0 && m.open[1] == 0
    requires |m.stack.bytes| == 24 * n && m.stack.top == 4 && StoredAt(m.stack.bytes, 0) == RootDecision
    requires fs == [Frame(StartNode(n), RootDecision)] && m.results == []
    ensures LoopInv(n, share, m, fs)
  {
    StartKept(n, m.availability, m.open, m.pos);
    SingleKept(n, m.availability, m.open, m.pos, fs[0]);
    StartRefines(n);
    assert [] + [fs[0]] == fs;
    PendingPop(n, share, [], fs[0]);
    DfsIsRootChild(n, share);
    var e := ExploreChild(n, share, Start(n), RootDecision);
    assert Pending(n, share, fs) == e + [];
    assert e + [] == e;
    assert [] + e == e;
  }

  lemma {:induction false} StartKept(n: int, availability: seq<nat>, open: seq<nat>, pos: seq<int>)
    requires ValidOrder(n) && |availability| == 2 * n + 1 && |open| == 4 * n + 2 && |pos| == n
    requires availability[0] == StartNode(n).avail && open[0] == 0 && open[1] == 0
    ensures Live(n, Frame(StartNode(n), RootDecision))
    ensures FrameKept(n, availability, open, pos, Frame(StartNode(n), RootDecision), 0)
  {
    StartRefines(n);
    RootFacts(n);
    assert Closed(n, Start(n)) == {};
  }

  lemma {:induction false} SingleKept(n: int, availability: seq<nat>, open: seq<nat>, pos: seq<int>, f: Frame)
    requires Live(n, f) && FrameKept(n, availability, open, pos, f, 0)
    ensures AllLive(n, [f]) && StackKept(n, availability, open, pos, [f])
  {
    assert [f][..0] == [];
  }

  lemma {:induction false} SavedNode(availability: seq<nat>, open: seq<nat>, p: Node, dec: Decision, pos: seq<int>)
    requires Saved(availability, open, p) && dec.k == p.k && dec.numOpen == p.numOpen
    ensures Node(dec.k, dec.numOpen, availability[dec.k], open[2 * dec.k], open[2 * dec.k + 1], pos) == p.(pos := pos)
  {
  }

  lemma {:induction false} DfsIsRootChild(n: int, share: Share)
    requires ValidOrder(n)
    ensures Shape(n, Start(n)) && Legal(n, Start(n), RootDecision)
    ensures Dfs(n, share) == ExploreChild(n, share, Start(n), RootDecision)
  {
    RootFacts(n);
    var ds := [RootDecision];
    assert ds[..0] == [] && ds[0] == RootDecision;
    assert Dfs(n, share) == ExploreAll(n, share, Start(n), ds);
    assert ExploreAll(n, share, Start(n), ds) ==
           ExploreChild(n, share, Start(n), RootDecision) + ExploreAll(n, share, Start(n), []);
  }

  /** Popping the top frame: the node rebuilt from the saved words and the
      current `pos` is the frame's node up to the closing positions of
      values it has not closed, so the search below it records the same. */
  lemma {:induction false} PopKept(n: int, share: Share, availability: seq<nat>, open: seq<nat>, pos: seq<int>,
                                   rest: seq<Frame>, f: Frame)
    requires ValidOrder(n) && |pos| == n
    requires AllLive(n, rest + [f]) && StackKept(n, availability, open, pos, rest + [f])
    ensures var k := f.dec.k;
            0 <= k < |availability| && 0 <= 2 * k + 1 < |open| &&
            Node(k, f.dec.numOpen, availability[k], open[2 * k], open[2 * k + 1], pos) == f.parent.(pos := pos)
    ensures var x := f.parent.(pos := pos);
            NodeShape(n, x) && x.k < 2 * n && Legal(n, View(x), f.dec) && Inv(n, View(x)) &&
            Pending(n, share, rest + [f]) == ExploreChild(n, share, View(x), f.dec) + Pending(n, share, rest)
    ensures AllLive(n, rest) && StackKept(n, availability, open, pos, rest)
    ensures rest != [] ==> Beneath(rest[|rest| - 1].parent, f.parent)
    ensures |rest| <= 3 * f.dec.k
  {
    PopFrame(n, availability, open, pos, rest, f);
    PendingPop(n, share, rest, f);
    PopNode(n, share, availability, open, pos, f, |rest|);
    NodeOfFrame(n, availability, open, pos, f, |rest|);
  }

  lemma {:induction false} PopFrame(n: int, availability: seq<nat>, open: seq<nat>, pos: seq<int>,
                                    rest: seq<Frame>, f: Frame)
    requires AllLive(n, rest + [f]) && StackKept(n, availability, open, pos, rest + [f])
    ensures AllLive(n, rest) && StackKept(n, availability, open, pos, rest)
    ensures Live(n, f) && FrameKept(n, availability, open, pos, f, |rest|)
    ensures rest != [] ==> Beneath(rest[|rest| - 1].parent, f.parent)
  {
    var fs := rest + [f];
    assert fs[..|rest|] == rest && fs[|rest|] == f;
  }

  /** The node rebuilt from a live frame's saved words and the current
      `pos`. */
  lemma {:induction false} NodeOfFrame(n: int, availability: seq<nat>, open: seq<nat>, pos: seq<int>, f: Frame, i: int)
    requires |pos| == n && Live(n, f) && FrameKept(n, availability, open, pos, f, i)
    ensures var k := f.dec.k;
            0 <= k < |availability| && 0 <= 2 * k + 1 < |open| &&
            Node(k, f.dec.numOpen, availability[k], open[2 * k], open[2 * k + 1], pos) == f.parent.(pos := pos)
  {
    assert f.dec.k == f.parent.k && f.dec.numOpen == f.parent.numOpen;
    SavedNode(availability, open, f.parent, f.dec, pos);
  }

  /** That node differs from the frame's only in the closing positions of
      values not yet closed, so the search below it records the same. */
  lemma {:induction false} PopNode(n: int, share: Share, availability: seq<nat>, open: seq<nat>, pos: seq<int>,
                                   f: Frame, i: int)
    requires |pos| == n && Live(n, f) && FrameKept(n, availability, open, pos, f, i)
    ensures var x := f.parent.(pos := pos);
            NodeShape(n, x) && x.k < 2 * n && Legal(n, View(x), f.dec) && Inv(n, View(x)) &&
            ExploreChild(n, share, View(x), f.dec) == ExploreChild(n, share, View(f.parent), f.dec)
  {
    var s := View(f.parent);
    assert View(f.parent.(pos := pos)) == s.(pos := pos);
    InvIgnoresOpenValues(n, s, pos);
    ExploreChildIgnoresOpenValues(n, share, s, pos, f.dec);
  }

  /** Saving the child's words at the next depth overwrites no frame's
      words, and writing its closing position changes no value a frame's
      node has closed. */
  lemma {:induction false} WritesKept(n: int, availability: seq<nat>, open: seq<nat>, rest: seq<Frame>, x: Node, dec: Decision)
    requires ValidOrder(n) && |availability| == 2 * n + 1 && |open| == 4 * n + 2
    requires NodeShape(n, x) && x.k < 2 * n && Legal(n, View(x), dec)
    requires StackKept(n, availability, open, x.pos, rest)
    requires rest != [] ==> Beneath(rest[|rest| - 1].parent, x)
    ensures var y := PlaceNode(n, x, dec);
            var a := SaveAvail(availability, y);
            var o := SaveOpen(open, y);
            StackKept(n, a, o, y.pos, rest) && Saved(a, o, y)
    decreases |rest|
  {
    if rest != [] {
      var t := |rest| - 1;
      if t > 0 {
        BeneathTransitive(rest[t - 1].parent, rest[t].parent, x);
      }
      WritesKept(n, availability, open, rest[..t], x, dec);
      FrameWritten(n, availability, open, rest[t], t, x, dec);
    }
  }

  lemma {:induction false} BeneathTransitive(p: Node, q: Node, r: Node)
    requires Beneath(p, q) && Beneath(q, r)
    ensures Beneath(p, r)
  {
  }

  lemma {:induction false} FrameWritten(n: int, availability: seq<nat>, open: seq<nat>, f: Frame, i: int, x: Node, dec: Decision)
    requires ValidOrder(n) && |availability| == 2 * n + 1 && |open| == 4 * n + 2
    requires NodeShape(n, x) && x.k < 2 * n && Legal(n, View(x), dec)
    requires FrameKept(n, availability, open, x.pos, f, i) && Beneath(f.parent, x)
    ensures var y := PlaceNode(n, x, dec);
            var a := SaveAvail(availability, y);
            var o := SaveOpen(open, y);
            FrameKept(n, a, o, y.pos, f, i)
  {
    if dec.m >= 0 {
      assert dec.m in Word(f.parent.avail, 32);
    }
  }

  /** The children of a node that is neither a leaf nor skipped fit on the
      stack: at most four, at most three frames per depth below them. */
  lemma {:induction false} PushFits(n: int, stack: Stack, rest: seq<Frame>, y: Node)
    requires NodeShape(n, y) && y.k < 2 * n && |stack.bytes| == 24 * n
    requires Holds(stack, rest) && |rest| <= 3 * (y.k - 1)
    ensures var cs := ChildrenNode(n, y);
            stack.top + 4 * |cs| <= 24 * n - 8 && forall i :: 0 <= i < |cs| ==> Storable(cs[i])
  {
    var cs := ChildrenNode(n, y);
    ChildrenRefine(n, y);
    ChildrenAllLegal(n, View(y));
    AllLegalAt(n, View(y), cs);
    ChildrenAtMostFour(n, y);
  }

  /** Pushing the children keeps every frame kept. */
  lemma {:induction false} PushKept(n: int, availability: seq<nat>, open: seq<nat>, rest: seq<Frame>, y: Node)
    requires NodeShape(n, y) && y.k < 2 * n && Inv(n, View(y)) && Saved(availability, open, y)
    requires AllLive(n, rest) && StackKept(n, availability, open, y.pos, rest)
    requires rest != [] ==> Beneath(rest[|rest| - 1].parent, y)
    requires |rest| <= 3 * (y.k - 1)
    ensures var fs := rest + Pushed(y, ChildrenNode(n, y));
            AllLive(n, fs) && StackKept(n, availability, open, y.pos, fs)
  {
    var cs := ChildrenNode(n, y);
    ChildrenRefine(n, y);
    ChildrenAllLegal(n, View(y));
    AllLegalAt(n, View(y), cs);
    ChildrenAtMostFour(n, y);
    AllLivePush(n, rest, y, cs);
    NodeKeptSelf(n, availability, open, y);
    StackPush(n, availability, open, rest, y, cs);
  }

  /** The pushed frames owe what the search below the node records. */
  lemma {:induction false} PushOwes(n: int, share: Share, rest: seq<Frame>, y: Node)
    requires NodeShape(n, y) && y.k < 2 * n && !Skip(n, share, View(y)) && AllLive(n, rest)
    ensures AllLive(n, rest + Pushed(y, ChildrenNode(n, y)))
    ensures Pending(n, share, rest + Pushed(y, ChildrenNode(n, y))) == Explore(n, share, View(y)) + Pending(n, share, rest)
  {
    var cs := ChildrenNode(n, y);
    ChildrenRefine(n, y);
    ChildrenAllLegal(n, View(y));
    PendingPush(n, share, rest, y, cs);
  }

  lemma {:induction false} ChildrenAtMostFour(n: int, y: Node)
    requires Sized(n, y)
    ensures |ChildrenNode(n, y)| <= 4
  {
  }

  /** The frames pushed at `y` are kept. */
  lemma {:induction false} StackPush(n: int, availability: seq<nat>, open: seq<nat>, rest: seq<Frame>, y: Node, cs: seq<Decision>)
    requires NodeKept(n, availability, open, y.pos, y)
    requires StackKept(n, availability, open, y.pos, rest)
    requires rest != [] ==> Beneath(rest[|rest| - 1].parent, y)
    requires |rest| + |cs| <= 3 * y.k + 1
    requires forall i :: 0 <= i < |cs| ==> cs[i].k == y.k
    ensures StackKept(n, availability, open, y.pos, rest + Pushed(y, cs))
    decreases |cs|
  {
    if cs == [] {
      assert rest + Pushed(y, cs) == rest;
    } else {
      StackPush(n, availability, open, rest, y, cs[..|cs| - 1]);
      StackPushLast(n, availability, open, rest, y, cs);
    }
  }

  /** The last frame pushed at `y` is kept once the ones before it are. */
  lemma StackPushLast(n: int, availability: seq<nat>, open: seq<nat>, rest: seq<Frame>, y: Node, cs: seq<Decision>)
    requires NodeKept(n, availability, open, y.pos, y)
    requires rest != [] ==> Beneath(rest[|rest| - 1].parent, y)
    requires |rest| + |cs| <= 3 * y.k + 1
    requires forall i :: 0 <= i < |cs| ==> cs[i].k == y.k
    requires cs != [] && StackKept(n, availability, open, y.pos, rest + Pushed(y, cs[..|cs| - 1]))
    ensures StackKept(n, availability, open, y.pos, rest + Pushed(y, cs))
  {
    var pre := cs[..|cs| - 1];
    var f := Frame(y, cs[|cs| - 1]);
    var hs := rest + Pushed(y, pre);
    PushedLast(y, cs);
    AppendAssoc(rest, Pushed(y, pre), [f]);
    assert FrameKept(n, availability, open, y.pos, f, |hs|);
    assert hs != [] ==> hs[|hs| - 1].parent == if pre == [] then rest[|rest| - 1].parent else y;
    StackKeptSnoc(n, availability, open, y.pos, hs, f);
  }

  /** A node with the invariant and saved words is kept by its own vector. */
  lemma NodeKeptSelf(n: int, availability: seq<nat>, open: seq<nat>, y: Node)
    requires Inv(n, View(y)) && Saved(availability, open, y) && |y.pos| == n
    ensures NodeKept(n, availability, open, y.pos, y)
  {
  }

  /** Pushing a kept frame beneath which the top frame's node lies. */
  lemma {:induction false} StackKeptSnoc(n: int, availability: seq<nat>, open: seq<nat>, pos: seq<int>, fs: seq<Frame>, f: Frame)
    requires StackKept(n, availability, open, pos, fs) && FrameKept(n, availability, open, pos, f, |fs|)
    requires fs != [] ==> Beneath(fs[|fs| - 1].parent, f.parent)
    ensures StackKept(n, availability, open, pos, fs + [f])
  {
    var gs := fs + [f];
    assert gs[..|fs|] == fs;
  }

  lemma {:induction false} WeightPush(n: int, rest: seq<Frame>, y: Node, cs: seq<Decision>, e: nat)
    requires 0 < y.k <= 2 * n && |cs| <= 4 && e == 2 * n - y.k + 1
    requires forall i :: 0 <= i < |cs| ==> cs[i].k == y.k
    ensures Weight(n, rest + Pushed(y, cs)) < Weight(n, rest) + Pow5(e)
  {
    WeightOfPushed(n, rest, y, cs);
    var p := Pow5(2 * n - y.k);
    assert Pow5(e) == 5 * p;
    MulMonotone(|cs|, 4, p);
  }

  lemma {:induction false} WeightOfPushed(n: int, rest: seq<Frame>, y: Node, cs: seq<Decision>)
    requires 0 < y.k <= 2 * n
    requires forall i :: 0 <= i < |cs| ==> cs[i].k == y.k
    ensures Weight(n, rest + Pushed(y, cs)) == Weight(n, rest) + |cs| * Pow5(2 * n - y.k)
    decreases |cs|
  {
    var fs := rest + Pushed(y, cs);
    if cs == [] {
      assert fs == rest;
    } else {
      var pre := cs[..|cs| - 1];
      WeightOfPushed(n, rest, y, pre);
      PushedLast(y, cs);
      AppendAssoc(rest, Pushed(y, pre), [Frame(y, cs[|cs| - 1])]);
      assert fs[..|fs| - 1] == rest + Pushed(y, pre);
      assert fs[|fs| - 1].dec.k == y.k;
      var p := Pow5(2 * n - y.k);
      assert Weight(n, fs) == Weight(n, rest + Pushed(y, pre)) + p;
      MulStep(|pre|, p);
    }
  }

  lemma MulStep(a: nat, p: nat)
    ensures (a + 1) * p == a * p + p
  {
  }

  lemma MulMonotone(a: nat, b: nat, p: nat)
    requires a <= b
    ensures a * p <= b * p
  {
  }
}

=== FILE: langford.dfy ===
/** Langford pairings of order `n` and their encoding by closing positions.

    A Langford pairing of order `n` is a sequence of length `2n` in which each
    value `v` in `1..n` occurs exactly twice, with exactly `v` entries between
    its two occurrences.  The search does not build the sequence: it records,
    for each `m` in `0..n-1`, the position `pos[m]` of the second (closing)
    occurrence of the value `m + 1`, whose first occurrence is then at
    `pos[m] - m - 2`.  `Reconstruct` is the loop that turns `pos` back into
    the sequence and checks it on the way. */
module Langford {
  import opened Words

  datatype Option<T> = None | Some(value: T)

  /** The position of the first occurrence of `m + 1`, given that its second
      occurrence is at `pos[m]`. */
  function Opening(pos: seq<int>, m: int): int
    requires 0 <= m < |pos|
  {
    pos[m] - m - 2
  }

  // ---------------------------------------------------------------------
  // Langford pairings

  /** Value `v` occurs in `s` exactly at `i` and `i + v + 1`. */
  predicate PairAt(s: seq<int>, v: int, i: int)
  {
    0 <= i && i + v + 1 < |s| && 0 <= v && s[i] == v && s[i + v + 1] == v &&
    forall j :: 0 <= j < |s| && s[j] == v ==> j == i || j == i + v + 1
  }

  ghost predicate HasPair(s: seq<int>, v: int)
  {
    exists i :: PairAt(s, v, i)
  }

  ghost predicate IsLangford(n: int, s: seq<int>)
  {
    |s| == 2 * n &&
    (forall i :: 0 <= i < |s| ==> 1 <= s[i] <= n) &&
    forall v :: 1 <= v <= n ==> HasPair(s, v)
  }

  // ---------------------------------------------------------------------
  // Valid closing positions

  /** The two slots of `m + 1` and those of `m' + 1` are four distinct positions. */
  predicate SlotsApart(pos: seq<int>, a: int, b: int)
    requires 0 <= a < |pos| && 0 <= b < |pos|
  {
    pos[a] != pos[b] && pos[a] != Opening(pos, b) &&
    Opening(pos, a) != pos[b] && Opening(pos, a) != Opening(pos, b)
  }

  /** The values `1..j` have both slots inside `0..len-1`, and no two of them
      share a slot. */
  predicate ValidPrefix(pos: seq<int>, j: int, len: int)
    requires 0 <= j <= |pos|
  {
    (forall m :: 0 <= m < j ==> 0 <= Opening(pos, m) && pos[m] < len) &&
    forall a, b :: 0 <= a < j && 0 <= b < j && a != b ==> SlotsApart(pos, a, b)
  }

  predicate ValidPositions(n: int, pos: seq<int>)
  {
    |pos| == n && ValidPrefix(pos, n, 2 * n)
  }

  /** The value among `1..j` that occupies position `i`, or -1 when none does. */
  function Holder(pos: seq<int>, j: int, i: int): (v: int)
    requires 0 <= j <= |pos|
    ensures v == -1 || 1 <= v <= j
  {
    if j == 0 then -1
    else if i == pos[j - 1] || i == Opening(pos, j - 1) then j
    else Holder(pos, j - 1, i)
  }

  // ---------------------------------------------------------------------
  // Reconstruction

  /** Writes the values `1..j` into a sequence of `2n` blanks (-1), failing
      when a slot lies outside the sequence or is already written. */
  function Fill(n: int, pos: seq<int>, j: int): (r: Option<seq<int>>)
    requires |pos| == n && 0 <= j <= n
    ensures r.Some? ==> |r.value| == 2 * n
  {
    if j == 0 then Some(seq(2 * n, _ => -1))
    else
      match Fill(n, pos, j - 1)
      case None => None
      case Some(s) =>
        var k2 := pos[j - 1];
        var k1 := k2 - j - 1;
        if 0 <= k1 && k2 < 2 * n && s[k1] == -1 && s[k2] == -1 then
          Some(s[k1 := j][k2 := j])
        else
          None
  }

  /** The sequence that `pos` encodes: every value's two slots are written,
      and afterwards every position must hold a value in `0..n`.  `None`
      stands for a failed check. */
  function Reconstruct(n: int, pos: seq<int>): (r: Option<seq<int>>)
    requires |pos| == n
    ensures r.Some? <==> ValidPositions(n, pos)
    ensures r.Some? ==> IsLangford(n, r.value)
    ensures r.Some? ==> forall m :: 0 <= m < n ==>
              r.value[Opening(pos, m)] == m + 1 && r.value[pos[m]] == m + 1
  {
    FillHolds(n, pos, n);
    match Fill(n, pos, n)
    case None => None
    case Some(s) =>
      if forall i :: 0 <= i < |s| ==> 0 <= s[i] <= n then
        FilledIsLangford(n, pos, s);
        Some(s)
      else
        Covered(n, pos);
        None
  }

  /** `Fill` succeeds exactly on valid prefixes, and then position `i` holds
      `Holder(pos, j, i)`. */
  lemma {:induction false} FillHolds(n: int, pos: seq<int>, j: int)
    requires |pos| == n && 0 <= j <= n
    ensures Fill(n, pos, j).Some? <==> ValidPrefix(pos, j, 2 * n)
    ensures Fill(n, pos, j).Some? ==>
              forall i :: 0 <= i < 2 * n ==> Fill(n, pos, j).value[i] == Holder(pos, j, i)
  {
    if j > 0 {
      FillHolds(n, pos, j - 1);
      if ValidPrefix(pos, j, 2 * n) {
        FillStep(n, pos, j - 1);
      } else if Fill(n, pos, j - 1).Some? {
        FillFails(n, pos, j - 1);
      }
    }
  }

  /** `Fill` succeeds and writes every holder into its position. */
  predicate FillMatches(n: int, pos: seq<int>, j: int)
    requires |pos| == n && 0 <= j <= n
  {
    Fill(n, pos, j).Some? &&
    forall i :: 0 <= i < 2 * n ==> Fill(n, pos, j).value[i] == Holder(pos, j, i)
  }

  /** With a valid prefix, value `j` finds both its slots blank. */
  lemma {:induction false} FillStep(n: int, pos: seq<int>, m: int)
    requires |pos| == n && 0 <= m < n && ValidPrefix(pos, m + 1, 2 * n)
    requires FillMatches(n, pos, m)
    ensures FillMatches(n, pos, m + 1)
  {
    forall a | 0 <= a < m
      ensures pos[m] != pos[a] && pos[m] != Opening(pos, a)
      ensures Opening(pos, m) != pos[a] && Opening(pos, m) != Opening(pos, a)
    {
      assert SlotsApart(pos, a, m);
    }
    HolderFree(pos, m, pos[m]);
    HolderFree(pos, m, Opening(pos, m));
  }

  /** When value `j` finds both its slots blank, the prefix `1..j` is valid. */
  lemma {:induction false} FillFails(n: int, pos: seq<int>, m: int)
    requires |pos| == n && 0 <= m < n && ValidPrefix(pos, m, 2 * n)
    requires FillMatches(n, pos, m)
    ensures Fill(n, pos, m + 1).Some? ==> ValidPrefix(pos, m + 1, 2 * n)
  {
    var j := m + 1;
    var s := Fill(n, pos, m).value;
    var k1, k2 := Opening(pos, m), pos[m];
    if 0 <= k1 && k2 < 2 * n && s[k1] == -1 && s[k2] == -1 {
      forall a, b | 0 <= a < j && 0 <= b < j && a != b
        ensures SlotsApart(pos, a, b)
      {
        if a == m {
          HolderOwn(pos, m, b, pos[b]);
          HolderOwn(pos, m, b, Opening(pos, b));
        } else if b == m {
          HolderOwn(pos, m, a, pos[a]);
          HolderOwn(pos, m, a, Opening(pos, a));
        }
      }
    }
  }

  /** A position that is a slot of none of `1..j` has no holder. */
  lemma {:induction false} HolderFree(pos: seq<int>, j: int, i: int)
    requires 0 <= j <= |pos|
    requires forall m :: 0 <= m < j ==> i != pos[m] && i != Opening(pos, m)
    ensures Holder(pos, j, i) == -1
  {
    if j > 0 {
      HolderFree(pos, j - 1, i);
    }
  }

  /** In a valid prefix, each slot is held by its own value. */
  lemma {:induction false} HolderOwn(pos: seq<int>, j: int, m: int, i: int)
    requires 0 <= m < j <= |pos|
    requires forall a, b :: 0 <= a < j && 0 <= b < j && a != b ==> SlotsApart(pos, a, b)
    requires i == pos[m] || i == Opening(pos, m)
    ensures Holder(pos, j, i) == m + 1
  {
    if m < j - 1 {
      assert SlotsApart(pos, m, j - 1);
      HolderOwn(pos, j - 1, m, i);
    }
  }

  /** A position with a holder is one of that holder's two slots. */
  lemma {:induction false} HolderSlot(pos: seq<int>, j: int, i: int)
    requires 0 <= j <= |pos| && Holder(pos, j, i) != -1
    ensures var m := Holder(pos, j, i) - 1; i == pos[m] || i == Opening(pos, m)
  {
    if !(i == pos[j - 1] || i == Opening(pos, j - 1)) {
      HolderSlot(pos, j - 1, i);
    }
  }

  /** The slots of `1..j`. */
  function SlotSet(pos: seq<int>, j: int): set<int>
    requires 0 <= j <= |pos|
  {
    if j == 0 then {} else SlotSet(pos, j - 1) + {pos[j - 1], Opening(pos, j - 1)}
  }

  lemma {:induction false} SlotSetFacts(pos: seq<int>, j: int, len: int)
    requires 0 <= j <= |pos| && ValidPrefix(pos, j, len)
    ensures |SlotSet(pos, j)| == 2 * j
    ensures forall i :: i in SlotSet(pos, j) ==> 0 <= i < len && Holder(pos, j, i) != -1
  {
    if j > 0 {
      var m := j - 1;
      assert ValidPrefix(pos, m, len);
      SlotSetFacts(pos, m, len);
      var a, b := pos[m], Opening(pos, m);
      NewSlots(pos, m, len);
      var prev := SlotSet(pos, m);
      assert |prev + {a}| == |prev| + 1;
      assert |prev + {a} + {b}| == |prev| + 2;
      assert SlotSet(pos, j) == prev + {a} + {b};
    }
  }

  /** The slots of `m + 1` are fresh with respect to those of `1..m`. */
  lemma {:induction false} NewSlots(pos: seq<int>, m: int, len: int)
    requires 0 <= m < |pos| && ValidPrefix(pos, m + 1, len)
    ensures pos[m] !in SlotSet(pos, m) && Opening(pos, m) !in SlotSet(pos, m)
  {
    forall i | i in SlotSet(pos, m)
      ensures i != pos[m] && i != Opening(pos, m)
    {
      SlotHeld(pos, m, i);
      HolderSlot(pos, m, i);
      assert SlotsApart(pos, Holder(pos, m, i) - 1, m);
    }
  }

  /** Every slot of `1..j` has a holder. */
  lemma {:induction false} SlotHeld(pos: seq<int>, j: int, i: int)
    requires 0 <= j <= |pos| && i in SlotSet(pos, j)
    ensures Holder(pos, j, i) != -1
  {
    if !(i == pos[j - 1] || i == Opening(pos, j - 1)) {
      SlotHeld(pos, j - 1, i);
    }
  }

  /** With valid positions every one of the `2n` positions is written. */
  lemma {:induction false} Covered(n: int, pos: seq<int>)
    requires ValidPositions(n, pos)
    ensures forall i :: 0 <= i < 2 * n ==> Holder(pos, n, i) != -1
  {
    SlotSetFacts(pos, n, 2 * n);
    assert SlotSet(pos, n) <= LowBits(2 * n);
    LowBitsCard(2 * n);
    SubsetCard(SlotSet(pos, n), LowBits(2 * n));
  }

  lemma {:induction false} FilledIsLangford(n: int, pos: seq<int>, s: seq<int>)
    requires |pos| == n && Fill(n, pos, n) == Some(s)
    requires forall i :: 0 <= i < |s| ==> 0 <= s[i] <= n
    ensures ValidPositions(n, pos)
    ensures IsLangford(n, s)
    ensures forall m :: 0 <= m < n ==> s[Opening(pos, m)] == m + 1 && s[pos[m]] == m + 1
  {
    FillHolds(n, pos, n);
    forall m | 0 <= m < n
      ensures s[Opening(pos, m)] == m + 1 && s[pos[m]] == m + 1
    {
      HolderOwn(pos, n, m, pos[m]);
      HolderOwn(pos, n, m, Opening(pos, m));
    }
    forall v | 1 <= v <= n
      ensures HasPair(s, v)
    {
      FilledPair(n, pos, s, v);
    }
  }

  /** In the filled sequence value `v` occurs exactly at its two slots. */
  lemma {:induction false} FilledPair(n: int, pos: seq<int>, s: seq<int>, v: int)
    requires |pos| == n && |s| == 2 * n && 1 <= v <= n
    requires forall i :: 0 <= i < 2 * n ==> s[i] == Holder(pos, n, i)
    requires forall m :: 0 <= m < n ==> 0 <= Opening(pos, m) && pos[m] < 2 * n
    requires s[Opening(pos, v - 1)] == v && s[pos[v - 1]] == v
    ensures PairAt(s, v, Opening(pos, v - 1))
  {
    var i := Opening(pos, v - 1);
    forall j | 0 <= j < |s| && s[j] == v
      ensures j == i || j == i + v + 1
    {
      HolderSlot(pos, n, j);
    }
  }

  // ---------------------------------------------------------------------
  // From a pairing back to its closing positions

  /** The last position of `v` in `s`, or -1. */
  function LastIndex(s: seq<int>, v: int): (r: int)
    ensures -1 <= r < |s|
    ensures r >= 0 ==> s[r] == v
    ensures forall j :: r < j < |s| ==> s[j] != v
  {
    if |s| == 0 then -1
    else if s[|s| - 1] == v then |s| - 1
    else LastIndex(s[..|s| - 1], v)
  }

  /** The closing position of every value of `s`. */
  function ClosingPositions(n: nat, s: seq<int>): (pos: seq<int>)
    ensures |pos| == n
  {
    seq(n, m => LastIndex(s, m + 1))
  }

  /** In a pairing, the last occurrence of `v` is `v + 1` after the first. */
  lemma {:induction false} ClosingOfPair(s: seq<int>, v: int, i: int)
    requires PairAt(s, v, i)
    ensures LastIndex(s, v) == i + v + 1
  {}

  /** A Langford pairing is recovered from its closing positions, so `pos`
      loses nothing. */
  lemma {:induction false} RoundTrip(n: nat, s: seq<int>)
    requires IsLangford(n, s)
    ensures ValidPositions(n, ClosingPositions(n, s))
    ensures Reconstruct(n, ClosingPositions(n, s)) == Some(s)
  {
    var pos := ClosingPositions(n, s);
    PositionsValid(n, s);
    FillHolds(n, pos, n);
    var t := Fill(n, pos, n).value;
    forall i | 0 <= i < 2 * n
      ensures t[i] == s[i]
    {
      SlotOfValue(n, s, i);
      HolderOwn(pos, n, s[i] - 1, i);
    }
    assert t == s;
  }

  /** The closing positions of a pairing form a valid layout whose slots
      hold their values. */
  lemma {:induction false} PositionsValid(n: nat, s: seq<int>)
    requires IsLangford(n, s)
    ensures ValidPositions(n, ClosingPositions(n, s))
  {
    var pos := ClosingPositions(n, s);
    PairSlots(n, s);
    forall a, b | 0 <= a < n && 0 <= b < n && a != b
      ensures SlotsApart(pos, a, b)
    {}
    assert ValidPrefix(pos, n, 2 * n);
  }

  /** Value `m + 1` of a pairing sits at both slots its closing position
      gives. */
  lemma {:induction false} PairSlots(n: nat, s: seq<int>)
    requires IsLangford(n, s)
    ensures var pos := ClosingPositions(n, s);
            forall m | 0 <= m < n ::
              0 <= Opening(pos, m) && pos[m] < 2 * n &&
              s[Opening(pos, m)] == m + 1 && s[pos[m]] == m + 1
  {
    var pos := ClosingPositions(n, s);
    forall m | 0 <= m < n
      ensures 0 <= Opening(pos, m) && pos[m] < 2 * n
      ensures s[Opening(pos, m)] == m + 1 && s[pos[m]] == m + 1
    {
      assert HasPair(s, m + 1);
      var i :| PairAt(s, m + 1, i);
      ClosingOfPair(s, m + 1, i);
    }
  }

  /** In a pairing every position is one of the two slots of its value. */
  lemma {:induction false} SlotOfValue(n: nat, s: seq<int>, i: int)
    requires IsLangford(n, s) && 0 <= i < 2 * n
    ensures var pos := ClosingPositions(n, s);
            i == pos[s[i] - 1] || i == Opening(pos, s[i] - 1)
  {
    var v := s[i];
    assert HasPair(s, v);
    var i0 :| PairAt(s, v, i0);
    ClosingOfPair(s, v, i0);
  }

  /** The closing positions are determined by the sequence they encode. */
  lemma {:induction false} PositionsDetermined(n: nat, pos: seq<int>)
    requires |pos| == n && Reconstruct(n, pos).Some?
    ensures ClosingPositions(n, Reconstruct(n, pos).value) == pos
  {
    forall m | 0 <= m < n
      ensures LastIndex(Reconstruct(n, pos).value, m + 1) == pos[m]
    {
      LastOfValue(n, pos, m);
    }
  }

  lemma {:induction false} LastOfValue(n: nat, pos: seq<int>, m: int)
    requires |pos| == n && Reconstruct(n, pos).Some? && 0 <= m < n
    ensures LastIndex(Reconstruct(n, pos).value, m + 1) == pos[m]
  {
    var s := Reconstruct(n, pos).value;
    assert HasPair(s, m + 1);
    var i :| PairAt(s, m + 1, i);
    ClosingOfPair(s, m + 1, i);
  }

  // ---------------------------------------------------------------------
  // Which orders admit a pairing

  /** The sum of the positions of `s` that hold a value rather than a blank. */
  function FilledSum(s: seq<int>): int
  {
    if |s| == 0 then 0
    else FilledSum(s[..|s| - 1]) + (if s[|s| - 1] != -1 then |s| - 1 else 0)
  }

  lemma {:induction false} FilledSumBlank(s: seq<int>)
    requires forall i :: 0 <= i < |s| ==> s[i] == -1
    ensures FilledSum(s) == 0
  {
    if |s| > 0 {
      FilledSumBlank(s[..|s| - 1]);
    }
  }

  /** Writing a value into a blank adds its position to the sum. */
  lemma {:induction false} FilledSumWrite(s: seq<int>, k: int, v: int)
    requires 0 <= k < |s| && s[k] == -1 && v != -1
    ensures FilledSum(s[k := v]) == FilledSum(s) + k
  {
    var t := s[k := v];
    if k < |s| - 1 {
      assert t[..|t| - 1] == s[..|s| - 1][k := v];
      FilledSumWrite(s[..|s| - 1], k, v);
    } else {
      assert t[..|t| - 1] == s[..|s| - 1];
    }
  }

  /** Without blanks the sum is `0 + 1 + ... + (|s| - 1)`. */
  lemma {:induction false} FilledSumFull(s: seq<int>)
    requires forall i :: 0 <= i < |s| ==> s[i] != -1
    ensures 2 * FilledSum(s) == |s| * (|s| - 1)
  {
    if |s| > 0 {
      FilledSumFull(s[..|s| - 1]);
    }
  }

  /** The sum of the closing positions of `1..j`. */
  function ClosingSum(pos: seq<int>, j: int): int
    requires 0 <= j <= |pos|
  {
    if j == 0 then 0 else ClosingSum(pos, j - 1) + pos[j - 1]
  }

  /** Value `v` adds `2 pos[v-1] - v - 1` to the sum of the written positions. */
  lemma {:induction false} FillSum(n: int, pos: seq<int>, j: int)
    requires |pos| == n && 0 <= j <= n && Fill(n, pos, j).Some?
    ensures 2 * FilledSum(Fill(n, pos, j).value) + j * (j + 3) == 4 * ClosingSum(pos, j)
  {
    if j == 0 {
      FilledSumBlank(Fill(n, pos, 0).value);
    } else {
      FillSum(n, pos, j - 1);
      var s := Fill(n, pos, j - 1).value;
      var k2 := pos[j - 1];
      var k1 := k2 - j - 1;
      FilledSumWrite(s, k1, j);
      FilledSumWrite(s[k1 := j], k2, j);
      assert j * (j + 3) == (j - 1) * (j + 2) + 2 * j + 2;
    }
  }

  /** A Langford pairing of order `n` exists only when `n` is 0 or 3 modulo 4:
      the positions `0..2n-1` sum to `n(2n-1)`, and summing them value by value
      gives `2P - n(n+3)/2` for the sum `P` of the closing positions. */
  lemma {:induction false} LangfordOrders(n: nat, s: seq<int>)
    requires IsLangford(n, s)
    ensures n % 4 == 0 || n % 4 == 3
  {
    PositionSums(n, s);
    OrderArithmetic(n, ClosingSum(ClosingPositions(n, s), n));
  }

  lemma {:induction false} PositionSums(n: nat, s: seq<int>)
    requires IsLangford(n, s)
    ensures 2 * n * (2 * n - 1) + n * (n + 3) == 4 * ClosingSum(ClosingPositions(n, s), n)
  {
    RoundTrip(n, s);
    var pos := ClosingPositions(n, s);
    FillHolds(n, pos, n);
    assert Fill(n, pos, n).value == s;
    FillSum(n, pos, n);
    FilledSumFull(s);
  }

  lemma {:induction false} OrderArithmetic(n: nat, c: int)
    requires 2 * n * (2 * n - 1) + n * (n + 3) == 4 * c
    ensures n % 4 == 0 || n % 4 == 3
  {
    assert 2 * n * (2 * n - 1) + n * (n + 3) == 5 * n * n + n;
    QuadraticModFour(n);
  }

  /** `5n^2 + n` is divisible by 4 exactly when `n` is 0 or 3 modulo 4. */
  lemma {:induction false} QuadraticModFour(n: nat)
    ensures (5 * n * n + n) % 4 == (if n % 4 == 1 || n % 4 == 2 then 2 else 0)
  {
    if n >= 4 {
      var m := n - 4;
      QuadraticModFour(m);
      QuadraticShift(n, m);
      ModFourShift(5 * n * n + n, 5 * m * m + m, 10 * m + 21);
      ModFourShift(n, m, 1);
    } else if n == 0 {
    } else if n == 1 {
    } else if n == 2 {
    } else {
    }
  }

  lemma ModFourShift(a: int, b: int, c: int)
    requires a == b + 4 * c
    ensures a % 4 == b % 4
  {
  }

  lemma QuadraticShift(n: int, m: int)
    requires n == m + 4
    ensures 5 * n * n + n == (5 * m * m + m) + 4 * (10 * m + 21)
  {
    assert n * n == m * m + 8 * m + 16;
  }

  // ---------------------------------------------------------------------
  // Reversal twins

  function Reverse(s: seq<int>): (r: seq<int>)
    ensures |r| == |s|
    ensures forall i :: 0 <= i < |s| ==> r[i] == s[|s| - 1 - i]
  {
    seq(|s|, i requires 0 <= i < |s| => s[|s| - 1 - i])
  }

  /** The reversal of a pairing is a pairing. */
  lemma {:induction false} ReverseLangford(n: nat, s: seq<int>)
    requires IsLangford(n, s)
    ensures IsLangford(n, Reverse(s))
  {
    var r := Reverse(s);
    forall v | 1 <= v <= n
      ensures HasPair(r, v)
    {
      assert HasPair(s, v);
      var i :| PairAt(s, v, i);
      ReversePair(s, v, i);
    }
  }

  lemma {:induction false} ReversePair(s: seq<int>, v: int, i: int)
    requires PairAt(s, v, i)
    ensures PairAt(Reverse(s), v, |s| - 1 - (i + v + 1))
  {
    var r := Reverse(s);
    var i' := |s| - 1 - (i + v + 1);
    forall j | 0 <= j < |r| && r[j] == v
      ensures j == i' || j == i' + v + 1
    {
      assert s[|s| - 1 - j] == v;
    }
  }

  /** Of a pairing and its reversal exactly one closes the value 1 at a
      position up to `n`; keeping only those keeps one of every twin. */
  lemma {:induction false} TwinsSplit(n: nat, s: seq<int>)
    requires IsLangford(n, s) && n >= 1
    ensures (ClosingPositions(n, s)[0] <= n) != (ClosingPositions(n, Reverse(s))[0] <= n)
  {
    assert HasPair(s, 1);
    var i :| PairAt(s, 1, i);
    ClosingOfPair(s, 1, i);
    ReversePair(s, 1, i);
    ClosingOfPair(Reverse(s), 1, |s| - 1 - (i + 2));
  }
}

=== FILE: partition.dfy ===
/** How the search divides its work among threads.

    Every thread runs the whole search but, at the one depth `KLimit(n)`,
    continues only from the nodes whose hash, reduced modulo the number of
    threads, is its own thread number.  The hash is a function of the node's
    three words only; which function it is does not matter here. */
module Partition {
  import opened SearchState

  /** The number of threads. */
  const MaxThreads := 511

  /** The depth at which the work is divided. */
  function KLimit(n: int): int
  {
    if n > 19 then 8 + n / 3 else n - 5
  }

  /** A hash of the open words of orientation 0 and 1 and the availability
      word. */
  type Hash = (set<int>, set<int>, set<int>) -> nat

  /** Which part of the search a run performs: all of it, or the share of
      thread `thread` under `hash`. */
  datatype Share = Everything | Slot(thread: int, hash: Hash)

  /** The thread that continues from node `s` at depth `KLimit(n)`. */
  function Owner(h: Hash, s: State): (t: int)
    ensures 0 <= t < MaxThreads
  {
    h(s.open0, s.open1, s.avail) % MaxThreads
  }

  /** The run abandons node `s` because another thread owns it. */
  predicate Skip(n: int, share: Share, s: State)
  {
    share.Slot? && MaxThreads > 1 && s.k == KLimit(n) && Owner(share.hash, s) != share.thread
  }

  /** At depth `KLimit(n)` exactly one of the threads `0..MaxThreads-1`
      continues from a node; at every other depth all of them do. */
  lemma {:induction false} ExactlyOneOwner(n: int, h: Hash, s: State)
    ensures s.k == KLimit(n) ==>
              0 <= Owner(h, s) < MaxThreads &&
              forall t :: 0 <= t < MaxThreads ==> (!Skip(n, Slot(t, h), s) <==> t == Owner(h, s))
    ensures s.k != KLimit(n) ==> forall t :: !Skip(n, Slot(t, h), s)
    ensures !Skip(n, Everything, s)
  {}

  /** The division depth lies strictly inside the search for every order it
      runs. */
  lemma {:induction false} KLimitBelowLeaves(n: int)
    requires ValidOrder(n)
    ensures KLimit(n) < 2 * n
    ensures KLimit(n) >= 1 <==> n >= 6
  {}
}

=== FILE: planarity.dfy ===
/** Planar pairings, and the claim that the search records exactly them.

    A drawing gives each value a side: 0 for an arc drawn below the line,
    1 for one drawn above it (the orientation `d` of the search).  Two arcs
    drawn on one side cross when one starts strictly inside the other and
    ends strictly outside it.  A pairing is planar when some drawing has no
    crossing.

    Both directions are proved.  Every vector the search records has a
    drawing: the side of each value is the orientation it was closed in.
    Every planar pairing whose ones close by position `n` is recorded: the
    search can replay it position by position, and each replayed step is a
    child the search pushes. */
module Planarity {
  import opened Words
  import opened Langford
  import opened SearchState
  import opened Partition
  import opened Search

  /** The arc of `b + 1` starts strictly inside the arc of `a + 1` and ends
      after it. */
  predicate Crosses(pos: seq<int>, a: int, b: int)
    requires 0 <= a < |pos| && 0 <= b < |pos|
  {
    Opening(pos, a) < Opening(pos, b) < pos[a] < pos[b]
  }

  /** `side` draws the pairing with closing positions `pos` with no two arcs
      of one side crossing. */
  predicate Drawing(n: int, pos: seq<int>, side: seq<int>)
    requires |pos| == n
  {
    |side| == n && (forall m :: 0 <= m < n ==> side[m] == 0 || side[m] == 1) &&
    forall a, b :: 0 <= a < n && 0 <= b < n && side[a] == side[b] ==> !Crosses(pos, a, b)
  }

  /** The closing positions `pos` belong to a pairing that can be drawn
      without crossings. */
  ghost predicate Planar(n: int, pos: seq<int>)
  {
    |pos| == n && exists side :: Drawing(n, pos, side)
  }

  /** The pairings `solve` counts: the planar Langford pairings of order
      `n` in which the pair of ones closes at position `n` or before, which
      keeps one of each pairing and its reversal. */
  ghost predicate Counted(n: int, s: seq<int>)
  {
    ValidOrder(n) && IsLangford(n, s) && Planar(n, ClosingPositions(n, s)) &&
    ClosingPositions(n, s)[0] <= n
  }

  // ---------------------------------------------------------------------
  // Every recorded vector is planar

  /** `side` draws the closed arcs of node `s` without crossings, and no
      open arc starts inside a closed arc of its own side: it closes later,
      so it would cross it. */
  ghost predicate DrawnSoFar(n: int, s: State, side: seq<int>)
    requires |s.pos| == n
  {
    |side| == n &&
    (forall m :: 0 <= m < n && m !in s.avail ==> side[m] == 0 || side[m] == 1) &&
    (forall a, b :: 0 <= a < n && 0 <= b < n && a !in s.avail && b !in s.avail && side[a] == side[b] ==>
       !Crosses(s.pos, a, b)) &&
    (forall a, x :: 0 <= a < n && a !in s.avail && x in s.Open(side[a]) ==>
       !(Opening(s.pos, a) < Mirror(n, x) < s.pos[a]))
  }

  /** Closing a pair draws its arc on the side of its orientation, and the
      drawing stays free of crossings. */
  lemma {:induction false} DrawnClose(n: int, s: State, dec: Decision, side: seq<int>)
    requires Shape(n, s) && ClosedBefore(n, s) && s.k < 2 * n && Legal(n, s, dec) && dec.m >= 0
    requires DrawnSoFar(n, s, side)
    ensures DrawnSoFar(n, Place(n, s, dec), side[dec.m := dec.d])
  {
    var r := Place(n, s, dec);
    PlaceClose(n, s, dec);
    assert r.Open(dec.d) <= s.Open(dec.d);
    DrawnCloseFields(n, s, r, dec.m, dec.d, side);
  }

  /** `DrawnClose` on the fields a close changes. */
  lemma {:induction false} DrawnCloseFields(n: int, s: State, r: State, m: int, d: int, side: seq<int>)
    requires IsLatest(n, s.Open(d), s.k - m - 2)
    requires |s.pos| == n && 0 <= m < n && (d == 0 || d == 1) && m in s.avail
    requires r.pos == s.pos[m := s.k] && r.avail == s.avail - {m}
    requires r.Open(d) <= s.Open(d) && r.Open(1 - d) == s.Open(1 - d)
    requires forall a :: 0 <= a < n && a !in s.avail ==> s.pos[a] < s.k
    requires DrawnSoFar(n, s, side)
    ensures DrawnSoFar(n, r, side[m := d])
  {
    var k := s.k;
    var o := k - m - 2;
    var side' := side[m := d];
    assert Mirror(n, Mirror(n, o)) == o;
    assert Opening(r.pos, m) == o;
    forall a, b | 0 <= a < n && 0 <= b < n && a !in r.avail && b !in r.avail && side'[a] == side'[b]
      ensures !Crosses(r.pos, a, b)
    {
      if a == m && b != m {
        assert r.pos[b] == s.pos[b] < k;
      } else if a != m && b == m {
        assert Mirror(n, o) in s.Open(side[a]);
      } else if a != m && b != m {
        assert !Crosses(s.pos, a, b);
      }
    }
    forall a, x | 0 <= a < n && a !in r.avail && x in r.Open(side'[a])
      ensures !(Opening(r.pos, a) < Mirror(n, x) < r.pos[a])
    {
      if a == m {
        assert x in s.Open(d);
      } else {
        assert x in s.Open(side[a]);
      }
    }
  }

  /** Opening a pair at `k` starts no arc inside a closed one, since every
      closed arc ends before `k`. */
  lemma {:induction false} DrawnOpen(n: int, s: State, dec: Decision, side: seq<int>)
    requires Inv(n, s) && s.k < 2 * n && Legal(n, s, dec) && dec.m == -1
    requires DrawnSoFar(n, s, side)
    ensures DrawnSoFar(n, Place(n, s, dec), side)
  {
    var r := Place(n, s, dec);
    PlaceOpen(n, s, dec);
    forall a, x | 0 <= a < n && a !in r.avail && x in r.Open(side[a])
      ensures !(Opening(r.pos, a) < Mirror(n, x) < r.pos[a])
    {
      if x !in s.Open(side[a]) {
        assert Mirror(n, x) == s.k;
      }
    }
  }

  /** At a leaf every arc is closed, so the drawing covers them all. */
  lemma {:induction false} DrawnLeaf(n: int, s: State, side: seq<int>)
    requires Inv(n, s) && s.k == 2 * n && DrawnSoFar(n, s, side)
    ensures Planar(n, s.pos)
  {
    LeafComplete(n, s);
    assert Drawing(n, s.pos, side);
  }

  lemma {:induction false} ExploreDrawn(n: int, share: Share, s: State, side: seq<int>)
    requires Inv(n, s) && DrawnSoFar(n, s, side)
    ensures forall p :: p in Explore(n, share, s) ==> Planar(n, p)
    decreases 2 * n - s.k, 1, 0
  {
    if s.k == 2 * n {
      DrawnLeaf(n, s, side);
    } else if !Skip(n, share, s) {
      OpenWords(n, s);
      ChildrenAllLegal(n, s);
      ExploreAllDrawn(n, share, s, side, Children(n, s));
    }
  }

  lemma {:induction false} ExploreAllDrawn(n: int, share: Share, s: State, side: seq<int>, ds: seq<Decision>)
    requires Inv(n, s) && s.k < 2 * n && DrawnSoFar(n, s, side)
    requires AllLegal(n, s, ds)
    ensures forall p :: p in ExploreAll(n, share, s, ds) ==> Planar(n, p)
    decreases 2 * n - s.k, 0, |ds|
  {
    if ds != [] {
      ExploreChildDrawn(n, share, s, side, ds[|ds| - 1]);
      ExploreAllDrawn(n, share, s, side, ds[..|ds| - 1]);
    }
  }

  lemma {:induction false} ExploreChildDrawn(n: int, share: Share, s: State, side: seq<int>, dec: Decision)
    requires Inv(n, s) && s.k < 2 * n && DrawnSoFar(n, s, side) && Legal(n, s, dec)
    ensures forall p :: p in ExploreChild(n, share, s, dec) ==> Planar(n, p)
    decreases 2 * n - s.k, 0, 0
  {
    PlaceKeepsInv(n, s, dec);
    if dec.m >= 0 {
      DrawnClose(n, s, dec, side);
      ExploreDrawn(n, share, Place(n, s, dec), side[dec.m := dec.d]);
    } else {
      DrawnOpen(n, s, dec, side);
      ExploreDrawn(n, share, Place(n, s, dec), side);
    }
  }

  /** Every vector the search records, in any share, belongs to a planar
      pairing. */
  lemma {:induction false} DfsDrawn(n: int, share: Share)
    requires ValidOrder(n)
    ensures forall p :: p in Dfs(n, share) ==> Planar(n, p)
  {
    DfsFromRoot(n, share);
    RootFacts(n);
    var side := seq(n, _ => 0);
    assert forall m :: 0 <= m < n ==> m in RootState(n).avail;
    assert DrawnSoFar(n, RootState(n), side);
    ExploreDrawn(n, share, RootState(n), side);
  }

  // ---------------------------------------------------------------------
  // Every planar pairing with its ones closing by `n` is recorded

  /** What the replay below uses of a pairing `s` with closing positions
      `pos`: the slots are valid, and every position is a slot of the value
      it holds. */
  ghost predicate Slotted(n: int, s: seq<int>, pos: seq<int>)
  {
    ValidOrder(n) && |s| == 2 * n && ValidPositions(n, pos) &&
    forall i :: 0 <= i < 2 * n ==>
      1 <= s[i] <= n && (i == pos[s[i] - 1] || i == Opening(pos, s[i] - 1))
  }

  /** The values whose pair opens before position `k`. */
  function Opened(n: int, pos: seq<int>, k: int): set<int>
    requires |pos| == n
  {
    set m | 0 <= m < n && Opening(pos, m) < k
  }

  /** The values whose pair does not close before position `k`. */
  function Unclosed(n: int, pos: seq<int>, k: int): set<int>
    requires |pos| == n
  {
    set m | 0 <= m < n && k <= pos[m]
  }

  /** The open word of side `d` before position `k`: the arcs of that side
      spanning `k`, each by the bit of its opening. */
  function OpenArcs(n: int, pos: seq<int>, side: seq<int>, d: int, k: int): set<int>
    requires |pos| == n && |side| == n
  {
    set m | 0 <= m < n && side[m] == d && Opening(pos, m) < k <= pos[m] :: Mirror(n, Opening(pos, m))
  }

  /** The closing positions written before position `k`, -1 elsewhere. */
  function Written(n: int, pos: seq<int>, k: int): seq<int>
    requires |pos| == n
  {
    seq(n, m requires 0 <= m < n => if pos[m] < k then pos[m] else -1)
  }

  /** The node the search reaches after deciding positions `0..k-1` as the
      drawing `side` of the pairing does. */
  function Replay(n: int, pos: seq<int>, side: seq<int>, k: int): State
    requires |pos| == n && |side| == n
  {
    State(k, |Opened(n, pos, k)|, Unclosed(n, pos, k),
          OpenArcs(n, pos, side, 0, k), OpenArcs(n, pos, side, 1, k), Written(n, pos, k))
  }

  /** The decision the pairing takes at position `k`: close the value `k`
      holds if `k` is its closing position, open it otherwise, on its side. */
  function Move(n: int, s: seq<int>, pos: seq<int>, side: seq<int>, k: int): Decision
    requires Slotted(n, s, pos) && |side| == n && 0 <= k < 2 * n
  {
    var m := s[k] - 1;
    if k == pos[m] then Decision(k, m, side[m], |Opened(n, pos, k)|)
    else Decision(k, -1, side[m], |Opened(n, pos, k)|)
  }

  /** A set of values below `n` has at most `n` members. */
  lemma {:induction false} FewValues(a: set<int>, n: nat)
    requires forall m :: m in a ==> 0 <= m < n
    ensures |a| <= n
  {
    LowBitsCard(n);
    var rest := LowBits(n) - a;
    assert LowBits(n) == a + rest;
  }

  /** The replayed node has the shape of a search node. */
  lemma {:induction false} ReplayShape(n: int, s: seq<int>, pos: seq<int>, side: seq<int>, k: int)
    requires Slotted(n, s, pos) && Drawing(n, pos, side) && 0 <= k <= 2 * n
    ensures Shape(n, Replay(n, pos, side, k))
  {
    var r := Replay(n, pos, side, k);
    FewValues(Opened(n, pos, k), n);
    forall x | x in r.open0
      ensures x !in r.open1
    {
      var a :| 0 <= a < n && side[a] == 0 && Opening(pos, a) < k <= pos[a] && x == Mirror(n, Opening(pos, a));
      forall b | 0 <= b < n && side[b] == 1
        ensures Mirror(n, Opening(pos, b)) != x
      {
        assert SlotsApart(pos, a, b);
      }
    }
  }

  /** Position `k` is the closing position of `m` and no slot of any other
      value. */
  lemma {:induction false} OnlySlot(n: int, pos: seq<int>, m: int, k: int)
    requires ValidPositions(n, pos) && 0 <= m < n && (k == pos[m] || k == Opening(pos, m))
    ensures forall a :: 0 <= a < n && a != m ==> pos[a] != k && Opening(pos, a) != k
    ensures forall a :: 0 <= a < n && a != m ==> Opening(pos, a) != Opening(pos, m)
    ensures 0 <= Opening(pos, m) < pos[m] < 2 * n
  {
    forall a | 0 <= a < n && a != m
      ensures pos[a] != k && Opening(pos, a) != k && Opening(pos, a) != Opening(pos, m)
    {
      assert SlotsApart(pos, a, m);
    }
  }

  /** Closing `m` at its closing position `k` is legal at the replayed
      node: the drawing has no crossing, so the arc of `m` is the latest
      still open on its side. */
  lemma {:induction false} ReplayCloseLegal(n: int, s: seq<int>, pos: seq<int>, side: seq<int>, k: int, m: int)
    requires Slotted(n, s, pos) && Drawing(n, pos, side) && pos[0] <= n
    requires 0 <= m < n && k == pos[m]
    ensures Legal(n, Replay(n, pos, side, k), Decision(k, m, side[m], |Opened(n, pos, k)|))
  {
    var st := Replay(n, pos, side, k);
    var d := side[m];
    var o := Opening(pos, m);
    OnlySlot(n, pos, m, k);
    assert st.Open(d) == OpenArcs(n, pos, side, d, k);
    assert m in st.avail;
    assert 0 <= m < n && side[m] == d && Opening(pos, m) < k <= pos[m];
    assert Mirror(n, o) in st.Open(d);
    forall x | x in st.Open(d)
      ensures Mirror(n, x) <= o
    {
      var a :| 0 <= a < n && side[a] == d && Opening(pos, a) < k <= pos[a] && x == Mirror(n, Opening(pos, a));
      if a != m {
        assert !Crosses(pos, m, a);
      }
    }
    assert k - m - 2 == o;
  }

  /** Opening `m` at its opening position is legal at the replayed node:
      fewer than `n` pairs are open, since `m` is not. */
  lemma {:induction false} ReplayOpenLegal(n: int, s: seq<int>, pos: seq<int>, side: seq<int>, k: int, m: int)
    requires Slotted(n, s, pos) && Drawing(n, pos, side)
    requires 0 <= m < n && k == Opening(pos, m)
    ensures Legal(n, Replay(n, pos, side, k), Decision(k, -1, side[m], |Opened(n, pos, k)|))
  {
    var a := Opened(n, pos, k);
    assert m !in a;
    FewValues(a + {m}, n);
  }

  /** How the replayed sets move past a closing position `k` of `m`. */
  lemma {:induction false} CloseSets(n: int, pos: seq<int>, side: seq<int>, k: int, m: int)
    requires |pos| == n && |side| == n && 0 <= m < n && pos[m] == k
    requires forall a :: 0 <= a < n && a != m ==> pos[a] != k && Opening(pos, a) != k
    requires forall a :: 0 <= a < n && a != m ==> Opening(pos, a) != Opening(pos, m)
    requires Opening(pos, m) < pos[m]
    ensures Opened(n, pos, k + 1) == Opened(n, pos, k)
    ensures Unclosed(n, pos, k + 1) == Unclosed(n, pos, k) - {m}
    ensures Written(n, pos, k + 1) == Written(n, pos, k)[m := k]
    ensures OpenArcs(n, pos, side, side[m], k + 1) ==
            OpenArcs(n, pos, side, side[m], k) - {Mirror(n, Opening(pos, m))}
    ensures OpenArcs(n, pos, side, 1 - side[m], k + 1) == OpenArcs(n, pos, side, 1 - side[m], k)
  {
    var d := side[m];
    var x0 := Mirror(n, Opening(pos, m));
    forall x | x in OpenArcs(n, pos, side, d, k + 1)
      ensures x in OpenArcs(n, pos, side, d, k) && x != x0
    {
      var a :| 0 <= a < n && side[a] == d && Opening(pos, a) < k + 1 <= pos[a] && x == Mirror(n, Opening(pos, a));
      assert a != m;
    }
    forall x | x in OpenArcs(n, pos, side, d, k) && x != x0
      ensures x in OpenArcs(n, pos, side, d, k + 1)
    {
      var a :| 0 <= a < n && side[a] == d && Opening(pos, a) < k <= pos[a] && x == Mirror(n, Opening(pos, a));
      assert a != m;
    }
  }

  /** How the replayed sets move past the opening position `k` of `m`. */
  lemma {:induction false} OpenSets(n: int, pos: seq<int>, side: seq<int>, k: int, m: int)
    requires |pos| == n && |side| == n && 0 <= m < n && Opening(pos, m) == k
    requires forall a :: 0 <= a < n && a != m ==> pos[a] != k && Opening(pos, a) != k
    requires Opening(pos, m) < pos[m]
    ensures Opened(n, pos, k + 1) == Opened(n, pos, k) + {m} && m !in Opened(n, pos, k)
    ensures Unclosed(n, pos, k + 1) == Unclosed(n, pos, k)
    ensures Written(n, pos, k + 1) == Written(n, pos, k)
    ensures OpenArcs(n, pos, side, side[m], k + 1) == OpenArcs(n, pos, side, side[m], k) + {Mirror(n, k)}
    ensures OpenArcs(n, pos, side, 1 - side[m], k + 1) == OpenArcs(n, pos, side, 1 - side[m], k)
  {
    var d := side[m];
    forall x | x in OpenArcs(n, pos, side, d, k + 1)
      ensures x in OpenArcs(n, pos, side, d, k) + {Mirror(n, k)}
    {
      var a :| 0 <= a < n && side[a] == d && Opening(pos, a) < k + 1 <= pos[a] && x == Mirror(n, Opening(pos, a));
    }
    assert 0 <= m < n && side[m] == d && Opening(pos, m) < k + 1 <= pos[m];
  }

  lemma {:induction false} ReplayWords(n: int, pos: seq<int>, side: seq<int>, k: int, d: int)
    requires |pos| == n && |side| == n && (d == 0 || d == 1)
    ensures Replay(n, pos, side, k).Open(d) == OpenArcs(n, pos, side, d, k)
    ensures Replay(n, pos, side, k).Open(1 - d) == OpenArcs(n, pos, side, 1 - d, k)
  {}

  /** A node whose fields are those of the replayed node one position
      further is that node. */
  lemma {:induction false} SameReplay(n: int, pos: seq<int>, side: seq<int>, k: int, r: State, d: int)
    requires |pos| == n && |side| == n && (d == 0 || d == 1)
    requires r.k == k + 1 && r.numOpen == |Opened(n, pos, k + 1)| && r.avail == Unclosed(n, pos, k + 1)
    requires r.Open(d) == OpenArcs(n, pos, side, d, k + 1)
    requires r.Open(1 - d) == OpenArcs(n, pos, side, 1 - d, k + 1)
    requires r.pos == Written(n, pos, k + 1)
    ensures r == Replay(n, pos, side, k + 1)
  {
    if d == 0 {
      assert r.open0 == OpenArcs(n, pos, side, 0, k + 1);
    } else {
      assert r.open0 == OpenArcs(n, pos, side, 0, k + 1);
    }
  }

  /** Closing `m` at its closing position `k` leads from the replayed node
      to the next one. */
  lemma {:induction false} ReplayClose(n: int, s: seq<int>, pos: seq<int>, side: seq<int>, k: int, m: int)
    requires Slotted(n, s, pos) && Drawing(n, pos, side) && pos[0] <= n
    requires 0 <= m < n && k == pos[m]
    ensures Shape(n, Replay(n, pos, side, k))
    ensures var dec := Decision(k, m, side[m], |Opened(n, pos, k)|);
            Legal(n, Replay(n, pos, side, k), dec) &&
            Place(n, Replay(n, pos, side, k), dec) == Replay(n, pos, side, k + 1)
  {
    OnlySlot(n, pos, m, k);
    ReplayShape(n, s, pos, side, k);
    ReplayCloseLegal(n, s, pos, side, k, m);
    ClosePlaced(n, pos, side, k, m);
  }

  lemma {:induction false} ClosePlaced(n: int, pos: seq<int>, side: seq<int>, k: int, m: int)
    requires |pos| == n && |side| == n && 0 <= m < n && pos[m] == k && (side[m] == 0 || side[m] == 1)
    requires forall a :: 0 <= a < n && a != m ==> pos[a] != k && Opening(pos, a) != k
    requires forall a :: 0 <= a < n && a != m ==> Opening(pos, a) != Opening(pos, m)
    requires Opening(pos, m) < pos[m]
    requires Shape(n, Replay(n, pos, side, k)) && k < 2 * n
    requires Legal(n, Replay(n, pos, side, k), Decision(k, m, side[m], |Opened(n, pos, k)|))
    ensures Place(n, Replay(n, pos, side, k), Decision(k, m, side[m], |Opened(n, pos, k)|)) ==
            Replay(n, pos, side, k + 1)
  {
    var st := Replay(n, pos, side, k);
    var dec := Decision(k, m, side[m], |Opened(n, pos, k)|);
    PlaceClose(n, st, dec);
    CloseSets(n, pos, side, k, m);
    var r := Place(n, st, dec);
    var d, x := side[m], Mirror(n, Opening(pos, m));
    ReplayWords(n, pos, side, k, d);
    assert Mirror(n, st.k - dec.m - 2) == x;
    assert r.Open(d) == st.Open(d) - {x};
    assert r.Open(d) == OpenArcs(n, pos, side, d, k) - {x};
    SameReplay(n, pos, side, k, r, d);
  }

  /** Opening `m` at its opening position `k` leads from the replayed node
      to the next one. */
  lemma {:induction false} ReplayOpen(n: int, s: seq<int>, pos: seq<int>, side: seq<int>, k: int, m: int)
    requires Slotted(n, s, pos) && Drawing(n, pos, side)
    requires 0 <= m < n && k == Opening(pos, m)
    ensures Shape(n, Replay(n, pos, side, k))
    ensures var dec := Decision(k, -1, side[m], |Opened(n, pos, k)|);
            Legal(n, Replay(n, pos, side, k), dec) &&
            Place(n, Replay(n, pos, side, k), dec) == Replay(n, pos, side, k + 1)
  {
    OnlySlot(n, pos, m, k);
    ReplayShape(n, s, pos, side, k);
    ReplayOpenLegal(n, s, pos, side, k, m);
    OpenPlaced(n, pos, side, k, m);
  }

  lemma {:induction false} OpenPlaced(n: int, pos: seq<int>, side: seq<int>, k: int, m: int)
    requires |pos| == n && |side| == n && 0 <= m < n && Opening(pos, m) == k && (side[m] == 0 || side[m] == 1)
    requires forall a :: 0 <= a < n && a != m ==> pos[a] != k && Opening(pos, a) != k
    requires Opening(pos, m) < pos[m]
    requires Shape(n, Replay(n, pos, side, k)) && k < 2 * n
    requires Legal(n, Replay(n, pos, side, k), Decision(k, -1, side[m], |Opened(n, pos, k)|))
    ensures Place(n, Replay(n, pos, side, k), Decision(k, -1, side[m], |Opened(n, pos, k)|)) ==
            Replay(n, pos, side, k + 1)
  {
    var st := Replay(n, pos, side, k);
    var dec := Decision(k, -1, side[m], |Opened(n, pos, k)|);
    PlaceOpen(n, st, dec);
    OpenSets(n, pos, side, k, m);
    var r := Place(n, st, dec);
    var d := side[m];
    ReplayWords(n, pos, side, k, d);
    assert r.Open(d) == OpenArcs(n, pos, side, d, k) + {Mirror(n, k)};
    SameReplay(n, pos, side, k, r, d);
  }

  /** The move the pairing takes at position `k` is a legal decision of
      the replayed node, and it leads to the replayed node one position
      further. */
  lemma {:induction false} ReplayStep(n: int, s: seq<int>, pos: seq<int>, side: seq<int>, k: int)
    requires Slotted(n, s, pos) && Drawing(n, pos, side) && pos[0] <= n && 0 <= k < 2 * n
    ensures Shape(n, Replay(n, pos, side, k))
    ensures Legal(n, Replay(n, pos, side, k), Move(n, s, pos, side, k))
    ensures Place(n, Replay(n, pos, side, k), Move(n, s, pos, side, k)) == Replay(n, pos, side, k + 1)
  {
    var m := s[k] - 1;
    if k == pos[m] {
      ReplayClose(n, s, pos, side, k, m);
    } else {
      ReplayOpen(n, s, pos, side, k, m);
    }
  }

  /** A vector recorded below one of the decisions `ds` is recorded below
      all of them. */
  lemma {:induction false} ExploreAllHas(n: int, share: Share, s: State, ds: seq<Decision>, dec: Decision, p: seq<int>)
    requires Shape(n, s) && s.k < 2 * n && AllLegal(n, s, ds) && Legal(n, s, dec) && dec in ds
    requires p in ExploreChild(n, share, s, dec)
    ensures p in ExploreAll(n, share, s, ds)
    decreases |ds|
  {
    var pre := ds[..|ds| - 1];
    if dec != ds[|ds| - 1] {
      var i :| 0 <= i < |ds| && ds[i] == dec;
      assert pre[i] == dec;
      ExploreAllHas(n, share, s, pre, dec, p);
    }
  }

  /** Decision `ms[j]` is legal at node `ns[j]` and leads to `ns[j + 1]`. */
  ghost predicate Stepped(n: int, ns: seq<State>, ms: seq<Decision>, j: int)
    requires 0 <= j < |ms| && |ns| == |ms| + 1
  {
    Shape(n, ns[j]) && ns[j].k < 2 * n && Legal(n, ns[j], ms[j]) &&
    Shape(n, ns[j + 1]) && Place(n, ns[j], ms[j]) == ns[j + 1]
  }

  /** Along a path of legal decisions from `ns[k]` to the leaf `ns[2n]`,
      the undivided search records the leaf's `pos` below `ns[k]`. */
  lemma {:induction false} PathReaches(n: int, ns: seq<State>, ms: seq<Decision>, k: int)
    requires |ms| == 2 * n && |ns| == 2 * n + 1 && 0 <= k <= 2 * n
    requires Shape(n, ns[k]) && Shape(n, ns[2 * n]) && ns[2 * n].k == 2 * n
    requires forall j :: k <= j < 2 * n ==> Stepped(n, ns, ms, j)
    ensures ns[2 * n].pos in Explore(n, Everything, ns[k])
    decreases 2 * n - k
  {
    if k < 2 * n {
      assert Stepped(n, ns, ms, k);
      PathReaches(n, ns, ms, k + 1);
      Reached(n, ns[k], ms[k], ns[2 * n].pos);
    }
  }

  /** What the undivided search records below a legal child of `s` it
      also records below `s`. */
  lemma {:induction false} Reached(n: int, s: State, dec: Decision, p: seq<int>)
    requires Shape(n, s) && s.k < 2 * n && Legal(n, s, dec)
    requires p in ExploreChild(n, Everything, s, dec)
    ensures p in Explore(n, Everything, s)
  {
    OpenWords(n, s);
    ChildrenAreLegal(n, s, dec);
    ChildrenAllLegal(n, s);
    ExploreAllHas(n, Everything, s, Children(n, s), dec, p);
  }

  /** Before any position is decided the replayed node is the start node,
      and the first move is the root decision when the arc at position 0
      is drawn on side 0. */
  lemma {:induction false} ReplayRoot(n: int, s: seq<int>, pos: seq<int>, side: seq<int>)
    requires Slotted(n, s, pos) && Drawing(n, pos, side) && side[s[0] - 1] == 0
    ensures Replay(n, pos, side, 0) == Start(n)
    ensures Move(n, s, pos, side, 0) == RootDecision
  {
    assert Opened(n, pos, 0) == {};
    assert Unclosed(n, pos, 0) == LowBits(n);
    assert OpenArcs(n, pos, side, 0, 0) == {} && OpenArcs(n, pos, side, 1, 0) == {};
    assert Written(n, pos, 0) == seq(n, _ => -1);
    OnlySlot(n, pos, s[0] - 1, 0);
  }

  /** Swapping the two sides of every arc keeps a drawing free of
      crossings. */
  lemma {:induction false} FlipDrawing(n: int, pos: seq<int>, side: seq<int>)
    requires |pos| == n && Drawing(n, pos, side)
    ensures Drawing(n, pos, seq(n, m requires 0 <= m < n => 1 - side[m]))
  {
    var flip := seq(n, m requires 0 <= m < n => 1 - side[m]);
    forall a, b | 0 <= a < n && 0 <= b < n && flip[a] == flip[b]
      ensures !Crosses(pos, a, b)
    {
      assert side[a] == side[b];
    }
  }

  /** A Langford pairing with its closing positions meets `Slotted`. */
  lemma {:induction false} LangfordSlotted(n: int, s: seq<int>)
    requires ValidOrder(n) && IsLangford(n, s)
    ensures Slotted(n, s, ClosingPositions(n, s))
  {
    PositionsValid(n, s);
    forall i | 0 <= i < 2 * n
      ensures var pos := ClosingPositions(n, s);
              i == pos[s[i] - 1] || i == Opening(pos, s[i] - 1)
    {
      SlotOfValue(n, s, i);
    }
  }

  /** Every planar Langford pairing whose ones close at position `n` or
      before is recorded by the undivided search. */
  lemma {:induction false} DfsComplete(n: int, s: seq<int>)
    requires Counted(n, s)
    ensures ClosingPositions(n, s) in Dfs(n, Everything)
  {
    var pos := ClosingPositions(n, s);
    var side :| Drawing(n, pos, side);
    LangfordSlotted(n, s);
    var upright := FirstOnZero(n, s, pos, side);
    ReplayFromRoot(n, s, pos, upright);
  }

  /** Any drawing can be turned, by swapping sides if need be, into one
      whose arc at position 0 is on side 0. */
  lemma {:induction false} FirstOnZero(n: int, s: seq<int>, pos: seq<int>, side: seq<int>)
    returns (upright: seq<int>)
    requires Slotted(n, s, pos) && Drawing(n, pos, side)
    ensures Drawing(n, pos, upright) && upright[s[0] - 1] == 0
  {
    if side[s[0] - 1] == 0 {
      upright := side;
    } else {
      FlipDrawing(n, pos, side);
      upright := seq(n, m requires 0 <= m < n => 1 - side[m]);
    }
  }

  /** A legal step from `a` to `b` by `d`, listed at index `j`. */
  lemma {:induction false} StepAt(n: int, ns: seq<State>, ms: seq<Decision>, j: int,
                                  a: State, d: Decision, b: State)
    requires 0 <= j < |ms| && |ns| == |ms| + 1
    requires ns[j] == a && ms[j] == d && ns[j + 1] == b
    requires Shape(n, a) && a.k < 2 * n && Legal(n, a, d) && Shape(n, b) && Place(n, a, d) == b
    ensures Stepped(n, ns, ms, j)
  {
  }

  /** The nodes the replay passes through, position by position. */
  ghost function Replays(n: int, pos: seq<int>, side: seq<int>): (ns: seq<State>)
    requires |pos| == n && |side| == n
    ensures |ns| == 2 * n + 1
    ensures forall k :: 0 <= k <= 2 * n ==> ns[k] == Replay(n, pos, side, k)
  {
    seq(2 * n + 1, k => Replay(n, pos, side, k))
  }

  /** The decisions the replay takes, position by position. */
  ghost function Moves(n: int, s: seq<int>, pos: seq<int>, side: seq<int>): (ms: seq<Decision>)
    requires Slotted(n, s, pos) && |side| == n
    ensures |ms| == 2 * n
    ensures forall k :: 0 <= k < 2 * n ==> ms[k] == Move(n, s, pos, side, k)
  {
    seq(2 * n, k requires 0 <= k < 2 * n => Move(n, s, pos, side, k))
  }

  /** Every move of the replay is a legal step to the next replayed node. */
  lemma {:induction false} ReplaySteps(n: int, s: seq<int>, pos: seq<int>, side: seq<int>)
    requires Slotted(n, s, pos) && Drawing(n, pos, side) && pos[0] <= n
    ensures forall j :: 0 <= j < 2 * n ==> Stepped(n, Replays(n, pos, side), Moves(n, s, pos, side), j)
  {
    var ns, ms := Replays(n, pos, side), Moves(n, s, pos, side);
    forall j | 0 <= j < 2 * n
      ensures Stepped(n, ns, ms, j)
    {
      ReplayStep(n, s, pos, side, j);
      ReplayShape(n, s, pos, side, j + 1);
      StepAt(n, ns, ms, j, Replay(n, pos, side, j), Move(n, s, pos, side, j), Replay(n, pos, side, j + 1));
    }
  }

  /** A pairing drawn with the arc at position 0 on side 0 is replayed
      from the root decision. */
  lemma {:induction false} ReplayFromRoot(n: int, s: seq<int>, pos: seq<int>, side: seq<int>)
    requires Slotted(n, s, pos) && Drawing(n, pos, side) && pos[0] <= n && side[s[0] - 1] == 0
    ensures pos in Dfs(n, Everything)
  {
    var ns, ms := Replays(n, pos, side), Moves(n, s, pos, side);
    ReplaySteps(n, s, pos, side);
    ReplayShape(n, s, pos, side, 2 * n);
    assert Written(n, pos, 2 * n) == pos;
    ReplayRoot(n, s, pos, side);
    assert Stepped(n, ns, ms, 0);
    PathReaches(n, ns, ms, 1);
    DfsFromRoot(n, Everything);
  }
}

=== FILE: search.dfy ===
/** The depth-first search `dfs<n>` as a recursive function over nodes.

    The source drives the search with an explicit stack of decisions; here
    a node's subtree is explored by applying each of its children in the
    order the stack pops them, the last pushed first. The sequence returned
    lists the recorded `pos` values in the order the search records them. */
module Search {
  import opened Words
  import opened Langford
  import opened SearchState
  import opened Partition

  /** The positions recorded in the subtree of node `s` (after its decision
      has been applied). */
  function Explore(n: int, share: Share, s: State): seq<seq<int>>
    requires Shape(n, s)
    decreases 2 * n - s.k, 1, 0
  {
    if s.k == 2 * n then
      [s.pos]
    else if Skip(n, share, s) then
      []
    else
      OpenWords(n, s);
      ChildrenAllLegal(n, s);
      ExploreAll(n, share, s, Children(n, s))
  }

  /** The positions recorded below node `s` for the decisions `ds`, popped
      from the end. */
  function ExploreAll(n: int, share: Share, s: State, ds: seq<Decision>): seq<seq<int>>
    requires Shape(n, s) && s.k < 2 * n
    requires AllLegal(n, s, ds)
    decreases 2 * n - s.k, 0, |ds|
  {
    if ds == [] then
      []
    else
      ExploreChild(n, share, s, ds[|ds| - 1]) + ExploreAll(n, share, s, ds[..|ds| - 1])
  }

  /** The positions recorded below the child of `s` reached by `dec`. */
  function ExploreChild(n: int, share: Share, s: State, dec: Decision): seq<seq<int>>
    requires Shape(n, s) && s.k < 2 * n && Legal(n, s, dec)
    decreases 2 * n - s.k, 0, 0
  {
    PlaceKeepsShape(n, s, dec);
    Explore(n, share, Place(n, s, dec))
  }

  /** The search run from its single root decision. */
  function Dfs(n: int, share: Share): seq<seq<int>>
    requires ValidOrder(n)
  {
    RootFacts(n);
    ExploreAll(n, share, Start(n), [RootDecision])
  }

  /** The node after the root decision. */
  function RootState(n: int): State
    requires ValidOrder(n)
  {
    Place(n, Start(n), RootDecision)
  }

  lemma {:induction false} RootStateInv(n: int)
    requires ValidOrder(n)
    ensures Inv(n, RootState(n)) && RootState(n).k == 1
  {
    RootFacts(n);
    PlaceKeepsInv(n, Start(n), RootDecision);
  }

  lemma {:induction false} DfsFromRoot(n: int, share: Share)
    requires ValidOrder(n)
    ensures RootState(n).k == 1
    ensures Inv(n, RootState(n)) && Dfs(n, share) == Explore(n, share, RootState(n))
  {
    RootStateInv(n);
    var ds := [RootDecision];
    assert ds[..0] == [];
    assert ExploreAll(n, share, Start(n), ds) == ExploreChild(n, share, Start(n), RootDecision) + ExploreAll(n, share, Start(n), []);
  }
}

=== FILE: search_state.dfy ===
/** One node of the depth-first search of `dfs<n>` and the step from a node
    to its children.

    The search fills positions `0, 1, ..., 2n-1` from left to right.  At each
    position it either opens a pair, drawn as an arc above or below the line
    (orientation `d` in {0, 1}), or closes the most recent still-open arc of
    one orientation, which fixes the value of that pair by its length.  Arcs
    of one orientation therefore nest and never cross: the pairings found are
    the planar ones.

    A node holds the availability word (values not yet closed), one open word
    per orientation (an opening at position `p` is bit `2n - 1 - p`, so the
    least one-bit is the latest opening), the number of pairs opened so far and
    the closing positions `pos`. */
module SearchState {
  import opened Words
  import opened Langford

  /** The largest order for which the search is run. */
  const MaxN := 31

  predicate ValidOrder(n: int)
  {
    1 <= n <= MaxN
  }

  /** A record of the decision stack.  With `m >= 0` it closes, at position
      `k`, the latest opening of orientation `d` as the pair of value `m + 1`;
      with `m == -1` it opens a pair of orientation `d` at position `k`.
      `numOpen` is the number of pairs opened before position `k`. */
  datatype Decision = Decision(k: int, m: int, d: int, numOpen: int)

  /** The search state after positions `0..k-1` are decided. */
  datatype State = State(k: int, numOpen: int, avail: set<int>, open0: set<int>, open1: set<int>, pos: seq<int>)
  {
    /** The open word of orientation `d`. */
    function Open(d: int): set<int>
    {
      if d == 0 then open0 else open1
    }
  }

  /** The bit index of position `x` in an open word, and back again. */
  function Mirror(n: int, x: int): int
  {
    2 * n - 1 - x
  }

  /** The state before any decision: every value available, nothing open.
      The closing positions are not yet written; -1 stands for that. */
  function Start(n: int): State
    requires ValidOrder(n)
  {
    State(0, 0, LowBits(n), {}, {}, seq(n, _ => -1))
  }

  /** The only decision pushed before the loop: open a pair of orientation 0
      at position 0. */
  const RootDecision := Decision(0, -1, 0, 0)

  /** Applying a decision: the body of the search loop up to `++k`. */
  function Place(n: int, s: State, dec: Decision): State
    requires ValidOrder(n) && |s.pos| == n
    requires InWord(s.open0, 64) && InWord(s.open1, 64)
    requires 0 <= dec.k < 2 * n && -1 <= dec.m < n && (dec.d == 0 || dec.d == 1)
  {
    if dec.m >= 0 then
      var o := ClearLowest(s.Open(dec.d));
      State(dec.k + 1, dec.numOpen, Toggle(s.avail, dec.m),
            if dec.d == 0 then o else s.open0, if dec.d == 1 then o else s.open1,
            s.pos[dec.m := dec.k])
    else
      var o := s.Open(dec.d) + {Mirror(n, dec.k)};
      State(dec.k + 1, dec.numOpen + 1, s.avail,
            if dec.d == 0 then o else s.open0, if dec.d == 1 then o else s.open1,
            s.pos)
  }

  /** The close decision tried for orientation `d`, if any. */
  function CloseChild(n: int, s: State, d: int): seq<Decision>
    requires ValidOrder(n) && InWord(s.Open(d), 64)
  {
    if s.Open(d) != {} then
      var m := s.k - 2 * n - 2 + Ffs(s.Open(d));
      if 0 <= m < n && m in s.avail && (m != 0 || s.k <= n) then
        [Decision(s.k, m, d, s.numOpen)]
      else
        []
    else
      []
  }

  /** The decisions pushed for a node, in push order: the close of
      orientation 0, the close of orientation 1, then the opens of
      orientations 1 and 0. */
  function Children(n: int, s: State): seq<Decision>
    requires ValidOrder(n) && InWord(s.open0, 64) && InWord(s.open1, 64)
  {
    CloseChild(n, s, 0) + CloseChild(n, s, 1) +
    (if s.numOpen < n then [Decision(s.k, -1, 1, s.numOpen), Decision(s.k, -1, 0, s.numOpen)] else [])
  }

  // ---------------------------------------------------------------------
  // What a node means

  /** The values already closed. */
  function Closed(n: int, s: State): set<int>
  {
    LowBits(n) - s.avail
  }

  /** `p` is the latest opening still open in the open word `w`. */
  predicate IsLatest(n: int, w: set<int>, p: int)
  {
    Mirror(n, p) in w && forall b :: b in w ==> Mirror(n, b) <= p
  }

  /** The decisions the search may take at a node: open a pair while fewer
      than `n` are open, or close the latest opening of one orientation as
      the value its distance gives, if that value is still available.  Value
      1 closes no later than position `n`, which keeps one of every pair of
      mirror-image pairings. */
  predicate Legal(n: int, s: State, dec: Decision)
  {
    dec.k == s.k && dec.numOpen == s.numOpen && (dec.d == 0 || dec.d == 1) &&
    if dec.m == -1 then
      s.numOpen < n
    else
      0 <= dec.m < n && dec.m in s.avail && (dec.m != 0 || s.k <= n) &&
      IsLatest(n, s.Open(dec.d), s.k - dec.m - 2)
  }

  /** Every opening of `w` lies at a position before `k`. */
  predicate OpensBefore(n: int, w: set<int>, k: int)
  {
    forall b :: b in w ==> 0 <= Mirror(n, b) < k
  }

  /** Both slots of every closed value lie before `k`. */
  predicate ClosedBefore(n: int, s: State)
    requires |s.pos| == n
  {
    forall m :: 0 <= m < n && m !in s.avail ==> 0 <= Opening(s.pos, m) && s.pos[m] < s.k
  }

  /** No two closed values share a slot. */
  predicate ClosedApart(n: int, s: State)
    requires |s.pos| == n
  {
    PairsApart(n, s.avail, s.pos)
  }

  /** No two values outside `avail` share a slot in `pos`. */
  predicate PairsApart(n: int, avail: set<int>, pos: seq<int>)
    requires |pos| == n
  {
    forall a, b :: 0 <= a < n && 0 <= b < n && a != b && a !in avail && b !in avail ==>
      SlotsApart(pos, a, b)
  }

  /** No open position is a slot of a closed value. */
  ghost predicate OpensFree(n: int, s: State)
    requires |s.pos| == n
  {
    forall m, b :: 0 <= m < n && m !in s.avail && (b in s.open0 || b in s.open1) ==>
      Mirror(n, b) != s.pos[m] && Mirror(n, b) != Opening(s.pos, m)
  }

  /** The shape of a node: ranges of the counters and of the words. */
  predicate Shape(n: int, s: State)
  {
    ValidOrder(n) && 0 <= s.k <= 2 * n && |s.pos| == n && 0 <= s.numOpen <= n &&
    InWord(s.avail, n) &&
    OpensBefore(n, s.open0, s.k) && OpensBefore(n, s.open1, s.k) && s.open0 !! s.open1
  }

  /** Every position before `k` holds one opening or one closing, and every
      opened pair is either still open or closed. */
  predicate Counts(n: int, s: State)
  {
    s.k == s.numOpen + |Closed(n, s)| &&
    |s.open0| + |s.open1| + |Closed(n, s)| == s.numOpen
  }

  /** Where the closed values sit, and the rule for value 1. */
  ghost predicate Layout(n: int, s: State)
    requires ValidOrder(n) && |s.pos| == n
  {
    ClosedBefore(n, s) && ClosedApart(n, s) && OpensFree(n, s) &&
    (0 !in s.avail ==> s.pos[0] <= n)
  }

  /** The invariant of every node the search reaches. */
  ghost predicate Inv(n: int, s: State)
  {
    Shape(n, s) && Counts(n, s) && Layout(n, s)
  }

  // ---------------------------------------------------------------------
  // Reading the words

  /** The open words of a reachable node use bits `0..2n-1` only. */
  lemma {:induction false} OpenWords(n: int, s: State)
    requires Shape(n, s)
    ensures InWord(s.open0, 2 * n) && InWord(s.open1, 2 * n)
    ensures InWord(s.open0, 64) && InWord(s.open1, 64)
  {}

  /** `ffsll` of an open word locates its latest opening, and that opening
      is the only one with this property. */
  lemma {:induction false} FfsFindsLatest(n: int, w: set<int>)
    requires InWord(w, 64) && w != {}
    ensures IsLatest(n, w, Mirror(n, Ffs(w) - 1))
    ensures forall p :: IsLatest(n, w, p) ==> p == Mirror(n, Ffs(w) - 1)
  {}

  /** The close child of orientation `d` is exactly the legal close of that
      orientation. */
  lemma {:induction false} CloseChildIsLegal(n: int, s: State, d: int, dec: Decision)
    requires ValidOrder(n) && (d == 0 || d == 1) && InWord(s.Open(d), 64)
    ensures dec in CloseChild(n, s, d) <==> Legal(n, s, dec) && dec.m >= 0 && dec.d == d
  {
    if s.Open(d) != {} {
      FfsFindsLatest(n, s.Open(d));
    }
    if Legal(n, s, dec) && dec.m >= 0 && dec.d == d {
      assert dec.m == s.k - 2 * n - 2 + Ffs(s.Open(d));
    }
  }

  /** A child is exactly a legal decision. */
  lemma {:induction false} ChildrenAreLegal(n: int, s: State, dec: Decision)
    requires ValidOrder(n) && InWord(s.open0, 64) && InWord(s.open1, 64)
    ensures dec in Children(n, s) <==> Legal(n, s, dec)
  {
    CloseChildIsLegal(n, s, 0, dec);
    CloseChildIsLegal(n, s, 1, dec);
  }

  /** Every decision of `ds` is legal at `s`. */
  predicate AllLegal(n: int, s: State, ds: seq<Decision>)
    decreases |ds|
  {
    ds == [] || (Legal(n, s, ds[|ds| - 1]) && AllLegal(n, s, ds[..|ds| - 1]))
  }

  lemma {:induction false} AllLegalEach(n: int, s: State, ds: seq<Decision>)
    requires forall i :: 0 <= i < |ds| ==> Legal(n, s, ds[i])
    ensures AllLegal(n, s, ds)
    decreases |ds|
  {
    if ds != [] {
      var pre := ds[..|ds| - 1];
      assert forall i :: 0 <= i < |pre| ==> pre[i] == ds[i];
      AllLegalEach(n, s, pre);
    }
  }

  /** Every child of a node is legal there. */
  lemma {:induction false} ChildrenAllLegal(n: int, s: State)
    requires ValidOrder(n) && InWord(s.open0, 64) && InWord(s.open1, 64)
    ensures AllLegal(n, s, Children(n, s))
  {
    forall i | 0 <= i < |Children(n, s)|
      ensures Legal(n, s, Children(n, s)[i])
    {
      ChildrenAreLegal(n, s, Children(n, s)[i]);
    }
    AllLegalEach(n, s, Children(n, s));
  }

  // ---------------------------------------------------------------------
  // Applying a decision

  /** Closing value `m + 1` at position `k`: `pos[m]` becomes `k`, exactly
      `m` leaves the availability word, exactly the latest opening of
      orientation `d` leaves its word, and nothing else changes. */
  lemma {:induction false} PlaceClose(n: int, s: State, dec: Decision)
    requires Shape(n, s) && s.k < 2 * n && Legal(n, s, dec) && dec.m >= 0
    ensures var r := Place(n, s, dec);
            r.k == s.k + 1 && r.numOpen == s.numOpen &&
            r.pos == s.pos[dec.m := s.k] &&
            r.avail == s.avail - {dec.m} &&
            r.Open(dec.d) == s.Open(dec.d) - {Mirror(n, s.k - dec.m - 2)} &&
            r.Open(1 - dec.d) == s.Open(1 - dec.d)
  {
    FfsFindsLatest(n, s.Open(dec.d));
  }

  /** Opening a pair at position `k`: bit `2n-1-k`, which was clear in both
      open words, is set in the word of orientation `d`, one more pair is
      open, and nothing else changes. */
  lemma {:induction false} PlaceOpen(n: int, s: State, dec: Decision)
    requires Shape(n, s) && s.k < 2 * n && Legal(n, s, dec) && dec.m == -1
    ensures var r := Place(n, s, dec);
            r.k == s.k + 1 && r.numOpen == s.numOpen + 1 &&
            r.pos == s.pos && r.avail == s.avail &&
            Mirror(n, s.k) !in s.open0 && Mirror(n, s.k) !in s.open1 &&
            r.Open(dec.d) == s.Open(dec.d) + {Mirror(n, s.k)} &&
            r.Open(1 - dec.d) == s.Open(1 - dec.d)
  {}

  /** Every legal decision leads to a node of the same shape, one position
      further. */
  lemma {:induction false} PlaceKeepsShape(n: int, s: State, dec: Decision)
    requires Shape(n, s) && s.k < 2 * n && Legal(n, s, dec)
    ensures Shape(n, Place(n, s, dec)) && Place(n, s, dec).k == s.k + 1
  {
    if dec.m >= 0 {
      PlaceClose(n, s, dec);
    } else {
      PlaceOpen(n, s, dec);
    }
  }

  /** Every legal decision leads to a node that satisfies the invariant. */
  lemma {:induction false} PlaceKeepsInv(n: int, s: State, dec: Decision)
    requires Inv(n, s) && s.k < 2 * n && Legal(n, s, dec)
    ensures Inv(n, Place(n, s, dec))
  {
    if dec.m >= 0 {
      var r := Place(n, s, dec);
      PlaceKeepsShape(n, s, dec);
      CloseCounts(n, s, dec);
      CloseBefore(n, s, dec);
      CloseFree(n, s, dec);
      CloseFirst(n, s, dec);
      CloseApart(n, s, dec);
      InvOf(n, r);
    } else {
      PlaceOpen(n, s, dec);
      OpenCounts(n, s, dec);
      OpenLayout(n, s, dec);
    }
  }

  /** The invariant from its parts. */
  lemma {:induction false} InvOf(n: int, s: State)
    requires Shape(n, s) && Counts(n, s)
    requires ClosedBefore(n, s) && ClosedApart(n, s) && OpensFree(n, s)
    requires 0 !in s.avail ==> s.pos[0] <= n
    ensures Inv(n, s)
  {
  }

  lemma {:induction false} CloseCounts(n: int, s: State, dec: Decision)
    requires Shape(n, s) && Counts(n, s) && s.k < 2 * n && Legal(n, s, dec) && dec.m >= 0
    ensures Counts(n, Place(n, s, dec))
  {
    PlaceClose(n, s, dec);
    ClosesAnOpening(n, s, dec);
    CountsClose(n, s, Place(n, s, dec), dec.m, dec.d, Mirror(n, s.k - dec.m - 2));
  }

  /** Closing `m` and dropping one opening from the open words keeps the
      counts. */
  lemma {:induction false} CountsClose(n: int, s: State, r: State, m: int, d: int, x: int)
    requires Counts(n, s) && 0 <= m < n && m in s.avail && (d == 0 || d == 1)
    requires r.k == s.k + 1 && r.numOpen == s.numOpen && r.avail == s.avail - {m}
    requires x in s.Open(d) && r.Open(d) == s.Open(d) - {x} && r.Open(1 - d) == s.Open(1 - d)
    ensures Counts(n, r)
  {
    ClosedGrows(n, s, r, m);
    OpenShrinks(s, r, d, x);
  }

  lemma {:induction false} ClosedGrows(n: int, s: State, r: State, m: int)
    requires 0 <= m < n && m in s.avail && r.avail == s.avail - {m}
    ensures |Closed(n, r)| == |Closed(n, s)| + 1
  {
    assert Closed(n, r) == Closed(n, s) + {m};
    assert m !in Closed(n, s);
  }

  lemma {:induction false} OpenShrinks(s: State, r: State, d: int, x: int)
    requires (d == 0 || d == 1) && x in s.Open(d)
    requires r.Open(d) == s.Open(d) - {x} && r.Open(1 - d) == s.Open(1 - d)
    ensures |r.open0| + |r.open1| == |s.open0| + |s.open1| - 1
  {
    assert |r.Open(d)| == |s.Open(d)| - 1 by {
      assert s.Open(d) == r.Open(d) + {x};
    }
    if d == 0 {
      assert |r.open0| + |r.open1| == |s.open0| + |s.open1| - 1;
    } else {
      assert |r.open0| + |r.open1| == |s.open0| + |s.open1| - 1;
    }
  }

  lemma {:induction false} CloseBefore(n: int, s: State, dec: Decision)
    requires Shape(n, s) && ClosedBefore(n, s) && s.k < 2 * n && Legal(n, s, dec) && dec.m >= 0
    ensures ClosedBefore(n, Place(n, s, dec))
  {
    PlaceClose(n, s, dec);
  }

  lemma {:induction false} CloseFree(n: int, s: State, dec: Decision)
    requires Shape(n, s) && OpensFree(n, s) && s.k < 2 * n && Legal(n, s, dec) && dec.m >= 0
    ensures OpensFree(n, Place(n, s, dec))
  {
    PlaceClose(n, s, dec);
    ClosesAnOpening(n, s, dec);
    OpensFreeClose(n, s, Place(n, s, dec), dec.m, dec.d);
  }

  /** A legal close pairs with an opening of its orientation. */
  lemma {:induction false} ClosesAnOpening(n: int, s: State, dec: Decision)
    requires Legal(n, s, dec) && dec.m >= 0
    ensures Mirror(n, s.k - dec.m - 2) in s.Open(dec.d)
  {
  }

  /** Value 1 is closed no later than position `n`, and a closing of
      another value leaves its position alone. */
  lemma {:induction false} CloseFirst(n: int, s: State, dec: Decision)
    requires Shape(n, s) && s.k < 2 * n && Legal(n, s, dec) && dec.m >= 0
    requires 0 !in s.avail ==> s.pos[0] <= n
    ensures 0 !in Place(n, s, dec).avail ==> Place(n, s, dec).pos[0] <= n
  {
    PlaceClose(n, s, dec);
  }

  /** Closing `m` at position `k` keeps the open positions free when the
      opening it pairs with is no longer open. */
  lemma {:induction false} OpensFreeClose(n: int, s: State, r: State, m: int, d: int)
    requires |s.pos| == n && 0 <= m < n && OpensFree(n, s) && (d == 0 || d == 1) && s.open0 !! s.open1
    requires OpensBefore(n, s.open0, s.k) && OpensBefore(n, s.open1, s.k)
    requires r.pos == s.pos[m := s.k] && r.avail == s.avail - {m}
    requires Mirror(n, s.k - m - 2) in s.Open(d)
    requires r.Open(d) == s.Open(d) - {Mirror(n, s.k - m - 2)} && r.Open(1 - d) == s.Open(1 - d)
    ensures OpensFree(n, r)
  {
    if d == 0 {
      assert r.open0 + r.open1 == s.open0 + s.open1 - {Mirror(n, s.k - m - 2)};
    } else {
      assert r.open0 + r.open1 == s.open0 + s.open1 - {Mirror(n, s.k - m - 2)};
    }
    forall c, b | 0 <= c < n && c !in r.avail && (b in r.open0 || b in r.open1)
      ensures Mirror(n, b) != r.pos[c] && Mirror(n, b) != Opening(r.pos, c)
    {
      assert b in s.open0 + s.open1;
      if c != m {
        assert r.pos[c] == s.pos[c];
      }
    }
  }

  lemma {:induction false} CloseApart(n: int, s: State, dec: Decision)
    requires Shape(n, s) && ClosedBefore(n, s) && ClosedApart(n, s) && OpensFree(n, s)
    requires s.k < 2 * n && Legal(n, s, dec) && dec.m >= 0
    ensures ClosedApart(n, Place(n, s, dec))
  {
    PlaceClose(n, s, dec);
    NewSlotsApart(n, s, dec);
    ApartExtend(n, s.avail, s.pos, dec.m, s.k);
  }

  /** The slots of the value being closed are apart from those of every
      value closed before. */
  lemma {:induction false} NewSlotsApart(n: int, s: State, dec: Decision)
    requires Shape(n, s) && ClosedBefore(n, s) && OpensFree(n, s)
    requires s.k < 2 * n && Legal(n, s, dec) && dec.m >= 0
    ensures forall c :: 0 <= c < n && c != dec.m && c !in s.avail ==>
              SlotsApart(s.pos[dec.m := s.k], dec.m, c) && SlotsApart(s.pos[dec.m := s.k], c, dec.m)
  {
    var p := s.k - dec.m - 2;
    var b := Mirror(n, p);
    assert b in s.open0 || b in s.open1;
    assert Mirror(n, b) == p;
  }

  /** Adding a value whose slots are apart from all others keeps the closed
      values apart. */
  lemma {:induction false} ApartExtend(n: int, avail: set<int>, pos: seq<int>, m: int, k: int)
    requires |pos| == n && 0 <= m < n && PairsApart(n, avail, pos)
    requires forall c :: 0 <= c < n && c != m && c !in avail ==>
               SlotsApart(pos[m := k], m, c) && SlotsApart(pos[m := k], c, m)
    ensures PairsApart(n, avail - {m}, pos[m := k])
  {
    var pos' := pos[m := k];
    forall a, b | 0 <= a < n && 0 <= b < n && a != b && a !in avail - {m} && b !in avail - {m} &&
                  a != m && b != m
      ensures SlotsApart(pos', a, b)
    {
      assert SlotsApart(pos, a, b);
    }
  }

  lemma {:induction false} OpenCounts(n: int, s: State, dec: Decision)
    requires Shape(n, s) && Counts(n, s) && s.k < 2 * n && Legal(n, s, dec) && dec.m == -1
    ensures Counts(n, Place(n, s, dec))
  {
    PlaceOpen(n, s, dec);
    var r := Place(n, s, dec);
    assert Closed(n, r) == Closed(n, s);
    assert |r.Open(dec.d)| == |s.Open(dec.d)| + 1;
  }

  lemma {:induction false} OpenLayout(n: int, s: State, dec: Decision)
    requires Shape(n, s) && Layout(n, s) && s.k < 2 * n && Legal(n, s, dec) && dec.m == -1
    ensures Layout(n, Place(n, s, dec))
  {
    PlaceOpen(n, s, dec);
    var r := Place(n, s, dec);
    forall a, b | 0 <= a < n && 0 <= b < n && a != b && a !in r.avail && b !in r.avail
      ensures SlotsApart(r.pos, a, b)
    {
      assert SlotsApart(s.pos, a, b);
    }
  }

  // ---------------------------------------------------------------------
  // The counting invariants and the leaves

  /** The invariant's counts, phrased with the population count of the
      availability word: `n - popcount(avail)` values are closed. */
  lemma {:induction false} DepthCounts(n: int, s: State)
    requires Inv(n, s)
    ensures |Closed(n, s)| == n - |s.avail|
    ensures s.k == s.numOpen + (n - |s.avail|)
    ensures |s.open0| + |s.open1| == s.numOpen - (n - |s.avail|)
    ensures s.numOpen <= n
  {
    LowBitsCard(n);
    assert LowBits(n) == Closed(n, s) + s.avail;
    assert Closed(n, s) !! s.avail;
  }

  /** At `k == 2n` every value is closed, nothing is open, and `pos` is a
      valid encoding of a pairing whose value 1 closes no later than `n`. */
  lemma {:induction false} LeafComplete(n: int, s: State)
    requires Inv(n, s) && s.k == 2 * n
    ensures s.avail == {} && s.open0 == {} && s.open1 == {} && s.numOpen == n
    ensures ValidPositions(n, s.pos) && s.pos[0] <= n
  {
    DepthCounts(n, s);
    assert |s.avail| == 0;
    assert forall m :: 0 <= m < n ==> m !in s.avail;
    assert ValidPrefix(s.pos, n, 2 * n);
  }

  /** A leaf's `pos` reconstructs to a Langford pairing. */
  lemma {:induction false} LeafIsLangford(n: int, s: State)
    requires Inv(n, s) && s.k == 2 * n
    ensures Reconstruct(n, s.pos).Some?
    ensures IsLangford(n, Reconstruct(n, s.pos).value)
    ensures ClosingPositions(n, Reconstruct(n, s.pos).value) == s.pos
  {
    LeafComplete(n, s);
    PositionsDetermined(n, s.pos);
  }

  // ---------------------------------------------------------------------
  // The root

  /** Before the loop nothing is decided; of the two opens the search could
      take at position 0 it pushes only orientation 0, which keeps one of
      every pair of pairings that differ by swapping the two orientations. */
  lemma {:induction false} RootFacts(n: int)
    requires ValidOrder(n)
    ensures Inv(n, Start(n))
    ensures Children(n, Start(n)) == [Decision(0, -1, 1, 0), RootDecision]
    ensures Legal(n, Start(n), RootDecision)
    ensures var r := Place(n, Start(n), RootDecision);
            r.k == 1 && r.numOpen == 1 && r.avail == LowBits(n) &&
            r.open0 == {Mirror(n, 0)} && r.open1 == {}
  {
    RootInv(n);
    RootChildren(n);
    RootPlace(n);
  }

  lemma {:induction false} RootInv(n: int)
    requires ValidOrder(n)
    ensures Inv(n, Start(n))
  {
    assert Closed(n, Start(n)) == {};
  }

  lemma {:induction false} RootChildren(n: int)
    requires ValidOrder(n)
    ensures Children(n, Start(n)) == [Decision(0, -1, 1, 0), RootDecision]
  {
    assert Ffs({}) == 0;
  }

  lemma {:induction false} RootPlace(n: int)
    requires ValidOrder(n)
    ensures Legal(n, Start(n), RootDecision)
    ensures var r := Place(n, Start(n), RootDecision);
            r.k == 1 && r.numOpen == 1 && r.avail == LowBits(n) &&
            r.open0 == {Mirror(n, 0)} && r.open1 == {}
  {
  }

  // ---------------------------------------------------------------------
  // Machine words

  /** For `n <= 31` the availability word needs bits 0..30 of an `int32_t`
      and the open words bits 0..61 of an `int64_t`, so neither reaches a
      sign bit; positions, values, counts, the child offset `k - 2n - 2`
      and the close value `m = offset + ffs` fit an `int8_t`. */
  lemma {:induction false} FitsMachineWords(n: int, s: State)
    requires Inv(n, s)
    ensures InWord(s.avail, 31)
    ensures InWord(s.open0, 62) && InWord(s.open1, 62)
    ensures 0 <= s.k <= 62 && 0 <= s.numOpen <= 31
    ensures -128 <= s.k - 2 * n - 2 < 128
    ensures -128 <= s.k - 2 * n - 2 + Ffs(s.open0) < 128
    ensures -128 <= s.k - 2 * n - 2 + Ffs(s.open1) < 128
    ensures forall i :: 0 <= i < n && i !in s.avail ==> 0 <= s.pos[i] < 62
  {}
}

=== FILE: solver.dfy ===
/** `solve<n>`: the early return for orders without solutions, the threads'
    runs appended to one `results` vector, and the count of distinct vectors.

    The threads run one after another here; the order in which the source's
    detached threads append to `results` does not matter, since only the
    number of distinct vectors is returned. */
module Solver {
  import opened Langford
  import opened SearchState
  import opened Partition
  import opened Search
  import opened Soundness
  import opened WorkSplit
  import opened Counting
  import opened Planarity
  import opened DecisionStack

  /** The orders `solve` returns 0 for without searching. */
  predicate Excluded(n: int)
  {
    n <= 0 || n > MaxN || n % 4 == 1 || n % 4 == 2
  }

  /** The Langford pairings the undivided search records. */
  ghost function FoundPairings(n: int): set<seq<int>>
    requires ValidOrder(n)
  {
    DfsSound(n, Everything);
    set pos | pos in Dfs(n, Everything) :: PairingOf(n, pos)
  }

  /** Distinct recorded vectors stand for distinct pairings, so there are as
      many pairings found as distinct vectors recorded. */
  lemma {:induction false} FoundPairingsCount(n: int)
    requires ValidOrder(n)
    ensures AllRecordable(n, Dfs(n, Everything))
    ensures |FoundPairings(n)| == |Distinct(Dfs(n, Everything))|
    ensures forall s :: s in FoundPairings(n) ==> IsLangford(n, s)
  {
    DfsSound(n, Everything);
    var vs := Distinct(Dfs(n, Everything));
    assert forall pos :: pos in vs ==> Recordable(n, pos);
    ImageCard(n, vs);
    assert FoundPairings(n) == set pos | pos in vs :: PairingOf(n, pos);
  }

  /** Mapping a set of recordable vectors to their pairings keeps its
      size. */
  lemma {:induction false} ImageCard(n: int, vs: set<seq<int>>)
    requires forall pos :: pos in vs ==> Recordable(n, pos)
    ensures |set pos | pos in vs :: PairingOf(n, pos)| == |vs|
    decreases vs
  {
    if vs != {} {
      var v :| v in vs;
      var rest := vs - {v};
      ImageCard(n, rest);
      ImageSplit(n, vs, v);
    }
  }

  /** Taking one vector out of a set takes exactly its pairing out of the
      image. */
  lemma {:induction false} ImageSplit(n: int, vs: set<seq<int>>, v: seq<int>)
    requires forall pos :: pos in vs ==> Recordable(n, pos)
    requires v in vs
    ensures var img := set pos | pos in vs :: PairingOf(n, pos);
            var imgRest := set pos | pos in vs - {v} :: PairingOf(n, pos);
            img == imgRest + {PairingOf(n, v)} && PairingOf(n, v) !in imgRest
  {
    var rest := vs - {v};
    var imgRest := set pos | pos in rest :: PairingOf(n, pos);
    assert PairingOf(n, v) !in imgRest by {
      forall pos | pos in rest
        ensures PairingOf(n, pos) != PairingOf(n, v)
      {
        assert ClosingPositions(n, PairingOf(n, pos)) == pos;
      }
    }
  }

  /** The pairings found are exactly the planar Langford pairings whose
      ones close at position `n` or before: every recorded vector is one
      of them, and each of them is recorded. */
  lemma {:induction false} FoundPairingsExact(n: int)
    requires ValidOrder(n)
    ensures forall s :: s in FoundPairings(n) <==> Counted(n, s)
  {
    DfsSound(n, Everything);
    DfsDrawn(n, Everything);
    forall s | s in FoundPairings(n)
      ensures Counted(n, s)
    {
      var pos :| pos in Dfs(n, Everything) && s == PairingOf(n, pos);
      assert ClosingPositions(n, s) == pos;
    }
    forall s | Counted(n, s)
      ensures s in FoundPairings(n)
    {
      DfsComplete(n, s);
      var pos := ClosingPositions(n, s);
      RoundTrip(n, s);
      assert PairingOf(n, pos) == s;
    }
  }

  /** For the excluded orders the search finds nothing. */
  lemma {:induction false} ExcludedFindsNothing(n: int)
    requires ValidOrder(n) && Excluded(n)
    ensures |Distinct(Dfs(n, Everything))| == 0 == |FoundPairings(n)|
  {
    GuardLosesNothing(n, Everything);
    FoundPairingsCount(n);
    assert Distinct(Dfs(n, Everything)) == {};
  }

  /** The vectors all threads append are, without repetition, those the
      undivided search records. */
  lemma {:induction false} ThreadsDistinct(n: int, h: Hash, results: seq<seq<int>>)
    requires ValidOrder(n) && results == Threads(n, h, MaxThreads)
    ensures |Distinct(results)| == |Distinct(Dfs(n, Everything))| == |FoundPairings(n)|
  {
    ThreadsCover(n, h);
    SameMembersDistinct(results, Dfs(n, Everything));
    FoundPairingsCount(n);
  }

  /** The count `solve<n>` returns: zero for the excluded orders, and
      otherwise the number of distinct vectors recorded by the undivided
      search, which is the number of Langford pairings it finds. */
  method Solve(n: int, h: Hash) returns (count: int)
    ensures Excluded(n) ==> count == 0
    ensures ValidOrder(n) ==> count == |Distinct(Dfs(n, Everything))| == |FoundPairings(n)|
    ensures ValidOrder(n) ==> forall s :: s in FoundPairings(n) <==> Counted(n, s)
  {
    if n <= 0 || n > MaxN || n % 4 == 1 || n % 4 == 2 {
      if ValidOrder(n) {
        ExcludedFindsNothing(n);
        FoundPairingsExact(n);
      }
      return 0;
    }
    var results: seq<seq<int>> := [];
    var t := 0;
    while t < MaxThreads
      invariant 0 <= t <= MaxThreads
      invariant results == Threads(n, h, t)
    {
      assert Threads(n, h, t + 1) == results + Dfs(n, Slot(t, h));
      var found := DfsLoop(n, Slot(t, h), seq(n, _ => -1), seq(2 * n + 1, _ => 0),
                           seq(4 * n + 2, _ => 0), seq(24 * n, _ => 0 as Int8));
      results := results + found;
      t := t + 1;
    }
    ThreadsDistinct(n, h, results);
    FoundPairingsExact(n);
    var sorted;
    sorted, count := UniqueCount(results);
  }
}

=== FILE: soundness.dfy ===
/** What the search records: every `pos` it pushes into the results is the
    vector of closing positions of a Langford pairing, and of each pairing
    and its reversal at most one is recorded. */
module Soundness {
  import opened Langford
  import opened SearchState
  import opened Partition
  import opened Search

  /** `pos` is a vector of closing positions the search may record: a valid
      Langford layout in which the pair of ones closes in the first half. */
  predicate Recordable(n: int, pos: seq<int>)
  {
    ValidPositions(n, pos) && 1 <= n && pos[0] <= n
  }

  ghost predicate AllRecordable(n: int, rs: seq<seq<int>>)
  {
    forall i :: 0 <= i < |rs| ==> Recordable(n, rs[i])
  }

  lemma {:induction false} ExploreSound(n: int, share: Share, s: State)
    requires Inv(n, s)
    ensures AllRecordable(n, Explore(n, share, s))
    decreases 2 * n - s.k, 1, 0
  {
    if s.k == 2 * n {
      LeafComplete(n, s);
    } else if !Skip(n, share, s) {
      OpenWords(n, s);
      ChildrenAllLegal(n, s);
      ExploreAllSound(n, share, s, Children(n, s));
    }
  }

  lemma {:induction false} ExploreAllSound(n: int, share: Share, s: State, ds: seq<Decision>)
    requires Inv(n, s) && s.k < 2 * n
    requires AllLegal(n, s, ds)
    ensures AllRecordable(n, ExploreAll(n, share, s, ds))
    decreases 2 * n - s.k, 0, |ds|
  {
    if ds != [] {
      var a := ExploreChild(n, share, s, ds[|ds| - 1]);
      var b := ExploreAll(n, share, s, ds[..|ds| - 1]);
      ExploreChildSound(n, share, s, ds[|ds| - 1]);
      ExploreAllSound(n, share, s, ds[..|ds| - 1]);
      assert ExploreAll(n, share, s, ds) == a + b;
      RecordableConcat(n, a, b);
    }
  }

  lemma {:induction false} RecordableConcat(n: int, a: seq<seq<int>>, b: seq<seq<int>>)
    requires AllRecordable(n, a) && AllRecordable(n, b)
    ensures AllRecordable(n, a + b)
  {
    assert forall i :: 0 <= i < |a + b| ==> (a + b)[i] == if i < |a| then a[i] else b[i - |a|];
  }

  lemma {:induction false} ExploreChildSound(n: int, share: Share, s: State, dec: Decision)
    requires Inv(n, s) && s.k < 2 * n && Legal(n, s, dec)
    ensures AllRecordable(n, ExploreChild(n, share, s, dec))
    decreases 2 * n - s.k, 0, 0
  {
    PlaceKeepsInv(n, s, dec);
    ExploreSound(n, share, Place(n, s, dec));
  }

  /** Every recorded `pos` is the closing-position vector of a Langford
      pairing, which the reconstruction of `print` rebuilds and from which
      `pos` is read back. */
  lemma {:induction false} DfsSound(n: int, share: Share)
    requires ValidOrder(n)
    ensures AllRecordable(n, Dfs(n, share))
    ensures forall pos :: pos in Dfs(n, share) ==>
      Reconstruct(n, pos).Some? && IsLangford(n, Reconstruct(n, pos).value) &&
      ClosingPositions(n, Reconstruct(n, pos).value) == pos
  {
    DfsFromRoot(n, share);
    ExploreSound(n, share, RootState(n));
    forall pos | pos in Dfs(n, share)
      ensures Reconstruct(n, pos).Some? && IsLangford(n, Reconstruct(n, pos).value)
      ensures ClosingPositions(n, Reconstruct(n, pos).value) == pos
    {
      var i :| 0 <= i < |Dfs(n, share)| && Dfs(n, share)[i] == pos;
      assert Recordable(n, pos);
      PositionsDetermined(n, pos);
    }
  }

  /** The pairing a recorded `pos` stands for. */
  function PairingOf(n: int, pos: seq<int>): (s: seq<int>)
    requires Recordable(n, pos)
    ensures IsLangford(n, s) && ClosingPositions(n, s) == pos
  {
    PositionsDetermined(n, pos);
    Reconstruct(n, pos).value
  }

  /** Reversing twice gives the sequence back. */
  lemma {:induction false} ReverseReverse(s: seq<int>)
    ensures Reverse(Reverse(s)) == s
  {
    var r := Reverse(Reverse(s));
    assert forall i :: 0 <= i < |s| ==> r[i] == s[i];
  }

  /** The test `m || k <= n` keeps the search from recording a pairing
      together with its reversal: no recorded pairing is the reversal of a
      recorded one. */
  lemma {:induction false} NoReversalTwins(n: int, share: Share, p: seq<int>, q: seq<int>)
    requires ValidOrder(n) && p in Dfs(n, share) && q in Dfs(n, share)
    ensures AllRecordable(n, Dfs(n, share))
    ensures Reverse(PairingOf(n, p)) != PairingOf(n, q)
  {
    DfsSound(n, share);
    var i :| 0 <= i < |Dfs(n, share)| && Dfs(n, share)[i] == p;
    var j :| 0 <= j < |Dfs(n, share)| && Dfs(n, share)[j] == q;
    assert Recordable(n, p) && Recordable(n, q);
    var a := PairingOf(n, p);
    ReverseReverse(a);
    ReverseLangford(n, a);
    TwinsSplit(n, Reverse(a));
    assert ClosingPositions(n, a)[0] <= n;
  }

  /** Only orders with `n % 4` equal to 0 or 3 have recorded vectors. */
  lemma {:induction false} RecordedOrders(n: int, share: Share)
    requires ValidOrder(n)
    ensures Dfs(n, share) != [] ==> n % 4 == 0 || n % 4 == 3
  {
    DfsSound(n, share);
    if Dfs(n, share) != [] {
      var pos := Dfs(n, share)[0];
      LangfordOrders(n, Reconstruct(n, pos).value);
    }
  }

  /** For the orders with `n % 4` equal to 1 or 2 the search records
      nothing, so the early return of `solve` for them loses nothing. */
  lemma {:induction false} GuardLosesNothing(n: int, share: Share)
    requires ValidOrder(n) && (n % 4 == 1 || n % 4 == 2)
    ensures Dfs(n, share) == []
  {
    RecordedOrders(n, share);
  }
}

=== FILE: word_step.dfy ===
/** The loop body of `dfs<n>` on the machine words themselves.

    A `Node` holds the availability word and the two open words as the
    integers the source stores.  `PlaceNode` and `ChildrenNode` apply the
    source's expressions (`x & (x - 1)`, `x ^ (1 << m)`, `x | (nn1 >> k)`,
    `__builtin_ffsll`, `(avail >> m) & 1`, the `unsigned` comparison) to
    them.  The lemmas show that, read as sets of one-bits, they compute the
    step of `SearchState`, and that the whole search run on the words records
    exactly what the search on sets records. */
module WordStep {
  import Words
  import opened Bits
  import opened SearchState
  import opened Partition
  import opened Search

  /** A node as `dfs<n>` stores it. */
  datatype Node = Node(k: int, numOpen: int, avail: nat, open0: nat, open1: nat, pos: seq<int>)
  {
    /** `openings[d]` */
    function Open(d: int): nat
    {
      if d == 0 then open0 else open1
    }
  }

  /** Every word lies below its sign bit: the availability word in 31 bits,
      the open words in `2 * 31` bits. */
  predicate Fits(x: Node)
  {
    x.avail < Pow2(31) && x.open0 < Pow2(62) && x.open1 < Pow2(62)
  }

  /** The node with each word read as its set of one-bits: an `int32_t`
      and two `int64_t`. */
  function View(x: Node): State
  {
    State(x.k, x.numOpen, Word(x.avail, 32), Word(x.open0, 64), Word(x.open1, 64), x.pos)
  }

  /** The order is one the search runs, the words fit, and the position
      lies inside the search. */
  predicate Sized(n: int, x: Node)
  {
    ValidOrder(n) && Fits(x) && 0 <= x.k <= 2 * n
  }

  /** The words of a node the search may reach. */
  predicate NodeShape(n: int, x: Node)
  {
    Fits(x) && Shape(n, View(x))
  }

  /** `availability[0] = msb | (msb - 1)`, `open[0] = open[1] = 0`. */
  function StartNode(n: int): Node
    requires ValidOrder(n)
  {
    Node(0, 0, Or(Pow2(n - 1), Mask(n - 1)), 0, 0, seq(n, _ => -1))
  }

  /** `place_macro(d)` on the popped decision, then `++k`. */
  function PlaceNode(n: int, x: Node, dec: Decision): Node
    requires ValidOrder(n) && |x.pos| == n
    requires 0 <= dec.k < 2 * n && -1 <= dec.m < n && (dec.d == 0 || dec.d == 1)
  {
    if dec.m >= 0 then
      var o := And(x.Open(dec.d), Minus1(x.Open(dec.d)));
      Node(dec.k + 1, dec.numOpen, Xor(x.avail, Pow2(dec.m)),
           if dec.d == 0 then o else x.open0, if dec.d == 1 then o else x.open1,
           x.pos[dec.m := dec.k])
    else
      var o := Or(x.Open(dec.d), Shr(Pow2(2 * n - 1), dec.k));
      Node(dec.k + 1, dec.numOpen + 1, x.avail,
           if dec.d == 0 then o else x.open0, if dec.d == 1 then o else x.open1,
           x.pos)
  }

  /** `(unsigned)m` for an `int8_t` value `m`: a negative value wraps to
      `m + 2^32`, above every order. */
  function AsUnsigned(m: int): (u: int)
    requires m >= -128
    ensures u >= 0
    ensures m >= 0 ==> u == m
    ensures m < 0 ==> u > MaxN
  {
    if m < 0 then m + 0x1_0000_0000 else m
  }

  /** The close decision pushed for orientation `d`, if any: the body of
      the `for (d = 0; d < 2; ++d)` loop. */
  function CloseChildNode(n: int, x: Node, d: int): seq<Decision>
    requires Sized(n, x)
  {
    if x.Open(d) != 0 then
      var m := x.k - 2 * n - 2 + Ffs(x.Open(d));
      if CloseTest(n, x.k, x.avail, m) then [Decision(x.k, m, d, x.numOpen)] else []
    else
      []
  }

  /** `((unsigned)m < n) && ((avail >> m) & 1)`, then `m || k <= n`: the
      value `m + 1` is in range and available, and the value 1 closes only
      up to position `n`. */
  predicate CloseTest(n: int, k: int, avail: nat, m: int)
    requires ValidOrder(n) && m >= -128
  {
    AsUnsigned(m) < n && And(Shr(avail, m), 1) == 1 && (m != 0 || k <= n)
  }

  /** The close test on the words is the test on their sets. */
  lemma {:induction false} CloseTestSets(n: int, k: int, avail: nat, m: int)
    requires ValidOrder(n) && m >= -128
    ensures CloseTest(n, k, avail, m) <==> 0 <= m < n && m in Word(avail, 32) && (m != 0 || k <= n)
  {
    if 0 <= m < n {
      TestOfWord(avail, m, 32);
    }
  }

  /** The decisions pushed for a node, in push order. */
  function ChildrenNode(n: int, x: Node): seq<Decision>
    requires Sized(n, x)
  {
    CloseChildNode(n, x, 0) + CloseChildNode(n, x, 1) +
    (if x.numOpen < n then [Decision(x.k, -1, 1, x.numOpen), Decision(x.k, -1, 0, x.numOpen)] else [])
  }

  // ---------------------------------------------------------------------
  // The words compute the step on sets

  /** The words before the loop are the start node. */
  lemma {:induction false} StartRefines(n: int)
    requires ValidOrder(n)
    ensures NodeShape(n, StartNode(n)) && View(StartNode(n)) == Start(n)
  {
    StartView(n);
    RootFacts(n);
  }

  lemma {:induction false} StartView(n: int)
    requires ValidOrder(n)
    ensures Fits(StartNode(n)) && View(StartNode(n)) == Start(n)
  {
    LowBitsOfWord(n);
    NoBitsInZero();
    assert Word(0, 64) == {};
  }

  /** `place_macro` on the words computes `Place` on their sets, and keeps
      every word below its sign bit. */
  lemma {:induction false} PlaceRefines(n: int, x: Node, dec: Decision)
    requires NodeShape(n, x) && x.k < 2 * n && Legal(n, View(x), dec)
    ensures NodeShape(n, PlaceNode(n, x, dec))
    ensures View(PlaceNode(n, x, dec)) == Place(n, View(x), dec)
  {
    PlaceKeepsShape(n, View(x), dec);
    if dec.m >= 0 {
      PlaceCloseView(n, x, dec);
      PlaceCloseFits(n, x, dec);
    } else {
      PlaceOpenView(n, x, dec);
    }
  }

  lemma {:induction false} PlaceCloseView(n: int, x: Node, dec: Decision)
    requires ValidOrder(n) && Fits(x) && |x.pos| == n
    requires 0 <= dec.k < 2 * n && 0 <= dec.m < n && (dec.d == 0 || dec.d == 1)
    ensures Words.InWord(View(x).open0, 64) && Words.InWord(View(x).open1, 64)
    ensures View(PlaceNode(n, x, dec)) == Place(n, View(x), dec)
  {
    var d := dec.d;
    CloseSets(x, d, dec.m);
    var y := PlaceNode(n, x, dec);
    NodeCloseFields(n, x, dec);
    ViewOpen(x, d);
    ViewOpen(x, 1 - d);
    ViewOpen(y, d);
    ViewOpen(y, 1 - d);
    StateCloseFields(n, View(x), dec);
    SameState(View(y), Place(n, View(x), dec), d);
  }

  /** A close keeps every word below its sign bit. */
  lemma {:induction false} PlaceCloseFits(n: int, x: Node, dec: Decision)
    requires ValidOrder(n) && Fits(x) && |x.pos| == n
    requires 0 <= dec.k < 2 * n && 0 <= dec.m < n && (dec.d == 0 || dec.d == 1)
    ensures Fits(PlaceNode(n, x, dec))
  {
    NodeCloseFields(n, x, dec);
    ClosedFits(x, PlaceNode(n, x, dec), dec.d, dec.m);
  }

  /** A node whose words are those a close writes fits. */
  lemma {:induction false} ClosedFits(x: Node, y: Node, d: int, m: int)
    requires Fits(x) && 0 <= m < 31 && (d == 0 || d == 1)
    requires y.avail == Xor(x.avail, Pow2(m))
    requires y.Open(d) == And(x.Open(d), Minus1(x.Open(d))) && y.Open(1 - d) == x.Open(1 - d)
    ensures Fits(y)
  {
    OpenBound(x, 1 - d);
    CloseBounds(x, d, m);
    FitsByOpen(y, d);
  }

  lemma {:induction false} OpenBound(x: Node, d: int)
    requires Fits(x) && (d == 0 || d == 1)
    ensures x.Open(d) < Pow2(62)
  {}

  /** A node fits once its words, read through orientation `d`, do. */
  lemma {:induction false} FitsByOpen(x: Node, d: int)
    requires d == 0 || d == 1
    requires x.avail < Pow2(31) && x.Open(d) < Pow2(62) && x.Open(1 - d) < Pow2(62)
    ensures Fits(x)
  {}

  /** The words a close writes, as sets. */
  lemma {:induction false} CloseSets(x: Node, d: int, m: int)
    requires Fits(x) && 0 <= m < 31 && (d == 0 || d == 1)
    ensures Word(Xor(x.avail, Pow2(m)), 32) == Words.Toggle(Word(x.avail, 32), m)
    ensures Words.InWord(Word(x.Open(d), 64), 64)
    ensures Word(And(x.Open(d), Minus1(x.Open(d))), 64) == Words.ClearLowest(Word(x.Open(d), 64))
  {
    ClearLowestOfWord(x.Open(d), 62);
    ToggleOfWord(x.avail, m, 31);
    WordWiden(x.avail, 31, 32);
    WordWiden(Xor(x.avail, Pow2(m)), 31, 32);
  }

  /** The words a close writes stay below their sign bits. */
  lemma {:induction false} CloseBounds(x: Node, d: int, m: int)
    requires Fits(x) && 0 <= m < 31 && (d == 0 || d == 1)
    ensures Xor(x.avail, Pow2(m)) < Pow2(31)
    ensures And(x.Open(d), Minus1(x.Open(d))) < Pow2(62)
  {
    CloseWords(x, d, m);
  }

  lemma {:induction false} NodeCloseFields(n: int, x: Node, dec: Decision)
    requires ValidOrder(n) && |x.pos| == n
    requires 0 <= dec.k < 2 * n && 0 <= dec.m < n && (dec.d == 0 || dec.d == 1)
    ensures var y := PlaceNode(n, x, dec);
            y.k == dec.k + 1 && y.numOpen == dec.numOpen && y.pos == x.pos[dec.m := dec.k] &&
            y.avail == Xor(x.avail, Pow2(dec.m)) &&
            y.Open(dec.d) == And(x.Open(dec.d), Minus1(x.Open(dec.d))) &&
            y.Open(1 - dec.d) == x.Open(1 - dec.d)
  {}

  lemma {:induction false} StateCloseFields(n: int, s: State, dec: Decision)
    requires ValidOrder(n) && |s.pos| == n && Words.InWord(s.open0, 64) && Words.InWord(s.open1, 64)
    requires 0 <= dec.k < 2 * n && 0 <= dec.m < n && (dec.d == 0 || dec.d == 1)
    ensures var r := Place(n, s, dec);
            r.k == dec.k + 1 && r.numOpen == dec.numOpen && r.pos == s.pos[dec.m := dec.k] &&
            r.avail == Words.Toggle(s.avail, dec.m) &&
            r.Open(dec.d) == Words.ClearLowest(s.Open(dec.d)) &&
            r.Open(1 - dec.d) == s.Open(1 - dec.d)
  {}

  /** A node's open word of orientation `d`, read as a set. */
  lemma {:induction false} ViewOpen(x: Node, d: int)
    ensures View(x).Open(d) == Word(x.Open(d), 64)
  {}

  lemma {:induction false} PlaceOpenView(n: int, x: Node, dec: Decision)
    requires ValidOrder(n) && Fits(x) && |x.pos| == n
    requires 0 <= dec.k < 2 * n && dec.m == -1 && (dec.d == 0 || dec.d == 1)
    ensures Words.InWord(View(x).open0, 64) && Words.InWord(View(x).open1, 64)
    ensures Fits(PlaceNode(n, x, dec))
    ensures View(PlaceNode(n, x, dec)) == Place(n, View(x), dec)
  {
    NodeOpenFields(n, x, dec);
    OpenedView(n, x, PlaceNode(n, x, dec), dec);
  }

  /** A node whose fields are those an open writes fits, and reads as the
      open on sets. */
  lemma {:induction false} OpenedView(n: int, x: Node, y: Node, dec: Decision)
    requires ValidOrder(n) && Fits(x) && |x.pos| == n
    requires 0 <= dec.k < 2 * n && dec.m == -1 && (dec.d == 0 || dec.d == 1)
    requires y.k == dec.k + 1 && y.numOpen == dec.numOpen + 1 && y.pos == x.pos && y.avail == x.avail
    requires y.Open(dec.d) == Or(x.Open(dec.d), Shr(Pow2(2 * n - 1), dec.k))
    requires y.Open(1 - dec.d) == x.Open(1 - dec.d)
    ensures Words.InWord(View(x).open0, 64) && Words.InWord(View(x).open1, 64)
    ensures Fits(y) && View(y) == Place(n, View(x), dec)
  {
    var d := dec.d;
    OpenedFits(n, x, y, dec);
    OpenedSets(n, x, y, dec);
    StateOpenFields(n, View(x), dec);
    SameState(View(y), Place(n, View(x), dec), d);
  }

  lemma {:induction false} OpenedFits(n: int, x: Node, y: Node, dec: Decision)
    requires ValidOrder(n) && Fits(x)
    requires 0 <= dec.k < 2 * n && (dec.d == 0 || dec.d == 1)
    requires y.avail == x.avail && y.Open(dec.d) == Or(x.Open(dec.d), Shr(Pow2(2 * n - 1), dec.k))
    requires y.Open(1 - dec.d) == x.Open(1 - dec.d)
    ensures Fits(y)
  {
    OpenBound(x, 1 - dec.d);
    OpenWord(x, dec.d, 2 * n - 1, dec.k);
    FitsByOpen(y, dec.d);
  }

  /** The open words of `y`, read as sets: the opening at `k` added to
      orientation `d`. */
  lemma {:induction false} OpenedSets(n: int, x: Node, y: Node, dec: Decision)
    requires ValidOrder(n) && Fits(x)
    requires 0 <= dec.k < 2 * n && (dec.d == 0 || dec.d == 1)
    requires y.Open(dec.d) == Or(x.Open(dec.d), Shr(Pow2(2 * n - 1), dec.k))
    requires y.Open(1 - dec.d) == x.Open(1 - dec.d)
    ensures Words.InWord(View(x).open0, 64) && Words.InWord(View(x).open1, 64)
    ensures View(y).Open(dec.d) == View(x).Open(dec.d) + {2 * n - 1 - dec.k}
    ensures View(y).Open(1 - dec.d) == View(x).Open(1 - dec.d)
  {
    var d := dec.d;
    WordInWord(x.open0, 64);
    WordInWord(x.open1, 64);
    OpenWordAs(x, d, 2 * n - 1, dec.k, y.Open(d), 2 * n - 1 - dec.k);
    ViewOpen(y, d);
    ViewOpen(x, d);
    ViewOpen(x, 1 - d);
    ViewOpen(y, 1 - d);
  }

  lemma {:induction false} NodeOpenFields(n: int, x: Node, dec: Decision)
    requires ValidOrder(n) && |x.pos| == n
    requires 0 <= dec.k < 2 * n && dec.m == -1 && (dec.d == 0 || dec.d == 1)
    ensures var y := PlaceNode(n, x, dec);
            y.k == dec.k + 1 && y.numOpen == dec.numOpen + 1 && y.pos == x.pos && y.avail == x.avail &&
            y.Open(dec.d) == Or(x.Open(dec.d), Shr(Pow2(2 * n - 1), dec.k)) &&
            y.Open(1 - dec.d) == x.Open(1 - dec.d)
  {}

  lemma {:induction false} StateOpenFields(n: int, s: State, dec: Decision)
    requires ValidOrder(n) && |s.pos| == n && Words.InWord(s.open0, 64) && Words.InWord(s.open1, 64)
    requires 0 <= dec.k < 2 * n && dec.m == -1 && (dec.d == 0 || dec.d == 1)
    ensures var r := Place(n, s, dec);
            r.k == dec.k + 1 && r.numOpen == dec.numOpen + 1 && r.pos == s.pos && r.avail == s.avail &&
            r.Open(dec.d) == s.Open(dec.d) + {2 * n - 1 - dec.k} &&
            r.Open(1 - dec.d) == s.Open(1 - dec.d)
  {}

  /** Two states that agree in every field, the open words read through
      orientation `d`, are equal. */
  lemma {:induction false} SameState(a: State, b: State, d: int)
    requires d == 0 || d == 1
    requires a.k == b.k && a.numOpen == b.numOpen && a.avail == b.avail && a.pos == b.pos
    requires a.Open(d) == b.Open(d) && a.Open(1 - d) == b.Open(1 - d)
    ensures a == b
  {
    assert a.open0 == b.open0 && a.open1 == b.open1;
  }

  /** The words a close writes, as sets. */
  lemma {:induction false} CloseWords(x: Node, d: int, m: int)
    requires Fits(x) && 0 <= m < 31 && (d == 0 || d == 1)
    ensures Xor(x.avail, Pow2(m)) < Pow2(31)
    ensures Word(Xor(x.avail, Pow2(m)), 32) == Words.Toggle(Word(x.avail, 32), m)
    ensures And(x.Open(d), Minus1(x.Open(d))) < Pow2(62)
    ensures Word(And(x.Open(d), Minus1(x.Open(d))), 64) == Words.ClearLowest(Word(x.Open(d), 64))
  {
    ClearLowestOfWord(x.Open(d), 62);
    ToggleOfWord(x.avail, m, 31);
    WordWiden(x.avail, 31, 32);
    WordWiden(Xor(x.avail, Pow2(m)), 31, 32);
  }

  /** The word an open writes, as a set. */
  lemma {:induction false} OpenWord(x: Node, d: int, a: nat, k: nat)
    requires Fits(x) && k <= a < 62 && (d == 0 || d == 1)
    ensures Or(x.Open(d), Shr(Pow2(a), k)) < Pow2(62)
    ensures Word(Or(x.Open(d), Shr(Pow2(a), k)), 64) == Word(x.Open(d), 64) + {a - k}
  {
    SetOfWord(x.Open(d), a, k, 62);
    WordWiden(x.Open(d), 62, 64);
    WordWiden(Or(x.Open(d), Shr(Pow2(a), k)), 62, 64);
  }

  /** `OpenWord` for a word `o` known to be the one an open writes. */
  lemma {:induction false} OpenWordAs(x: Node, d: int, a: nat, k: nat, o: nat, b: int)
    requires Fits(x) && k <= a < 62 && (d == 0 || d == 1)
    requires o == Or(x.Open(d), Shr(Pow2(a), k)) && b == a - k
    ensures Word(o, 64) == Word(x.Open(d), 64) + {b}
  {
    OpenWord(x, d, a, k);
  }

  /** The close test on the words pushes exactly the close child of the
      sets. */
  lemma {:induction false} CloseChildRefines(n: int, x: Node, d: int)
    requires Sized(n, x) && (d == 0 || d == 1)
    ensures CloseChildNode(n, x, d) == CloseChild(n, View(x), d)
  {
    var s := View(x);
    var w := x.Open(d);
    ViewOpen(x, d);
    PowMonotone(62, 64);
    FfsOfWord(w);
    if w == 0 {
      assert s.Open(d) == {};
    } else {
      assert s.Open(d) != {};
      CloseChildTest(n, s, d);
      CloseTestSets(n, x.k, x.avail, x.k - 2 * n - 2 + Ffs(w));
    }
  }

  /** The close child of the sets, for a nonempty open word. */
  lemma {:induction false} CloseChildTest(n: int, s: State, d: int)
    requires ValidOrder(n) && (d == 0 || d == 1) && Words.InWord(s.Open(d), 64) && s.Open(d) != {}
    ensures var m := s.k - 2 * n - 2 + Words.Ffs(s.Open(d));
            CloseChild(n, s, d) ==
              if 0 <= m < n && m in s.avail && (m != 0 || s.k <= n)
              then [Decision(s.k, m, d, s.numOpen)] else []
  {}

  /** The words push exactly the children of the sets. */
  lemma {:induction false} ChildrenRefine(n: int, x: Node)
    requires Sized(n, x)
    ensures InWords(View(x))
    ensures ChildrenNode(n, x) == Children(n, View(x))
  {
    CloseChildRefines(n, x, 0);
    CloseChildRefines(n, x, 1);
  }

  /** The open words of a node's sets lie in 64 bits. */
  predicate InWords(s: State)
  {
    Words.InWord(s.open0, 64) && Words.InWord(s.open1, 64)
  }

  // ---------------------------------------------------------------------
  // The search on the words

  /** The positions recorded below node `x`, computed on the words. */
  function ExploreNode(n: int, share: Share, x: Node): seq<seq<int>>
    requires NodeShape(n, x)
    decreases 2 * n - x.k, 1, 0
  {
    if x.k == 2 * n then
      [x.pos]
    else if Skip(n, share, View(x)) then
      []
    else
      ChildrenRefine(n, x);
      ChildrenAllLegal(n, View(x));
      ExploreAllNode(n, share, x, ChildrenNode(n, x))
  }

  function ExploreAllNode(n: int, share: Share, x: Node, ds: seq<Decision>): seq<seq<int>>
    requires NodeShape(n, x) && x.k < 2 * n
    requires AllLegal(n, View(x), ds)
    decreases 2 * n - x.k, 0, |ds|
  {
    if ds == [] then
      []
    else
      ExploreChildNode(n, share, x, ds[|ds| - 1]) + ExploreAllNode(n, share, x, ds[..|ds| - 1])
  }

  function ExploreChildNode(n: int, share: Share, x: Node, dec: Decision): seq<seq<int>>
    requires NodeShape(n, x) && x.k < 2 * n && Legal(n, View(x), dec)
    decreases 2 * n - x.k, 0, 0
  {
    PlaceRefines(n, x, dec);
    ExploreNode(n, share, PlaceNode(n, x, dec))
  }

  /** `dfs<n>` on the words, from its single root decision. */
  function DfsNode(n: int, share: Share): seq<seq<int>>
    requires ValidOrder(n)
  {
    StartRefines(n);
    RootFacts(n);
    ExploreAllNode(n, share, StartNode(n), [RootDecision])
  }

  lemma {:induction false} ExploreRefines(n: int, share: Share, x: Node)
    requires NodeShape(n, x)
    ensures ExploreNode(n, share, x) == Explore(n, share, View(x))
    decreases 2 * n - x.k, 1, 0
  {
    if x.k < 2 * n && !Skip(n, share, View(x)) {
      ChildrenRefine(n, x);
      ChildrenAllLegal(n, View(x));
      ExploreAllRefines(n, share, x, ChildrenNode(n, x));
    }
  }

  lemma {:induction false} ExploreAllRefines(n: int, share: Share, x: Node, ds: seq<Decision>)
    requires NodeShape(n, x) && x.k < 2 * n
    requires AllLegal(n, View(x), ds)
    ensures ExploreAllNode(n, share, x, ds) == ExploreAll(n, share, View(x), ds)
    decreases 2 * n - x.k, 0, |ds|
  {
    if ds != [] {
      ExploreChildRefines(n, share, x, ds[|ds| - 1]);
      ExploreAllRefines(n, share, x, ds[..|ds| - 1]);
    }
  }

  lemma {:induction false} ExploreChildRefines(n: int, share: Share, x: Node, dec: Decision)
    requires NodeShape(n, x) && x.k < 2 * n && Legal(n, View(x), dec)
    ensures ExploreChildNode(n, share, x, dec) == ExploreChild(n, share, View(x), dec)
    decreases 2 * n - x.k, 0, 0
  {
    PlaceRefines(n, x, dec);
    ExploreRefines(n, share, PlaceNode(n, x, dec));
  }

  /** The search run on the machine words records exactly the vectors, in
      the same order, that the search on sets records. */
  lemma {:induction false} DfsRefines(n: int, share: Share)
    requires ValidOrder(n)
    ensures DfsNode(n, share) == Dfs(n, share)
  {
    StartRefines(n);
    RootFacts(n);
    ExploreAllRefines(n, share, StartNode(n), [RootDecision]);
  }
}

=== FILE: words.dfy ===
/** The machine words of the search, each seen as the set of indices of its
    one-bits.

    The search keeps three words per depth: a 32-bit availability word and two
    64-bit open words.  Every operation it applies to them is a set operation
    on the indices of their one-bits: `__builtin_ffsll` finds the least index,
    `x & (x - 1)` removes it, `x ^ (1 << m)` flips one index and
    `x | (nn1 >> k)` adds one.  This module defines those operations on sets;
    the module `Bits` shows that the source's expressions, evaluated on the
    words as numbers, compute them. */
module Words {

  /** Every one-bit of `w` lies in a word of `width` bits. */
  predicate InWord(w: set<int>, width: int)
  {
    forall b :: b in w ==> 0 <= b < width
  }

  /** `b` is the least element of `w`. */
  predicate IsLeast(w: set<int>, b: int)
  {
    b in w && forall c :: c in w ==> b <= c
  }

  /** `__builtin_ffsll`: one plus the index of the least significant one-bit,
      or 0 for the zero word. */
  function Ffs(w: set<int>): (r: int)
    requires InWord(w, 64)
    ensures 0 <= r <= 64
    ensures r == 0 <==> w == {}
    ensures r > 0 ==> IsLeast(w, r - 1)
  {
    FfsFrom(w, 0)
  }

  /** The scan behind `Ffs`, starting at index `i` below which `w` has no bit. */
  function FfsFrom(w: set<int>, i: int): (r: int)
    requires 0 <= i <= 64
    requires forall b :: b in w ==> i <= b < 64
    ensures 0 <= r <= 64
    ensures r == 0 <==> w == {}
    ensures r > 0 ==> IsLeast(w, r - 1)
    decreases 64 - i
  {
    if i == 64 then 0
    else if i in w then i + 1
    else FfsFrom(w, i + 1)
  }

  /** `x & (x - 1)`: the word without its least significant one-bit. */
  function ClearLowest(w: set<int>): (r: set<int>)
    requires InWord(w, 64)
    ensures r <= w
    ensures w == {} ==> r == {}
    ensures w != {} ==> |r| == |w| - 1
    ensures forall b :: b in w && b !in r ==> IsLeast(w, b)
  {
    var f := Ffs(w);
    if f == 0 then w else w - {f - 1}
  }

  /** `x ^ (1 << b)`: the word with bit `b` flipped and every other bit kept. */
  function Toggle(w: set<int>, b: int): (r: set<int>)
    ensures b in r <==> b !in w
    ensures forall c :: c != b ==> (c in r <==> c in w)
  {
    if b in w then w - {b} else w + {b}
  }

  /** `(1 << (n - 1)) | ((1 << (n - 1)) - 1)`: the word with bits `0..n-1` set. */
  function LowBits(n: int): (r: set<int>)
    ensures forall b :: b in r <==> 0 <= b < n
    decreases n
  {
    if n <= 0 then {} else LowBits(n - 1) + {n - 1}
  }

  /** The integers `0..n-1` form a set of `n` elements. */
  lemma {:induction false} LowBitsCard(n: nat)
    ensures |LowBits(n)| == n
  {
    if n > 0 {
      LowBitsCard(n - 1);
    }
  }

  /** A subset has at most as many elements as its superset. */
  lemma {:induction false} SubsetCard<T>(a: set<T>, b: set<T>)
    requires a <= b
    ensures |a| <= |b|
    ensures |a| == |b| ==> a == b
    decreases b
  {
    if b != {} {
      var x :| x in b;
      SubsetCard(a - {x}, b - {x});
      if x in a {
        assert |a - {x}| == |a| - 1;
        assert a == (a - {x}) + {x};
        assert b == (b - {x}) + {x};
      } else {
        assert a - {x} == a;
      }
    }
  }
}

=== FILE: work_split.dfy ===
/** The threads together do the work of one search.

    For the orders with a division depth (`n >= 6`) the records of all
    threads, pooled, are exactly the records of the undivided search: every
    node at the division depth is explored by one thread, its owner.  For the
    smaller orders the depth is never reached and every thread runs the whole
    search. */
module WorkSplit {
  import opened Words
  import opened SearchState
  import opened Partition
  import opened Search

  // ---------------------------------------------------------------------
  // Pooling the records of several threads

  /** The records of the runs `rs`, one run per thread, pooled. */
  function Merge(rs: seq<seq<seq<int>>>): (r: multiset<seq<int>>)
    ensures forall pos :: pos in r <==> exists t :: 0 <= t < |rs| && pos in rs[t]
    decreases |rs|
  {
    if rs == [] then multiset{}
    else
      var pre := rs[..|rs| - 1];
      var r := Merge(pre) + multiset(rs[|rs| - 1]);
      assert forall t :: 0 <= t < |pre| ==> pre[t] == rs[t];
      r
  }

  /** The runs `xs` each followed by the matching run of `ys`. */
  function Zip(xs: seq<seq<seq<int>>>, ys: seq<seq<seq<int>>>): (r: seq<seq<seq<int>>>)
    requires |xs| == |ys|
    ensures |r| == |xs| && forall t :: 0 <= t < |r| ==> r[t] == xs[t] + ys[t]
  {
    seq(|xs|, t requires 0 <= t < |xs| => xs[t] + ys[t])
  }

  /** Pooling commutes with concatenating the runs thread by thread. */
  lemma {:induction false} MergeZip(xs: seq<seq<seq<int>>>, ys: seq<seq<seq<int>>>)
    requires |xs| == |ys|
    ensures Merge(Zip(xs, ys)) == Merge(xs) + Merge(ys)
    decreases |xs|
  {
    if xs != [] {
      var k := |xs| - 1;
      var z := Zip(xs, ys);
      assert z[..k] == Zip(xs[..k], ys[..k]);
      MergeZip(xs[..k], ys[..k]);
      MergeLast(z);
      MergeLast(xs);
      MergeLast(ys);
      assert multiset(z[k]) == multiset(xs[k]) + multiset(ys[k]) by {
        assert z[k] == xs[k] + ys[k];
      }
    }
  }

  lemma MergeLast(rs: seq<seq<seq<int>>>)
    requires rs != []
    ensures Merge(rs) == Merge(rs[..|rs| - 1]) + multiset(rs[|rs| - 1])
  {
  }

  /** When only run `o` records anything, the pool is that run. */
  lemma {:induction false} MergeOne(rs: seq<seq<seq<int>>>, o: int, run: seq<seq<int>>)
    requires 0 <= o
    requires forall t :: 0 <= t < |rs| ==> rs[t] == if t == o then run else []
    ensures Merge(rs) == if o < |rs| then multiset(run) else multiset{}
    decreases |rs|
  {
    if rs != [] {
      var pre := rs[..|rs| - 1];
      assert forall t :: 0 <= t < |pre| ==> pre[t] == rs[t];
      MergeOne(pre, o, run);
    }
  }

  /** Equal runs, repeated, pool to the same vectors as one of them. */
  lemma {:induction false} MergeSame(rs: seq<seq<seq<int>>>, run: seq<seq<int>>)
    requires rs != [] && forall t :: 0 <= t < |rs| ==> rs[t] == run
    ensures forall pos :: pos in Merge(rs) <==> pos in run
  {
    assert rs[0] == run;
  }

  lemma InMultiset<T>(a: seq<T>)
    ensures forall x :: x in a <==> x in multiset(a)
  {}

  lemma SameMembers<T>(a: seq<T>, b: seq<T>)
    requires multiset(a) == multiset(b)
    ensures forall x :: x in a <==> x in b
  {
    InMultiset(a);
    InMultiset(b);
  }

  // ---------------------------------------------------------------------
  // The runs of threads `0..T-1`

  /** The records of threads `0..T-1` below node `s`, thread by thread. */
  function Runs(n: int, h: Hash, s: State, T: nat): (r: seq<seq<seq<int>>>)
    requires Shape(n, s)
    ensures |r| == T && forall t :: 0 <= t < T ==> r[t] == Explore(n, Slot(t, h), s)
  {
    seq(T, t requires 0 <= t < T => Explore(n, Slot(t, h), s))
  }

  /** The records of threads `0..T-1` for the decisions `ds` at node `s`. */
  function RunsAll(n: int, h: Hash, s: State, ds: seq<Decision>, T: nat): (r: seq<seq<seq<int>>>)
    requires Shape(n, s) && s.k < 2 * n && AllLegal(n, s, ds)
    ensures |r| == T && forall t :: 0 <= t < T ==> r[t] == ExploreAll(n, Slot(t, h), s, ds)
  {
    seq(T, t requires 0 <= t < T => ExploreAll(n, Slot(t, h), s, ds))
  }

  // ---------------------------------------------------------------------
  // Below the division depth a thread sees the whole subtree

  lemma {:induction false} BeyondLimit(n: int, h: Hash, t: int, s: State)
    requires Shape(n, s) && s.k > KLimit(n)
    ensures Explore(n, Slot(t, h), s) == Explore(n, Everything, s)
    decreases 2 * n - s.k, 1, 0
  {
    if s.k < 2 * n {
      OpenWords(n, s);
      ChildrenAllLegal(n, s);
      BeyondLimitAll(n, h, t, s, Children(n, s));
    }
  }

  lemma {:induction false} BeyondLimitAll(n: int, h: Hash, t: int, s: State, ds: seq<Decision>)
    requires Shape(n, s) && KLimit(n) <= s.k < 2 * n
    requires AllLegal(n, s, ds)
    ensures ExploreAll(n, Slot(t, h), s, ds) == ExploreAll(n, Everything, s, ds)
    decreases 2 * n - s.k, 0, |ds|
  {
    if ds != [] {
      var dec := ds[|ds| - 1];
      PlaceKeepsShape(n, s, dec);
      BeyondLimit(n, h, t, Place(n, s, dec));
      BeyondLimitAll(n, h, t, s, ds[..|ds| - 1]);
    }
  }

  /** At the division depth a thread explores the subtree of a node if it
      owns the node, and nothing otherwise. */
  lemma {:induction false} AtLimit(n: int, h: Hash, t: int, s: State)
    requires Shape(n, s) && s.k == KLimit(n)
    ensures Explore(n, Slot(t, h), s) ==
              if t == Owner(h, s) then Explore(n, Everything, s) else []
  {
    KLimitBelowLeaves(n);
    OpenWords(n, s);
    ChildrenAllLegal(n, s);
    if t == Owner(h, s) {
      BeyondLimitAll(n, h, t, s, Children(n, s));
    }
  }

  // ---------------------------------------------------------------------
  // Above it, pooling commutes with the children

  lemma {:induction false} RunsBelow(n: int, h: Hash, s: State, T: nat)
    requires Shape(n, s) && s.k < KLimit(n) && s.k < 2 * n
    ensures InWord(s.open0, 64) && InWord(s.open1, 64) && AllLegal(n, s, Children(n, s))
    ensures Runs(n, h, s, T) == RunsAll(n, h, s, Children(n, s), T)
  {
    OpenWords(n, s);
    ChildrenAllLegal(n, s);
  }

  lemma {:induction false} RunsAllSplit(n: int, h: Hash, s: State, ds: seq<Decision>, T: nat)
    requires Shape(n, s) && s.k < 2 * n && ds != [] && AllLegal(n, s, ds)
    ensures InWord(s.open0, 64) && InWord(s.open1, 64)
    ensures Shape(n, Place(n, s, ds[|ds| - 1])) && Place(n, s, ds[|ds| - 1]).k == s.k + 1
    ensures RunsAll(n, h, s, ds, T) ==
              Zip(Runs(n, h, Place(n, s, ds[|ds| - 1]), T), RunsAll(n, h, s, ds[..|ds| - 1], T))
  {
    OpenWords(n, s);
    var dec := ds[|ds| - 1];
    PlaceKeepsShape(n, s, dec);
    var a := RunsAll(n, h, s, ds, T);
    var b := Zip(Runs(n, h, Place(n, s, dec), T), RunsAll(n, h, s, ds[..|ds| - 1], T));
    forall t | 0 <= t < T
      ensures a[t] == b[t]
    {
      var share := Slot(t, h);
      assert ExploreAll(n, share, s, ds) ==
             ExploreChild(n, share, s, dec) + ExploreAll(n, share, s, ds[..|ds| - 1]);
    }
  }

  /** From a node no deeper than the division depth, the threads' records
      pooled are the records of the undivided search. */
  lemma {:induction false} SplitExact(n: int, h: Hash, s: State)
    requires Shape(n, s) && s.k <= KLimit(n)
    ensures Merge(Runs(n, h, s, MaxThreads)) == multiset(Explore(n, Everything, s))
    decreases 2 * n - s.k, 1, 0
  {
    KLimitBelowLeaves(n);
    if s.k == KLimit(n) {
      var rs := Runs(n, h, s, MaxThreads);
      forall t | 0 <= t < MaxThreads
        ensures rs[t] == if t == Owner(h, s) then Explore(n, Everything, s) else []
      {
        AtLimit(n, h, t, s);
      }
      MergeOne(rs, Owner(h, s), Explore(n, Everything, s));
    } else {
      RunsBelow(n, h, s, MaxThreads);
      SplitExactAll(n, h, s, Children(n, s));
    }
  }

  lemma {:induction false} SplitExactAll(n: int, h: Hash, s: State, ds: seq<Decision>)
    requires Shape(n, s) && s.k < KLimit(n) && s.k < 2 * n
    requires AllLegal(n, s, ds)
    ensures Merge(RunsAll(n, h, s, ds, MaxThreads)) == multiset(ExploreAll(n, Everything, s, ds))
    decreases 2 * n - s.k, 0, |ds|
  {
    if ds == [] {
      MergeOne(RunsAll(n, h, s, ds, MaxThreads), 0, []);
    } else {
      var dec := ds[|ds| - 1];
      RunsAllSplit(n, h, s, ds, MaxThreads);
      SplitExactAll(n, h, s, ds[..|ds| - 1]);
      SplitExact(n, h, Place(n, s, dec));
      MergeZip(Runs(n, h, Place(n, s, dec), MaxThreads), RunsAll(n, h, s, ds[..|ds| - 1], MaxThreads));
    }
  }

  // ---------------------------------------------------------------------
  // The whole run

  /** The `results` vector after threads `0..T-1` have appended their
      records. */
  function Threads(n: int, h: Hash, T: int): (r: seq<seq<int>>)
    requires ValidOrder(n)
    ensures T <= 0 ==> r == []
    ensures T > 0 ==> r == Threads(n, h, T - 1) + Dfs(n, Slot(T - 1, h))
    decreases T
  {
    if T <= 0 then [] else Threads(n, h, T - 1) + Dfs(n, Slot(T - 1, h))
  }

  lemma {:induction false} ThreadsMerge(n: int, h: Hash, T: nat)
    requires ValidOrder(n)
    ensures Shape(n, RootState(n))
    ensures multiset(Threads(n, h, T)) == Merge(Runs(n, h, RootState(n), T))
    decreases T
  {
    RootStateInv(n);
    if T > 0 {
      ThreadsMerge(n, h, T - 1);
      DfsFromRoot(n, Slot(T - 1, h));
      assert Runs(n, h, RootState(n), T)[..T - 1] == Runs(n, h, RootState(n), T - 1);
    }
  }

  /** With a division depth, the records of all threads together are those
      of the undivided search, each exactly as often. */
  lemma {:induction false} ThreadsDivide(n: int, h: Hash)
    requires ValidOrder(n) && n >= 6
    ensures multiset(Threads(n, h, MaxThreads)) == multiset(Dfs(n, Everything))
  {
    KLimitBelowLeaves(n);
    ThreadsMerge(n, h, MaxThreads);
    DfsFromRoot(n, Everything);
    SplitExact(n, h, RootState(n));
  }

  /** Without one, every thread records what the undivided search does. */
  lemma {:induction false} ThreadsRepeat(n: int, h: Hash, t: int)
    requires ValidOrder(n) && n < 6
    ensures Dfs(n, Slot(t, h)) == Dfs(n, Everything)
  {
    KLimitBelowLeaves(n);
    DfsFromRoot(n, Slot(t, h));
    DfsFromRoot(n, Everything);
    BeyondLimit(n, h, t, RootState(n));
  }

  /** Without a division depth the threads together record the vectors
      of the undivided search. */
  lemma {:induction false} ThreadsCoverSmall(n: int, h: Hash)
    requires ValidOrder(n) && n < 6
    ensures forall pos :: pos in Threads(n, h, MaxThreads) <==> pos in Dfs(n, Everything)
  {
    ThreadsMerge(n, h, MaxThreads);
    var rs := Runs(n, h, RootState(n), MaxThreads);
    DfsFromRoot(n, Everything);
    forall t | 0 <= t < MaxThreads
      ensures rs[t] == Dfs(n, Everything)
    {
      DfsFromRoot(n, Slot(t, h));
      ThreadsRepeat(n, h, t);
    }
    MergeSame(rs, Dfs(n, Everything));
    InMultiset(Threads(n, h, MaxThreads));
  }

  /** Either way the threads together record the same vectors as the
      undivided search. */
  lemma {:induction false} ThreadsCover(n: int, h: Hash)
    requires ValidOrder(n)
    ensures forall pos :: pos in Threads(n, h, MaxThreads) <==> pos in Dfs(n, Everything)
  {
    if n >= 6 {
      ThreadsDivide(n, h);
      SameMembers(Threads(n, h, MaxThreads), Dfs(n, Everything));
    } else {
      ThreadsCoverSmall(n, h);
    }
  }
}
